=== FILE: README.md ===
# Neuro-Transmitter Questionnaire — a Dafny model of its scoring and interpretation core

The questionnaire records true/false answers to the statements of a fixed
question table. There are two parts: part 1 is the dominant nature, part 2
the deficiencies. Each part covers four neurotransmitter systems (dopamine,
acetylcholine, GABA, serotonin), and each system has four subcategories.

From the answers the program derives:

- per-part, per-system scores;
- the classification: the dominant system, the deficient systems, and the
  relative gaps;
- a clinical interpretation of seven sections.

Around that pipeline sit:

- the charts, which repeat the classification thresholds;
- a progressive section navigation with its completion check;
- a privacy manager that gates storage and export;
- export helpers for file names and document paragraphs;
- a validation report.

This project models that core as immutable datatypes and pure functions. It
proves the properties the code and its design promise.

| file | module | what it holds |
|---|---|---|
| `domain.dfy` | `Wrappers`, `Domain` | option/result types; categories in enumeration order, parts, score maps |
| `sets.dfy` | `Sets` | cardinality facts the counting loops use |
| `question_table.dfy` | `QuestionTable` | item counts of the question table and the 40/28 maxima |
| `binary64.dfy` | `Binary64` | numbers as fractions m / 2^k, the binary64 rounding rule, `Math.round` |
| `stable_sort.dfy` | `StableSort` | a stable descending sort and its order/permutation lemmas (models `Array.prototype.sort`) |
| `response_store.dfy` | `ResponseStore` | recorded answers, the score loop and its reference count |
| `classification.dfy` | `Classification` | thresholds, dominant, deficiencies, gaps, mixed profile |
| `gap_rounding.dfy` | `GapRounding` | the double evaluation of the gap at the ties where it rounds down |
| `interpretation.dfy` | `Interpretation` | which interpretation blocks are emitted, in which order |
| `charts.dfy` | `Charts` | tooltip/label ladders and the heatmap gap row |
| `navigation.dfy` | `Navigation` | section sequence, next/previous/jump, nav links, section completion |
| `questionnaire.dfy` | `Questionnaire` | controller state, answering, navigateTo, save/load/reset, listener registry |
| `storage.dfy` | `Storage` | the two storage keys and what they hold |
| `privacy.dfy` | `Privacy` | settings, gates, consent, gated storage operations |
| `export.dfy` | `Export` | whitespace handling, date and file names, paragraph splitting, export guards |
| `validation.dfy` | `Validation` | the eight validation areas and the report |

Modelling choices:

- **Gap percentage.** The code computes the gap as `Math.round((d/28 - p/40) * 100)`
  on doubles. The rounding of the exact value is `ExactGap`,
  `(50d - 35p + 7) / 14` in Euclidean integer division. The doubles agree
  with it except at some exact halves. There, each of the three operations
  can leave the double a little below the half, and `Math.round` then goes
  down. Within the score ranges this happens at 20 score pairs, listed in
  `Classification.BinaryBelowHalf`. `GapPercentage` is `ExactGap` minus one
  on those pairs and `ExactGap` everywhere else. `GapRounding` writes out the
  double value of every intermediate at each listed pair and checks it
  against the binary64 rounding rule. The heatmap evaluates the same
  expression, so its gap cell is `GapPercentage` too.
- **Sorting.** JavaScript's `sort` is stable, so every stable sort gives the
  same output. It is modelled as a stable insertion sort, and stability is
  proved as the lexicographic order (key descending, enumeration index
  ascending).
- **Storage** is a map from key to the record the JSON text parses to. It
  includes an `Unparseable` value for text that does not parse.
- **Unchecked input.** Two places in the code take their input as it comes:
  - the answer handlers (questionnaire_logic.js:395-398 and 417-420) write
    whatever part, system, subcategory and index they are given;
  - `loadResponses` (questionnaire_logic.js:566-569) copies each field it
    finds in the snapshot without checking its shape.

  The model does the same. Bounds on scores are proved only for stores
  that hold listed statements, which are the ones the handlers write
  (`ResponseStore.ScoreBound`, `Questionnaire.HandlerAnswersWellFormed`).

## Model

| member | source | states |
|---|---|---|
| QuestionTable.CategoryMax | questionDatabase.js:8-380 | every category of part 1 holds 40 statements and every category of part 2 holds 28 |
| QuestionTable.PartTotal | questionDatabase.js:8-380 | the table holds 160 part-1 and 112 part-2 statements |
| QuestionTable.MaximaMatchGapDenominators | questionDatabase.js:11-216 | every part-1 subcategory list has 10 items and every part-2 list 7, so the category maxima are the gap formula's denominators 40 and 28 |
| ResponseStore.Record | questionnaire_logic.js:395-398 | recording an answer sets exactly that statement's cell to the value, overwriting it, and leaves every other cell as it was |
| ResponseStore.RecordIdempotent | questionnaire_logic.js:417-420 | giving the same answer twice has the same effect as giving it once |
| ResponseStore.RecordOverwrites | questionnaire_logic.js:395-398 | a later answer to a statement replaces the earlier one |
| ResponseStore.CalculateScores | questionnaire_logic.js:457-509 | each score is the number of statements of that part and system answered `true`; false and absent answers add nothing; counting restarts from zero, so the result depends only on the answers |
| ResponseStore.RecordScoreEffect | questionnaire_logic.js:475-500 | recording an answer changes only the score of its own part and system, by how its truth changed |
| ResponseStore.PartIndependence | questionnaire_logic.js:459-500 | the scores of a part depend only on the answers of that part |
| ResponseStore.RecordWellFormed | questionnaire_logic.js:352-356 | answering a statement that is listed in the table keeps the store limited to listed statements |
| ResponseStore.ScoreBound | questionnaire_logic.js:457-509 | on a store of listed statements, a part-1 score is at most 40 and a part-2 score at most 28 |
| StableSort.SortDesc | clinical_interpretation_updated.js:261 | the sort output is a permutation of its input, ordered by non-increasing key |
| StableSort.SortDescStable | clinical_interpretation_updated.js:304 | sorting an input that is in enumeration order keeps equal keys in enumeration order |
| StableSort.HeadIsFirstMaximum | clinical_interpretation_updated.js:339-340 | the head of a stably sorted list holds the maximum key, and no element with the same key comes earlier in the enumeration |
| Classification.DominanceBands | clinical_interpretation_updated.js:133-138 | the dominance level is high from 35, moderate from 25 to 34, mild from 15 to 24 and none below 15, all lower bounds inclusive |
| Classification.DeficiencyBands | clinical_interpretation_updated.js:139-143 | the deficiency level is high from 20, moderate from 15 to 19, mild from 10 to 14 and none below 10 |
| Classification.LevelsMonotone | clinical_interpretation_updated.js:218-225 | a higher score never gets a lower dominance or deficiency level |
| Classification.GetDominant | clinical_interpretation_updated.js:202-233 | no dominant system exactly when no part-1 score is positive; otherwise the dominant system holds the maximum score, no earlier system reaches it, and the reported score and level are that maximum and its level |
| Classification.DominantIsFirstArgMax | clinical_interpretation_updated.js:209-215 | the dominant system is the first system holding the maximum part-1 score, exactly when that maximum is positive |
| Classification.GetDeficient | clinical_interpretation_updated.js:235-264 | the deficiency list holds exactly the systems with part-2 score of 10 or more, each once, with its score and level; it is ordered by non-increasing score with ties in enumeration order, and has at most four entries |
| Classification.PrimaryDeficiencyIsFirstArgMax | clinical_interpretation_updated.js:259-263 | the list is non-empty exactly when some part-2 score reaches 10, and its head is then the first system holding the maximum part-2 score |
| Classification.ExactGap | clinical_interpretation_updated.js:276-277 | in exact arithmetic, the gap is the integer nearest to `100 * (d/28 - p/40)`, the larger one on a tie |
| Classification.GapPercentage | clinical_interpretation_updated.js:276-277 | the gap the program computes is always an integer within one half of `100 * (d/28 - p/40)`; away from a tie it is the exact rounding |
| Classification.GapBandsAgree | clinical_interpretation_updated.js:277-292 | the double rounding never changes the gap band: the program's gap and the exact one fall in the same band for every pair of scores |
| Binary64.MathRound | clinical_interpretation_updated.js:277 | `Math.round` gives an integer `r` with `r - 1/2 <= v < r + 1/2` |
| Binary64.MathRoundUnique | clinical_interpretation_updated.js:277 | only one integer lies within half of `v` in that way, so `Math.round` is determined by that property |
| GapRounding.BelowHalfCertified | clinical_interpretation_updated.js:276-277 | at every listed pair the exact gap is a tie; each listed double is the correctly rounded result of its operation, from `d / 28` and `p / 40` through the difference to the product by 100; `Math.round` of the last double is `GapPercentage`, one below the exact rounding |
| GapRounding.Dominant1Deficiency0 | clinical_interpretation_updated.js:276-277 | at dominant 1 and deficiency 0 the tie -2.5 is computed exactly, so `Math.round` gives -2, which is both the exact rounding and `GapPercentage` |
| Classification.GapBounds | clinical_interpretation_updated.js:271-277 | for part-1 scores 0 to 40 and part-2 scores 0 to 28 the gap lies between -100 and 100 |
| Classification.GapBands | clinical_interpretation_updated.js:279-292 | the seven gap bands are the intervals 30 and up, 15 to 29, 5 to 14, -4 to 4, -14 to -5, -29 to -15, and -30 and below |
| Classification.CalculateRelativeGaps | clinical_interpretation_updated.js:267-306 | one gap record per system, each carrying that system's scores, gap and band, ordered by non-increasing absolute gap with ties in enumeration order |
| Classification.FirstGapIsFirstMaximum | clinical_interpretation_updated.js:304-305 | the first gap record has the largest absolute gap, and no earlier system has the same absolute gap |
| Classification.TopOther | clinical_interpretation_updated.js:333-340 | the secondary system is a system other than the dominant one holding the highest score among the others, the first such in enumeration order |
| Classification.MixedProfile | clinical_interpretation_updated.js:342-346 | a mixed profile is reported exactly when the secondary score is at least 25 and the dominant score exceeds it by less than 10, and it names the secondary system |
| Classification.MixedProfileRuleOn | clinical_interpretation_updated.js:333-346 | the mixed-profile partner is `c` exactly when `c` is the first top scorer among the other systems and the rule's two thresholds hold |
| Interpretation.DominantSection | clinical_interpretation_updated.js:310-360 | the dominant-nature block is the fallback exactly when there is no dominant system; otherwise it names the dominant system and level and carries the mixed-profile decision |
| Interpretation.DeficiencySectionOf | clinical_interpretation_updated.js:362-424 | the deficiency block is the fallback exactly when the list is empty; otherwise the list's head is the primary deficiency and the rest are the additional ones, in order |
| Interpretation.PatternFinding | clinical_interpretation_updated.js:427-469 | no extreme imbalance exactly when the first gap's absolute value is below 15; otherwise an imbalance for a positive gap and a strength for a negative one, about that first gap |
| Interpretation.InteractionOf | clinical_interpretation_updated.js:503-519 | the interaction block appears exactly when a dominant system exists, the deficiency list is non-empty and its head differs from the dominant system, and it names those two systems |
| Interpretation.Compose | clinical_interpretation_updated.js:165-195 | the interpretation is seven sections in fixed order, with the four general prescribing considerations always present |
| Interpretation.GenerateClinicalInterpretation | clinical_interpretation_updated.js:152-200 | nothing is produced without a container; otherwise seven sections under the headings Clinical Summary, Dominant Neurotransmitter Nature, Neurotransmitter Deficiency Patterns, Pattern Analysis, Clinical Considerations, Prescribing Implications, Clinical Disclaimer |
| Interpretation.NoDominantFallback | clinical_interpretation_updated.js:311-318 | the "no clearly dominant" narrative appears exactly when every part-1 score is 0 or less |
| Interpretation.NoDeficiencyFallback | clinical_interpretation_updated.js:363-370 | the "no significant deficiency" narrative appears exactly when every part-2 score is below 10 |
| Interpretation.MixedProfileRule | clinical_interpretation_updated.js:333-346 | when `d` is the first system holding the positive maximum part-1 score, the dominant-nature block names `d`, and a mixed profile with `c` is reported exactly when `c` is the first top scorer among the other systems, scores at least 25, and trails the dominant score by less than 10 |
| Interpretation.PatternAnalysisRule | clinical_interpretation_updated.js:427-454 | the pattern analysis reports no extreme imbalance exactly when every system's absolute gap is below 15; otherwise it reports the first system, in enumeration order, with the largest absolute gap, as an imbalance exactly when that gap is positive and as a strength otherwise |
| Interpretation.InteractionRule | clinical_interpretation_updated.js:504-519 | the interaction block names `a` and `b` exactly when `a` is the first system holding the maximum part-1 score and that maximum is positive, `b` is the first system holding the maximum part-2 score and that maximum reaches 10, and `a` differs from `b` |
| Interpretation.ConsiderationsRule | clinical_interpretation_updated.js:478-557 | the considerations and prescribing blocks discuss `a` as dominant exactly when `a` is the first highest part-1 category with a positive score, and `b` as deficient exactly when `b` is the first highest part-2 category with a score of at least 10; both blocks name the same pair |
| Charts.DominantTooltipMatchesLevel | visualizations.js:487-497 | the dominance tooltip of every score describes exactly that score's dominance level |
| Charts.DeficiencyTooltipMatchesLevel | visualizations.js:499-509 | the deficiency tooltip of every score describes exactly that score's deficiency level |
| Charts.GapTooltipMatchesLevel | visualizations.js:511-527 | the gap tooltip uses the seven gap bands in the classification's order |
| Charts.AfterLabelsMatchLevels | visualizations.js:221-232 | the bar-chart second lines follow the dominance and deficiency levels, reading a missing value as 0 |
| Charts.HeatmapColourMatchesLevel | visualizations.js:446-468 | the heatmap's gap cell evaluates the classification's expression and is coloured by its gap band; balanced cells stay uncoloured |
| Navigation.SequenceShape | progressive_interface.js:12-26 | the sequence has 13 distinct section ids, from `welcome` to `results` |
| Navigation.IndexOf | progressive_interface.js:50 | the position found is the first occurrence of the id, and -1 exactly when the id is absent |
| Navigation.NavigateToSection | progressive_interface.js:48-53 | jumping to a listed section makes it current; an unlisted id leaves the index unchanged |
| Navigation.NavigateToNext | progressive_interface.js:32-37 | next moves one step forward, except at `results`, where it does nothing |
| Navigation.NavigateToPrevious | progressive_interface.js:40-45 | previous moves one step back, except at `welcome`, where it does nothing |
| Navigation.NextPreviousInverse | progressive_interface.js:32-45 | away from the ends, next and previous undo each other |
| Navigation.NextReachesResults | progressive_interface.js:32-37 | enough next steps reach `results`, and further steps stay there |
| Navigation.UpdateLink | progressive_interface.js:89-106 | a link is active exactly when it names the current section, and gains (never loses) `completed` when its position is before the current one |
| Navigation.AtMostOneActiveSection | progressive_interface.js:92-99 | two active links always name the same section |
| Navigation.UnknownLinkCompleted | progressive_interface.js:92-104 | a link naming no listed section has position -1, so it is never active and always marked completed |
| Navigation.CompletionMeansEveryGroupAnswered | progressive_interface.js:307-346 | a section on the page is complete exactly when every radio group in it has a checked input; a section without radio inputs is complete |
| Questionnaire.InitialProgress | questionnaire_logic.js:86-100 | a fresh questionnaire lists every section, with only `welcome` visited |
| Questionnaire.SaveResponses | questionnaire_logic.js:536-547 | the snapshot of the state is written under the data key whatever the privacy settings; every other key keeps its value |
| Questionnaire.LoadResponses | questionnaire_logic.js:559-581 | loading fails exactly when nothing parseable is saved; otherwise each saved field replaces its part of the state, the name only when non-empty, without any shape check |
| Questionnaire.SaveLoadRoundTrip | questionnaire_logic.js:536-581 | loading what was saved restores answers, scores and visited flags, and the name unless it was empty |
| Questionnaire.Answer | questionnaire_logic.js:392-432 | an answer handler records the answer and saves a snapshot of the new state |
| Questionnaire.NavigateTo | questionnaire_logic.js:218-254 | showing a section on the page makes it current, marks it visited, recomputes the scores for `results`, and saves; a section not on the page changes nothing |
| Questionnaire.NavigationKeepsVisited | questionnaire_logic.js:230-231 | navigation never clears a visited flag |
| Questionnaire.ResultsScoresBounded | questionnaire_logic.js:243-246 | after navigating to `results` from a store of listed statements, the part-1 scores are 0 to 40 and the part-2 scores 0 to 28 |
| Questionnaire.HandlerAnswersWellFormed | questionnaire_logic.js:352-356 | any sequence of handler answers to listed statements keeps the store limited to listed statements |
| Questionnaire.ResetQuestionnaire | questionnaire_logic.js:584-686 | a reset empties every answer, zeroes every score, clears the name, leaves only `welcome` visited, removes the snapshot (re-saving the fresh one when `welcome` is on the page), and touches no other key |
| Questionnaire.ResetScoresZero | questionnaire_logic.js:586-672 | after a reset every score is 0 |
| Questionnaire.AddEventListener | questionnaire_logic.js:690-696 | registering appends the callback after the existing listeners of that event only |
| Questionnaire.RemoveEventListener | questionnaire_logic.js:698-704 | removal deletes every registration of the callback for that event, leaves that event with the filtered list (whose other members keep their counts), leaves other events alone, and ignores an unknown event |
| Questionnaire.RemoveKeepsOrder | questionnaire_logic.js:701-703 | each remaining listener stays after the survivors registered before it and before the survivors registered after it, so the filter keeps the order |
| Questionnaire.WithoutAppend | questionnaire_logic.js:701-703 | the filter works element by element, so the remaining listeners keep their order |
| Questionnaire.DispatchEvent | questionnaire_logic.js:706-712 | a dispatch calls only listeners registered for the event, none for an unknown event |
| Questionnaire.AddThenDispatch | questionnaire_logic.js:690-712 | a listener added last is called last |
| Questionnaire.AddRemoveInverse | questionnaire_logic.js:690-712 | adding a new listener and removing it again leaves the calls of that event unchanged |
| Privacy.NewManager | privacy_updated.js:11-19 | a new manager has no consent, storage off, export on and auto-save off |
| Privacy.GatesFacts | privacy_updated.js:435-447 | storage use needs availability and permission; auto-save needs those and its switch; export depends on its own setting alone |
| Privacy.MergeSettings | privacy_updated.js:92-95 | saved settings override the current ones key by key, and a missing key keeps the current value |
| Privacy.CheckExistingConsent | privacy_updated.js:85-102 | without storage or a saved record nothing changes; a record that does not parse withdraws consent and keeps the settings; otherwise consent is what the record says and its settings are merged in |
| Privacy.AllowStorageChanged | privacy_updated.js:149-160 | unchecking allow-storage also switches auto-save off; checking it leaves auto-save alone |
| Privacy.UncheckDisablesAutoSave | privacy_updated.js:149-160 | after unchecking allow-storage neither storage nor auto-save is enabled |
| Privacy.SaveConsent | privacy_updated.js:405-420 | saving always records consent, and writes the consent record only when storage is available and allowed |
| Privacy.ConsentRoundTrip | privacy_updated.js:85-101 | consent written by saveConsent is read back as given, with the settings it was saved with |
| Privacy.SaveData | privacy_updated.js:450-463 | a write happens, and true is returned, exactly when storage may be used; otherwise storage is untouched |
| Privacy.LoadData | privacy_updated.js:466-479 | a value comes back exactly when storage may be used, the key is present and its text parses |
| Privacy.SaveLoadData | privacy_updated.js:450-479 | a value saved under a key loads back unchanged |
| Privacy.ClearData | privacy_updated.js:482-495 | the key is removed, and true returned, exactly when storage may be used; other keys are untouched |
| Privacy.ClearAllData | privacy_updated.js:498-521 | when storage may be used the data key is removed and the consent key keeps its previous value; otherwise nothing changes |
| Privacy.ClearAllKeepsConsent | privacy_updated.js:504-516 | reading the consent after clearing everything finds the same consent as before |
| Export.DropWhitespace | export_updated.js:447 | the result is the input without its leading whitespace |
| Export.TrimEmptyIffBlank | export_updated.js:447 | a trimmed text is empty exactly when the text has no non-whitespace character |
| Export.CollapseWhitespace | export_updated.js:200 | the result of replacing whitespace runs by `_` holds no whitespace |
| Export.CollapseRun | export_updated.js:200 | a whole maximal run of whitespace after a whitespace-free stretch becomes exactly one `_`, the stretch is kept, and the rest is collapsed on its own |
| Export.CollapseIdempotent | export_updated.js:323 | replacing whitespace runs twice gives the same as once |
| Export.CollapseKeepsVisible | export_updated.js:200 | in a name without underscores, removing the inserted underscores gives back exactly the name's non-whitespace characters, in order |
| Export.NatToString | export_updated.js:648-649 | decimal notation has at least one digit and a leading zero only for 0 |
| Export.ParseNatToString | export_updated.js:648-649 | reading the decimal notation back gives the number |
| Export.PadStart2 | export_updated.js:648-649 | padding to two characters prefixes zeros and keeps the text as the suffix |
| Export.FormatDateForFileName | export_updated.js:646-651 | the date is written as digits with a dash before the two-digit month and the two-digit day |
| Export.FileNameDateRoundTrip | export_updated.js:646-651 | the date can be read back from its file-name form, the month 1-based in the text and 0-based in the date |
| Export.FileNameDateInjective | export_updated.js:646-651 | two valid dates give the same file-name date exactly when they are equal |
| Export.UpdateUserInfo | export_updated.js:87-91 | an empty or missing user name becomes `Client`; a non-empty one is kept |
| Export.FileName | export_updated.js:200 | the file name holds no whitespace and is laid out as the collapsed user name, then `_Neuro_Transmitter_Results_`, then a date text that reads back as the export's date, then the format's extension |
| Export.SplitParagraphs | export_updated.js:447 | the pieces between paragraph breaks contain no paragraph break |
| Export.JoinSplit | export_updated.js:447 | joining the pieces with paragraph breaks gives back the text |
| Export.SplitJoin | export_updated.js:447 | splitting pieces joined by paragraph breaks gives back the pieces |
| Export.KeepContentMembers | export_updated.js:447 | exactly the pieces that are not blank survive the filter |
| Export.KeepContentSingle | export_updated.js:447 | a single chunk is kept exactly when its trimmed text is not empty |
| Export.KeepContentAppend | export_updated.js:447 | the filter of a concatenation is the concatenation of the filters, so kept chunks keep their order and their repetitions |
| Export.KeepContentSplit | export_updated.js:447 | around any chunk, the result is what the filter keeps before it, then the chunk itself exactly when it has content, then what it keeps after it |
| Export.CreateInterpretationParagraphs | export_updated.js:445-476 | every document paragraph has content, and is a heading exactly when it starts with one of the seven heading beginnings |
| Export.ParagraphsOfBlocks | export_updated.js:445-476 | non-blank blocks joined by paragraph breaks become exactly those blocks as paragraphs, in order |
| Export.ParagraphsOfChunks | export_updated.js:445-476 | chunks joined by paragraph breaks, blank ones included, become one paragraph per chunk with content, in chunk order |
| Export.BlankChunkDropped | export_updated.js:446-447 | a blank chunk between two chunks with content yields exactly those two paragraphs, in order |
| Export.SectionHeadingsAreHeadings | export_updated.js:452-458 | a paragraph starting with any of the seven interpretation headings becomes a heading |
| Export.ExportToPdf | export_updated.js:94-211 | a PDF is saved, under the PDF file name, exactly when export is allowed, the libraries are loaded and the results container exists; otherwise one of the three error messages is shown |
| Export.ExportToDocx | export_updated.js:216-335 | with the docx names in scope, a document is saved exactly when export is allowed, the library is loaded and the interpretation exists; it holds the scores and the interpretation's paragraphs |
| Export.ExportToDocxAsWritten | export_updated.js:339-340 | as the code is written, a DOCX export saves only what the corrected export saves, and fails wherever it fails |
| Export.DocxAsWrittenNeverSaves | export_updated.js:331-335 | with no global `Paragraph` on the page, every DOCX export as written ends in an error |
| Export.PrintResults | export_updated.js:480-489 | printing is refused with the privacy message exactly when export is not allowed |
| Export.PrivacyGateFirst | export_updated.js:96-99 | with export switched off, PDF, DOCX and print all report the privacy message, whatever the page offers; with it on, none does |
| Validation.InitialResults | validation.js:11-44 | before any check every area is incomplete with no issues |
| Validation.RecordIssues | validation.js:136-137 | a check's area is complete exactly when it found no issue; other areas are untouched |
| Validation.RunChecks | validation.js:48-76 | running the checks records each area's findings and leaves the other areas as they were |
| Validation.ValidateAll | validation.js:48-76 | after all checks every area is present, with its findings as issues, and complete exactly when it found none |
| Validation.GenerateReport | validation.js:450-475 | the report counts every area in the total, the complete ones as passed and the others as failed, so passed plus failed is the total; its status is PASSED exactly when every area is complete, FAILED otherwise |
| Validation.InitialAllFailed | validation.js:11-44 | a report taken before any check counts eight areas, all failed |
| Validation.ValidateAllReport | validation.js:48-76 | after all checks the report covers eight areas and passes exactly when no check found an issue |

## Left out

- Page rendering is not modelled: the HTML templates, `innerHTML`, CSS, DOM queries, scrolling and `window.print`. Sections and links are represented by the data they carry; which sections exist on the page is a parameter.
- Profile narratives, the level texts inside each section and the subsection bullet lists are not modelled. Sections are a datatype naming the decisions they show.
- Chart.js, html2canvas, jsPDF, docx and FileSaver are foreign libraries. The PDF page layout and the DOCX table layout are left out; an export's result is its file name, or for DOCX the document's data.
- The heatmap's per-score cell shades (visualizations.js:379-421) repeat the tooltip ladders and are not modelled separately. The legend and chart set-up are left out.
- Floating point is left out: the progress-bar percentages (questionnaire_logic.js:257-269, progressive_interface.js:81 and 338) and the PDF layout arithmetic.
- Classification.GapPercentage: the list of pairs where the double lands below a half covers the score ranges (0 to 40 and 0 to 28) only. Outside them, which the questionnaire never produces, the model uses the exact rounding.
- Classification.GapPercentage: the rounding-error bound is not proved. That bound is what makes the doubles agree with the exact rounding at every pair that is not a tie, and at the ties missing from the list. Only the listed pairs, and the tie at dominant 1 and deficiency 0, are checked against the rounding rule.
- Timers, async initialisation, notifications and the `lastUpdated`/consent `timestamp` fields are left out; the validation report's timestamp is a parameter.
- `localStorage` exceptions (quota, disabled storage) caught by try/catch are left out; a stored value is either unparseable text or a parsed record.
- Events dispatched by the controller (`responseUpdated`, `navigated`, `dataSaved`, …) and the privacy `CustomEvent` are not traced; the registry itself is modelled.
- ResponseStore.CalculateScores: the snapshot save and event inside `calculateScores` are not repeated, because `NavigateTo` saves the same state right after.
- The controller's `initialize` (resume from storage), `renderAllQuestions`, `renderResults`, `updateProgress` and its own `updateNavLinks` (questionnaire_logic.js:271-287) are left out; the nav-link rule modelled is the progressive interface's.
- Questionnaire.LoadResponses: stored answers are booleans. A snapshot holding other JSON values there cannot be expressed.
- Navigation.CheckSectionCompletion's own contract states only the missing-section case; its full meaning is `Navigation.CompletionMeansEveryGroupAnswered`. The `sectionCompletion` percentage record is left out.
- Privacy.AllowStorageChanged assumes the auto-save checkbox is on the page.
- Export.FormatDateForFileName: years are non-negative; negative years are not modelled.
- The validation checks themselves inspect the page through `innerText` and DOM queries, so what each check finds is a parameter of `Validation.ValidateAll`.
- The whitespace that `\s` matches and `trim` removes (the same set in JavaScript) is modelled by an explicit character list; no Unicode tables are modelled.

## Findings

| source | as written | input that shows it | evidently intended | confidence | as-written member | corrected member |
|---|---|---|---|---|---|---|
| export_updated.js:242, 340, 361-436, 461 | `exportToDOCX` destructures `Paragraph` and `HeadingLevel` from `window.docx` into local constants. `createScoresTable` builds paragraphs through `Paragraph`, which it never receives, and `createInterpretationParagraphs` uses `HeadingLevel`, which it never receives. Both names resolve globally, where the docx library does not define them. The resulting ReferenceError is caught and reported as "Error generating DOCX. Please try again." | any DOCX export with export allowed, the docx library loaded and the interpretation element present | the DOCX document is built and saved | not executed; medium — assumes the page defines no global `Paragraph` | Export.ExportToDocxAsWritten, Export.DocxAsWrittenNeverSaves | Export.ExportToDocx |

=== FILE: binary64.dfy ===
/**
 * JavaScript number arithmetic, as far as the gap percentage needs it:
 * IEEE 754 binary64 values, rounding to nearest with ties to an even
 * significand after every operation, and `Math.round`. The values the gap
 * computation meets lie below 2^53 in magnitude, so each is written as a
 * fraction m / 2^k with an integer significand m.
 */
module Binary64 {

  function Pow2(k: nat): (r: nat)
    ensures r >= 1
  {
    if k == 0 then 1 else 2 * Pow2(k - 1)
  }

  lemma {:induction false} Pow2Add(a: nat, b: nat)
    ensures Pow2(a + b) == Pow2(a) * Pow2(b)
    decreases b
  {
    if b > 0 {
      Pow2Add(a, b - 1);
      assert a + (b - 1) == a + b - 1;
      assert Pow2(a + b) == 2 * Pow2(a + b - 1);
      assert Pow2(b) == 2 * Pow2(b - 1);
      assert Pow2(a) * Pow2(b) == 2 * (Pow2(a) * Pow2(b - 1));
    }
  }

  /** The powers the gap computation needs, as numbers. */
  lemma Pow2Values()
    ensures Pow2(0) == 1 && Pow2(1) == 2 && Pow2(2) == 4 && Pow2(3) == 8 && Pow2(4) == 16 && Pow2(5) == 32
    ensures Pow2(47) == 0x8000_0000_0000 && Pow2(48) == 0x1_0000_0000_0000
    ensures Pow2(50) == 0x4_0000_0000_0000 && Pow2(51) == 0x8_0000_0000_0000
    ensures Pow2(52) == 0x10_0000_0000_0000 && Pow2(53) == 0x20_0000_0000_0000
    ensures Pow2(54) == 0x40_0000_0000_0000 && Pow2(55) == 0x80_0000_0000_0000
    ensures Pow2(56) == 0x100_0000_0000_0000 && Pow2(58) == 0x400_0000_0000_0000
  {
    assert Pow2(1) == 2;
    assert Pow2(2) == 4;
    Pow2Add(2, 1);
    Pow2Add(2, 2);
    Pow2Add(4, 1);
    Pow2Add(4, 2);
    Pow2Add(4, 4);
    Pow2Add(8, 8);
    Pow2Add(16, 16);
    Pow2Add(32, 16);
    Pow2Add(47, 1);
    Pow2Add(48, 2);
    Pow2Add(48, 3);
    Pow2Add(48, 4);
    Pow2Add(48, 5);
    Pow2Add(48, 6);
    Pow2Add(48, 8);
    Pow2Add(53, 2);
    Pow2Add(53, 5);
  }

  function AbsInt(x: int): nat {
    if x < 0 then -x else x
  }

  /** The value m / 2^k. */
  datatype Dyadic = Dyadic(m: int, k: nat)

  /**
   * `v` is the binary64 rounding of the fraction n / den: its significand
   * has 53 bits (or the value is zero), it lies within half a unit in the
   * last place of n / den, on a tie its significand is even, and at the
   * bottom of a binade (where the units below are half as large) it lies
   * within a quarter of a unit. The last condition is stronger than the
   * rounding rule asks for above such a power of two, so the predicate can
   * only reject a correct rounding, never accept a wrong one.
   */
  predicate RoundsTo(n: int, den: int, v: Dyadic) {
    && den > 0
    && (if v.m == 0 then n == 0 else Pow2(52) <= AbsInt(v.m) < Pow2(53))
    && var err := AbsInt(n * Pow2(v.k) - v.m * den);
      && 2 * err <= den
      && (2 * err == den ==> v.m % 2 == 0)
      && (AbsInt(v.m) == Pow2(52) ==> 4 * err <= den)
  }

  /** The exact difference a - b, over the finer of the two denominators. */
  function Difference(a: Dyadic, b: Dyadic): Dyadic {
    var k := if a.k >= b.k then a.k else b.k;
    Dyadic(a.m * Pow2(k - a.k) - b.m * Pow2(k - b.k), k)
  }

  /**
   * `Math.round`: the integer nearest to `v`, the larger one on a tie,
   * stated as r - 1/2 <= v < r + 1/2.
   */
  function MathRound(v: Dyadic): (r: int)
    ensures (2 * r - 1) * Pow2(v.k) <= 2 * v.m < (2 * r + 1) * Pow2(v.k)
  {
    (2 * v.m + Pow2(v.k)) / (2 * Pow2(v.k))
  }

  /** No other integer lies within half of `v` in that way: the rounding is determined. */
  lemma MathRoundUnique(v: Dyadic, r: int)
    requires (2 * r - 1) * Pow2(v.k) <= 2 * v.m < (2 * r + 1) * Pow2(v.k)
    ensures r == MathRound(v)
  {
    var q := MathRound(v);
    var P := Pow2(v.k);
    CancelPositive(2 * r - 1, 2 * q + 1, P);
    CancelPositive(2 * q - 1, 2 * r + 1, P);
  }

  lemma CancelPositive(x: int, y: int, p: int)
    requires p > 0 && x * p < y * p
    ensures x < y
  {
    MulMonotone(y, x, p);
  }

  lemma MulMonotone(x: int, y: int, p: int)
    requires p > 0
    ensures x <= y ==> x * p <= y * p
  {
  }
}

=== FILE: charts.dfy ===
/**
 * The chart annotations. The charts repeat the classification thresholds
 * in their own code: the bar-chart labels, the tooltips and the heatmap's
 * gap row. Each is modelled as written, and proved to agree with the
 * classification it duplicates.
 */
module Charts {
  import opened Wrappers
  import opened Classification

  // ---------------------------------------------------------------------
  // The texts the charts show
  // ---------------------------------------------------------------------

  const DominantHighTip: string := "Classically dominant nature (35+)"
  const DominantModerateTip: string := "Moderately dominant nature (25-34)"
  const DominantMildTip: string := "Mildly dominant nature (15-24)"
  const NotDominantTip: string := "Not dominant (<15)"
  const DeficiencyHighTip: string := "Significant deficiency (20+)"
  const DeficiencyModerateTip: string := "Moderate deficiency (15-19)"
  const DeficiencyMildTip: string := "Mild deficiency (10-14)"
  const NoDeficiencyTip: string := "No significant deficiency (<10)"
  const DominantHighLabel: string := "Classically dominant nature"
  const DominantModerateLabel: string := "Moderately dominant nature"
  const DominantMildLabel: string := "Mildly dominant nature"
  const NotDominantLabel: string := "Not dominant"
  const DeficiencyHighLabel: string := "Significant deficiency"
  const DeficiencyModerateLabel: string := "Moderate deficiency"
  const DeficiencyMildLabel: string := "Mild deficiency"
  const NoDeficiencyLabel: string := "No significant deficiency"
  const SignificantImbalanceTip: string := "Significant imbalance - deficiency much higher than dominance"
  const ModerateImbalanceTip: string := "Moderate imbalance - deficiency higher than dominance"
  const MildImbalanceTip: string := "Mild imbalance - slight deficiency relative to dominance"
  const SignificantStrengthTip: string := "Significant strength - dominance much higher than deficiency"
  const ModerateStrengthTip: string := "Moderate strength - dominance higher than deficiency"
  const MildStrengthTip: string := "Mild strength - slight dominance relative to deficiency"
  const BalancedTip: string := "Balanced - similar levels of dominance and deficiency"

  // ---------------------------------------------------------------------
  // The wording each classification level is shown with
  // ---------------------------------------------------------------------

  function DominanceTooltipText(l: Level): string {
    match l
    case High => DominantHighTip
    case Moderate => DominantModerateTip
    case Mild => DominantMildTip
    case NoLevel => NotDominantTip
  }

  function DeficiencyTooltipText(l: Level): string {
    match l
    case High => DeficiencyHighTip
    case Moderate => DeficiencyModerateTip
    case Mild => DeficiencyMildTip
    case NoLevel => NoDeficiencyTip
  }

  function DominanceLabelText(l: Level): string {
    match l
    case High => DominantHighLabel
    case Moderate => DominantModerateLabel
    case Mild => DominantMildLabel
    case NoLevel => NotDominantLabel
  }

  function DeficiencyLabelText(l: Level): string {
    match l
    case High => DeficiencyHighLabel
    case Moderate => DeficiencyModerateLabel
    case Mild => DeficiencyMildLabel
    case NoLevel => NoDeficiencyLabel
  }

  function GapTooltipText(l: GapLevel): string {
    match l
    case VeryHigh => SignificantImbalanceTip
    case GapHigh => ModerateImbalanceTip
    case GapModerateLevel => MildImbalanceTip
    case VeryLow => SignificantStrengthTip
    case Low => ModerateStrengthTip
    case SlightlyLow => MildStrengthTip
    case Balanced => BalancedTip
  }

  // ---------------------------------------------------------------------
  // The chart code's own threshold ladders
  // ---------------------------------------------------------------------

  function GetDominantTooltip(score: int): string {
    if score >= 35 then DominantHighTip
    else if score >= 25 then DominantModerateTip
    else if score >= 15 then DominantMildTip
    else NotDominantTip
  }

  function GetDeficiencyTooltip(score: int): string {
    if score >= 20 then DeficiencyHighTip
    else if score >= 15 then DeficiencyModerateTip
    else if score >= 10 then DeficiencyMildTip
    else NoDeficiencyTip
  }

  function GetGapTooltip(g: int): string {
    if g >= 30 then SignificantImbalanceTip
    else if g >= 15 then ModerateImbalanceTip
    else if g >= 5 then MildImbalanceTip
    else if g <= -30 then SignificantStrengthTip
    else if g <= -15 then ModerateStrengthTip
    else if g <= -5 then MildStrengthTip
    else BalancedTip
  }

  /** The bar value a label sees; a missing value counts as 0. */
  function RawValue(raw: Option<int>): int {
    raw.GetOr(0)
  }

  /** The dominance bar chart's second tooltip line. */
  function DominanceAfterLabel(raw: Option<int>): string {
    var v := RawValue(raw);
    if v >= 35 then DominantHighLabel
    else if v >= 25 then DominantModerateLabel
    else if v >= 15 then DominantMildLabel
    else NotDominantLabel
  }

  /** The deficiency bar chart's second tooltip line. */
  function DeficiencyAfterLabel(raw: Option<int>): string {
    var v := RawValue(raw);
    if v >= 20 then DeficiencyHighLabel
    else if v >= 15 then DeficiencyModerateLabel
    else if v >= 10 then DeficiencyMildLabel
    else NoDeficiencyLabel
  }

  // ---------------------------------------------------------------------
  // Agreement with the classification
  // ---------------------------------------------------------------------

  /** Every dominance tooltip describes exactly the dominance level of its score. */
  lemma DominantTooltipMatchesLevel(score: int)
    ensures GetDominantTooltip(score) == DominanceTooltipText(DominanceLevel(score))
  {
    DominanceBands(score);
  }

  /** Every deficiency tooltip describes exactly the deficiency level of its score. */
  lemma DeficiencyTooltipMatchesLevel(score: int)
    ensures GetDeficiencyTooltip(score) == DeficiencyTooltipText(DeficiencyLevel(score))
  {
    DeficiencyBands(score);
  }

  /** The gap tooltip uses the seven bands of the gap classification, in its order. */
  lemma GapTooltipMatchesLevel(g: int)
    ensures GetGapTooltip(g) == GapTooltipText(GapLevelOf(g))
  {
  }

  /** The bar-chart labels follow the level ladders, with a missing value read as 0. */
  lemma AfterLabelsMatchLevels(raw: Option<int>)
    ensures DominanceAfterLabel(raw) == DominanceLabelText(DominanceLevel(raw.GetOr(0)))
    ensures DeficiencyAfterLabel(raw) == DeficiencyLabelText(DeficiencyLevel(raw.GetOr(0)))
    ensures DominanceAfterLabel(None) == DominanceLabelText(NoLevel)
    ensures DeficiencyAfterLabel(None) == DeficiencyLabelText(NoLevel)
  {
    DominanceBands(raw.GetOr(0));
    DeficiencyBands(raw.GetOr(0));
  }

  // ---------------------------------------------------------------------
  // The heatmap's gap row
  // ---------------------------------------------------------------------

  // The heatmap cell evaluates the same double expression as the gap
  // classification, `Math.round((d / 28 - p / 40) * 100)`, so its value is
  // `GapPercentage(p, d)`.

  /** The heatmap cell colours. */
  datatype HeatColour =
    | StrongGap | ModerateGapColour | MildGap
    | StrongStrength | ModerateStrength | MildStrength
    | Uncoloured

  function HeatmapColour(g: int): HeatColour {
    if g >= 30 then StrongGap
    else if g >= 15 then ModerateGapColour
    else if g >= 5 then MildGap
    else if g <= -30 then StrongStrength
    else if g <= -15 then ModerateStrength
    else if g <= -5 then MildStrength
    else Uncoloured
  }

  function ColourOfLevel(l: GapLevel): HeatColour {
    match l
    case VeryHigh => StrongGap
    case GapHigh => ModerateGapColour
    case GapModerateLevel => MildGap
    case VeryLow => StrongStrength
    case Low => ModerateStrength
    case SlightlyLow => MildStrength
    case Balanced => Uncoloured
  }

  /** The heatmap colours a cell by the gap level of its percentage; balanced cells stay uncoloured. */
  lemma HeatmapColourMatchesLevel(dominant: int, deficiency: int)
    ensures HeatmapColour(GapPercentage(dominant, deficiency)) == ColourOfLevel(GapLevelOf(GapPercentage(dominant, deficiency)))
  {
    GapBands(GapPercentage(dominant, deficiency));
  }
}

=== FILE: classification.dfy ===
/**
 * The classification engine: pure functions of the two score maps that pick
 * the dominant category, list the deficiencies and compute the normalised
 * gaps, against the fixed threshold table.
 */
module Classification {
  import opened Wrappers
  import opened Domain
  import opened StableSort

  /** The threshold table. Every lower bound is inclusive. */
  const DominantHigh: int := 35
  const DominantModerate: int := 25
  const DominantMild: int := 15
  const DeficiencyHigh: int := 20
  const DeficiencyModerate: int := 15
  const DeficiencyMild: int := 10
  const GapSignificant: int := 15
  const GapModerate: int := 10
  const GapMild: int := 5

  /** The four-step ladder shared by dominance and deficiency levels. */
  datatype Level = NoLevel | Mild | Moderate | High {
    function Rank(): nat {
      match this
      case NoLevel => 0
      case Mild => 1
      case Moderate => 2
      case High => 3
    }
  }

  function Ladder(score: int, high: int, moderate: int, mild: int): Level {
    if score >= high then High
    else if score >= moderate then Moderate
    else if score >= mild then Mild
    else NoLevel
  }

  /** Dominance level of a part-1 score. */
  function DominanceLevel(score: int): Level {
    Ladder(score, DominantHigh, DominantModerate, DominantMild)
  }

  /** Deficiency level of a part-2 score. */
  function DeficiencyLevel(score: int): Level {
    Ladder(score, DeficiencyHigh, DeficiencyModerate, DeficiencyMild)
  }

  /**
   * The dominance bands as closed-open intervals: 35 and above is high,
   * 25 to 34 moderate, 15 to 24 mild, below 15 none.
   */
  lemma DominanceBands(score: int)
    ensures DominanceLevel(score) == High <==> score >= 35
    ensures DominanceLevel(score) == Moderate <==> 25 <= score <= 34
    ensures DominanceLevel(score) == Mild <==> 15 <= score <= 24
    ensures DominanceLevel(score) == NoLevel <==> score <= 14
  {
  }

  /** The deficiency bands: 20 and above high, 15 to 19 moderate, 10 to 14 mild, below 10 none. */
  lemma DeficiencyBands(score: int)
    ensures DeficiencyLevel(score) == High <==> score >= 20
    ensures DeficiencyLevel(score) == Moderate <==> 15 <= score <= 19
    ensures DeficiencyLevel(score) == Mild <==> 10 <= score <= 14
    ensures DeficiencyLevel(score) == NoLevel <==> score <= 9
  {
  }

  /** A higher score never gets a lower level. */
  lemma LevelsMonotone(a: int, b: int)
    requires a <= b
    ensures DominanceLevel(a).Rank() <= DominanceLevel(b).Rank()
    ensures DeficiencyLevel(a).Rank() <= DeficiencyLevel(b).Rank()
  {
  }

  // ---------------------------------------------------------------------
  // Dominant category
  // ---------------------------------------------------------------------

  /** The dominant category (absent when no part-1 score is positive), its score and level. */
  datatype Dominant = Dominant(category: Option<Category>, score: int, level: Level)

  /** The running state of the scan is consistent after the first `i` categories. */
  ghost predicate ScanState(part1: ScoreMap, i: nat, best: Option<Category>, high: int) {
    && i <= |AllCategories|
    && (best.None? ==> high == 0 && forall c | Index(c) < i :: part1.Get(c) <= 0)
    && (best.Some? ==>
          && Index(best.value) < i
          && high > 0
          && part1.Get(best.value) == high
          && (forall c | Index(c) < i :: part1.Get(c) <= high)
          && (forall c | Index(c) < Index(best.value) :: part1.Get(c) < high))
  }

  /**
   * Scans the categories from position `i` on, replacing the current best
   * only on a strictly greater score, so the first maximum wins.
   */
  function ScanMax(part1: ScoreMap, i: nat, best: Option<Category>, high: int): (r: (Option<Category>, int))
    requires ScanState(part1, i, best, high)
    ensures ScanState(part1, |AllCategories|, r.0, r.1)
    decreases |AllCategories| - i
  {
    if i == |AllCategories| then (best, high)
    else
      var c := AllCategories[i];
      assert Index(c) == i;
      if part1.Get(c) > high then ScanMax(part1, i + 1, Some(c), part1.Get(c))
      else ScanMax(part1, i + 1, best, high)
  }

  /**
   * The dominant category: none when every part-1 score is at most 0;
   * otherwise the first category, in enumeration order, with the highest
   * score. The reported score is that maximum (0 when there is none).
   */
  function GetDominant(part1: ScoreMap): (r: Dominant)
    ensures r.category.None? <==> forall c :: part1.Get(c) <= 0
    ensures r.category.None? ==> r.score == 0
    ensures r.category.Some? ==>
      && r.score == part1.Get(r.category.value)
      && (forall c :: part1.Get(c) <= r.score)
      && (forall c | Index(c) < Index(r.category.value) :: part1.Get(c) < r.score)
    ensures r.level == DominanceLevel(r.score)
  {
    var (best, high) := ScanMax(part1, 0, None, 0);
    Dominant(best, high, DominanceLevel(high))
  }

  // ---------------------------------------------------------------------
  // Deficiencies
  // ---------------------------------------------------------------------

  datatype Deficiency = Deficiency(category: Category, score: int, level: Level)

  function DeficiencyScore(d: Deficiency): int { d.score }
  function DeficiencyRank(d: Deficiency): int { Index(d.category) }

  /** The categories of `cats` whose level is not none, in the order of `cats`. */
  function Deficient(part2: ScoreMap, cats: seq<Category>): (r: seq<Deficiency>)
    ensures forall d | d in r ::
      d.category in cats && d.score == part2.Get(d.category) && d.level == DeficiencyLevel(d.score) && d.level != NoLevel
    ensures forall c | c in cats && DeficiencyLevel(part2.Get(c)) != NoLevel ::
      Deficiency(c, part2.Get(c), DeficiencyLevel(part2.Get(c))) in r
  {
    if |cats| == 0 then []
    else
      var rest := Deficient(part2, cats[1..]);
      var level := DeficiencyLevel(part2.Get(cats[0]));
      if level != NoLevel then [Deficiency(cats[0], part2.Get(cats[0]), level)] + rest
      else rest
  }

  /** Categories in increasing enumeration order. */
  ghost predicate CategoriesIncreasing(cats: seq<Category>) {
    forall i, j | 0 <= i < j < |cats| :: Index(cats[i]) < Index(cats[j])
  }

  lemma CategoriesIncreasingTail(cats: seq<Category>)
    requires |cats| > 0 && CategoriesIncreasing(cats)
    ensures CategoriesIncreasing(cats[1..])
    ensures forall c | c in cats[1..] :: Index(cats[0]) < Index(c)
  {
    forall c | c in cats[1..]
      ensures Index(cats[0]) < Index(c)
    {
      var k :| 0 <= k < |cats[1..]| && cats[1..][k] == c;
      assert cats[k + 1] == c;
    }
  }

  /** Deficiencies found in enumeration order come out in enumeration order. */
  lemma {:induction false} DeficientRankIncreasing(part2: ScoreMap, cats: seq<Category>)
    requires CategoriesIncreasing(cats)
    ensures RankIncreasing(Deficient(part2, cats), DeficiencyRank)
    decreases |cats|
  {
    if |cats| > 0 {
      CategoriesIncreasingTail(cats);
      DeficientRankIncreasing(part2, cats[1..]);
    }
  }

  /**
   * The deficiency list: exactly the categories whose part-2 score is at
   * least 10, each once, with its level, sorted by score from highest to
   * lowest and, among equal scores, in enumeration order.
   */
  function GetDeficient(part2: ScoreMap): (r: seq<Deficiency>)
    ensures forall c :: (exists i | 0 <= i < |r| :: r[i].category == c) <==> part2.Get(c) >= DeficiencyMild
    ensures forall i | 0 <= i < |r| ::
      r[i].score == part2.Get(r[i].category) && r[i].level == DeficiencyLevel(r[i].score) && r[i].level != NoLevel
    ensures forall i, j | 0 <= i < j < |r| :: r[i].category != r[j].category
    ensures LexOrdered(r, DeficiencyScore, DeficiencyRank)
    ensures |r| <= |AllCategories|
  {
    var found := Deficient(part2, AllCategories);
    AllCategoriesInOrder();
    DeficientRankIncreasing(part2, AllCategories);
    SortDescStable(found, DeficiencyScore, DeficiencyRank);
    var r := SortDesc(found, DeficiencyScore);
    AllCategoriesListed();
    DeficientSorted(part2, AllCategories, found, r);
    DeficientLength(part2, AllCategories);
    r
  }

  lemma DeficientSorted(part2: ScoreMap, cats: seq<Category>, found: seq<Deficiency>, r: seq<Deficiency>)
    requires forall c :: c in cats
    requires found == Deficient(part2, cats)
    requires r == SortDesc(found, DeficiencyScore)
    requires LexOrdered(r, DeficiencyScore, DeficiencyRank)
    ensures forall c :: (exists i | 0 <= i < |r| :: r[i].category == c) <==> part2.Get(c) >= DeficiencyMild
    ensures forall i | 0 <= i < |r| ::
      r[i].score == part2.Get(r[i].category) && r[i].level == DeficiencyLevel(r[i].score) && r[i].level != NoLevel
    ensures forall i, j | 0 <= i < j < |r| :: r[i].category != r[j].category
  {
    SortMembers(found, DeficiencyScore);
    DeficientEntries(part2, cats, r);
    DeficientCoverage(part2, cats, r);
    DeficientDistinct(part2, r);
  }

  lemma DeficientCoverage(part2: ScoreMap, cats: seq<Category>, r: seq<Deficiency>)
    requires forall c :: c in cats
    requires forall d | d in Deficient(part2, cats) :: d in r
    requires forall i | 0 <= i < |r| ::
      r[i].score == part2.Get(r[i].category) && r[i].level == DeficiencyLevel(r[i].score) && r[i].level != NoLevel
    ensures forall c :: (exists i | 0 <= i < |r| :: r[i].category == c) <==> part2.Get(c) >= DeficiencyMild
  {
    forall c
      ensures (exists i | 0 <= i < |r| :: r[i].category == c) <==> part2.Get(c) >= DeficiencyMild
    {
      if part2.Get(c) >= DeficiencyMild {
        DeficientCovered(part2, cats, r, c);
      }
    }
  }

  /** Entries scored from one map and ordered strictly cannot repeat a category. */
  lemma DeficientDistinct(part2: ScoreMap, r: seq<Deficiency>)
    requires forall i | 0 <= i < |r| :: r[i].score == part2.Get(r[i].category)
    requires LexOrdered(r, DeficiencyScore, DeficiencyRank)
    ensures forall i, j | 0 <= i < j < |r| :: r[i].category != r[j].category
  {
    forall i, j | 0 <= i < j < |r|
      ensures r[i].category != r[j].category
    {
      assert DeficiencyScore(r[i]) > DeficiencyScore(r[j]) || DeficiencyRank(r[i]) < DeficiencyRank(r[j]);
    }
  }

  lemma DeficientEntries(part2: ScoreMap, cats: seq<Category>, r: seq<Deficiency>)
    requires forall d | d in r :: d in Deficient(part2, cats)
    ensures forall i | 0 <= i < |r| ::
      r[i].score == part2.Get(r[i].category) && r[i].level == DeficiencyLevel(r[i].score) && r[i].level != NoLevel
  {
    forall i | 0 <= i < |r|
      ensures r[i].score == part2.Get(r[i].category) && r[i].level == DeficiencyLevel(r[i].score) && r[i].level != NoLevel
    {
      assert r[i] in r;
    }
  }

  lemma DeficientCovered(part2: ScoreMap, cats: seq<Category>, r: seq<Deficiency>, c: Category)
    requires c in cats && part2.Get(c) >= DeficiencyMild
    requires forall d | d in Deficient(part2, cats) :: d in r
    ensures exists i | 0 <= i < |r| :: r[i].category == c
  {
    var d := Deficiency(c, part2.Get(c), DeficiencyLevel(part2.Get(c)));
    assert d in Deficient(part2, cats);
    var i :| 0 <= i < |r| && r[i] == d;
  }

  lemma DeficientLength(part2: ScoreMap, cats: seq<Category>)
    ensures |Deficient(part2, cats)| <= |cats|
  {
  }

  // ---------------------------------------------------------------------
  // Gaps
  // ---------------------------------------------------------------------

  /** The seven signed gap bands. */
  datatype GapLevel = VeryHigh | GapHigh | GapModerateLevel | Balanced | SlightlyLow | Low | VeryLow

  /**
   * `100 * (deficiency / 28 - dominant / 40)` rounded half up, in exact
   * arithmetic: the rational is (50 * deficiency - 35 * dominant) / 14, and
   * rounding half toward positive infinity is flooring after adding 7/14.
   * The ensures is the defining property of that rounding: the result is
   * the integer g with g - 1/2 <= x < g + 1/2.
   */
  function ExactGap(dominant: int, deficiency: int): (g: int)
    ensures 14 * g - 7 <= 50 * deficiency - 35 * dominant < 14 * g + 7
  {
    (50 * deficiency - 35 * dominant + 7) / 14
  }

  /**
   * The score pairs (dominant, deficiency) at which the exact value lies on
   * a half but the binary64 evaluation of `(d / 28 - p / 40) * 100` lands
   * just below it, so that `Math.round` goes down: (27, 14), for example,
   * evaluates to -17.500000000000004 instead of -17.5.
   */
  const BinaryBelowHalf: seq<(int, int)> := [
    (7, 21), (9, 7), (11, 0), (11, 7), (11, 14), (13, 7), (17, 28), (21, 7), (21, 14), (21, 21),
    (27, 7), (27, 14), (27, 21), (27, 28), (31, 14), (31, 21), (31, 28), (37, 14), (37, 21), (37, 28)]

  /**
   * The gap percentage the program computes, `Math.round(normalizedGap * 100)`
   * on doubles: the exact rounding, one lower where the double lands below
   * a half. It is always an integer nearest to the exact value; only on a
   * tie can it differ from the exact rounding.
   */
  function GapPercentage(dominant: int, deficiency: int): (g: int)
    ensures 14 * g - 7 <= 50 * deficiency - 35 * dominant <= 14 * g + 7
    ensures (50 * deficiency - 35 * dominant) % 14 != 7 ==> g == ExactGap(dominant, deficiency)
  {
    ExactGap(dominant, deficiency) - (if (dominant, deficiency) in BinaryBelowHalf then 1 else 0)
  }

  /**
   * The program's rounding never changes the band: a tie has an exact
   * rounding of 3 modulo 5, and no band starts there.
   */
  lemma GapBandsAgree(dominant: int, deficiency: int)
    ensures GapLevelOf(GapPercentage(dominant, deficiency)) == GapLevelOf(ExactGap(dominant, deficiency))
  {
    var x := 50 * deficiency - 35 * dominant;
    if x % 14 == 7 {
      var j := 10 * deficiency - 7 * dominant;
      assert x == 5 * j;
      assert ExactGap(dominant, deficiency) % 5 == 3;
    }
  }

  /** Within the score ranges the gap is a percentage between -100 and 100. */
  lemma GapBounds(dominant: int, deficiency: int)
    requires 0 <= dominant <= 40 && 0 <= deficiency <= 28
    ensures -100 <= GapPercentage(dominant, deficiency) <= 100
  {
  }

  function GapLevelOf(g: int): GapLevel {
    if g >= 30 then VeryHigh
    else if g >= 15 then GapHigh
    else if g >= 5 then GapModerateLevel
    else if g <= -30 then VeryLow
    else if g <= -15 then Low
    else if g <= -5 then SlightlyLow
    else Balanced
  }

  /** The bands as intervals: every integer falls in exactly the band its interval names. */
  lemma GapBands(g: int)
    ensures GapLevelOf(g) == VeryHigh <==> g >= 30
    ensures GapLevelOf(g) == GapHigh <==> 15 <= g <= 29
    ensures GapLevelOf(g) == GapModerateLevel <==> 5 <= g <= 14
    ensures GapLevelOf(g) == Balanced <==> -4 <= g <= 4
    ensures GapLevelOf(g) == SlightlyLow <==> -14 <= g <= -5
    ensures GapLevelOf(g) == Low <==> -29 <= g <= -15
    ensures GapLevelOf(g) == VeryLow <==> g <= -30
  {
  }

  datatype Gap = Gap(category: Category, dominantScore: int, deficiencyScore: int, gapPercentage: int, level: GapLevel)

  function AbsGap(g: Gap): int { if g.gapPercentage < 0 then -g.gapPercentage else g.gapPercentage }
  function GapRank(g: Gap): int { Index(g.category) }

  /** The gap record of one category. */
  function GapOf(scores: Scores, c: Category): Gap {
    var p := scores.part1.Get(c);
    var d := scores.part2.Get(c);
    var g := GapPercentage(p, d);
    Gap(c, p, d, g, GapLevelOf(g))
  }

  function GapRecords(scores: Scores, cats: seq<Category>): (r: seq<Gap>)
    ensures |r| == |cats|
    ensures forall i | 0 <= i < |r| :: r[i] == GapOf(scores, cats[i])
    ensures (forall i, j | 0 <= i < j < |cats| :: Index(cats[i]) < Index(cats[j])) ==> RankIncreasing(r, GapRank)
  {
    if |cats| == 0 then [] else [GapOf(scores, cats[0])] + GapRecords(scores, cats[1..])
  }

  /**
   * One gap record per category, carrying that category's part-1 and part-2
   * scores, its rounded gap and band, sorted by absolute gap from largest to
   * smallest and, among equal absolute gaps, in enumeration order.
   */
  function CalculateRelativeGaps(scores: Scores): (r: seq<Gap>)
    ensures |r| == |AllCategories|
    ensures forall c :: HasGapFor(r, c)
    ensures forall i | 0 <= i < |r| ::
      && r[i].dominantScore == scores.part1.Get(r[i].category)
      && r[i].deficiencyScore == scores.part2.Get(r[i].category)
      && r[i].gapPercentage == GapPercentage(r[i].dominantScore, r[i].deficiencyScore)
      && r[i].level == GapLevelOf(r[i].gapPercentage)
    ensures forall i, j | 0 <= i < j < |r| :: r[i].category != r[j].category
    ensures LexOrdered(r, AbsGap, GapRank)
  {
    var records := GapRecords(scores, AllCategories);
    AllCategoriesInOrder();
    SortDescStable(records, AbsGap, GapRank);
    var r := SortDesc(records, AbsGap);
    AllCategoriesListed();
    GapsSorted(scores, AllCategories, records, r);
    r
  }

  ghost predicate HasGapFor(r: seq<Gap>, c: Category) {
    exists i | 0 <= i < |r| :: r[i].category == c
  }

  lemma GapsSorted(scores: Scores, cats: seq<Category>, records: seq<Gap>, r: seq<Gap>)
    requires forall c :: c in cats
    requires records == GapRecords(scores, cats)
    requires r == SortDesc(records, AbsGap)
    requires LexOrdered(r, AbsGap, GapRank)
    ensures forall c :: HasGapFor(r, c)
    ensures forall i | 0 <= i < |r| :: r[i] == GapOf(scores, r[i].category)
    ensures forall i, j | 0 <= i < j < |r| :: r[i].category != r[j].category
  {
    SortMembers(records, AbsGap);
    forall c
      ensures HasGapFor(r, c)
    {
      var k := PositionIn(cats, c);
      RecordCovered(records, r, k);
    }
    GapEntries(scores, cats, r);
    GapsDistinct(scores, r);
  }

  /** Gap records of one score set, ordered strictly, cannot repeat a category. */
  lemma GapsDistinct(scores: Scores, r: seq<Gap>)
    requires forall i | 0 <= i < |r| :: r[i] == GapOf(scores, r[i].category)
    requires LexOrdered(r, AbsGap, GapRank)
    ensures forall i, j | 0 <= i < j < |r| :: r[i].category != r[j].category
  {
    forall i, j | 0 <= i < j < |r|
      ensures r[i].category != r[j].category
    {
      assert AbsGap(r[i]) > AbsGap(r[j]) || GapRank(r[i]) < GapRank(r[j]);
    }
  }

  lemma GapEntries(scores: Scores, cats: seq<Category>, r: seq<Gap>)
    requires forall g | g in r :: g in GapRecords(scores, cats)
    ensures forall i | 0 <= i < |r| :: r[i] == GapOf(scores, r[i].category)
  {
    var records := GapRecords(scores, cats);
    forall i | 0 <= i < |r|
      ensures r[i] == GapOf(scores, r[i].category)
    {
      assert r[i] in r;
      var k :| 0 <= k < |records| && records[k] == r[i];
    }
  }

  /** A position at which `c` occurs in `cats`. */
  lemma PositionIn(cats: seq<Category>, c: Category) returns (k: nat)
    requires c in cats
    ensures k < |cats| && cats[k] == c
  {
    k :| k < |cats| && cats[k] == c;
  }

  /** A record of `records`, all of whose records occur in `r`, has its category in `r`. */
  lemma RecordCovered(records: seq<Gap>, r: seq<Gap>, k: nat)
    requires k < |records|
    requires forall g | g in records :: g in r
    ensures HasGapFor(r, records[k].category)
  {
    assert records[k] in r;
    var i :| 0 <= i < |r| && r[i] == records[k];
  }

  // ---------------------------------------------------------------------
  // Secondary (mixed) profile
  // ---------------------------------------------------------------------

  datatype Ranked = Ranked(category: Category, score: int)

  function RankedScore(x: Ranked): int { x.score }
  function RankedRank(x: Ranked): int { Index(x.category) }

  /** The other categories with their part-1 scores, in the order of `cats`. */
  function Others(part1: ScoreMap, dominant: Category, cats: seq<Category>): (r: seq<Ranked>)
    ensures forall x | x in r :: x.category in cats && x.category != dominant && x.score == part1.Get(x.category)
    ensures forall c | c in cats && c != dominant :: Ranked(c, part1.Get(c)) in r
  {
    if |cats| == 0 then []
    else
      var rest := Others(part1, dominant, cats[1..]);
      if cats[0] != dominant then [Ranked(cats[0], part1.Get(cats[0]))] + rest else rest
  }

  lemma {:induction false} OthersRankIncreasing(part1: ScoreMap, dominant: Category, cats: seq<Category>)
    requires CategoriesIncreasing(cats)
    ensures RankIncreasing(Others(part1, dominant, cats), RankedRank)
    decreases |cats|
  {
    if |cats| > 0 {
      CategoriesIncreasingTail(cats);
      OthersRankIncreasing(part1, dominant, cats[1..]);
    }
  }

  /**
   * The head of the other categories sorted by part-1 score, highest first
   * and stable: the highest non-dominant score, and the first category in
   * enumeration order that has it.
   */
  function TopOther(part1: ScoreMap, dominant: Category): (r: Ranked)
    ensures r.category != dominant && r.score == part1.Get(r.category)
    ensures forall c | c != dominant :: part1.Get(c) <= r.score
    ensures forall c | c != dominant && part1.Get(c) == r.score :: Index(r.category) <= Index(c)
  {
    var others := Others(part1, dominant, AllCategories);
    AllCategoriesInOrder();
    OthersRankIncreasing(part1, dominant, AllCategories);
    SortDescStable(others, RankedScore, RankedRank);
    var sorted := SortDesc(others, RankedScore);
    AllCategoriesListed();
    SortMembers(others, RankedScore);
    TopOtherFacts(part1, dominant, sorted);
    sorted[0]
  }

  lemma TopOtherFacts(part1: ScoreMap, dominant: Category, sorted: seq<Ranked>)
    requires forall c | c != dominant :: Ranked(c, part1.Get(c)) in sorted
    requires forall x | x in sorted :: x.category != dominant && x.score == part1.Get(x.category)
    requires LexOrdered(sorted, RankedScore, RankedRank)
    ensures |sorted| > 0
    ensures sorted[0].category != dominant && sorted[0].score == part1.Get(sorted[0].category)
    ensures forall c | c != dominant :: part1.Get(c) <= sorted[0].score
    ensures forall c | c != dominant && part1.Get(c) == sorted[0].score :: Index(sorted[0].category) <= Index(c)
  {
    var other := if dominant == Dopamine then Acetylcholine else Dopamine;
    assert Ranked(other, part1.Get(other)) in sorted;
    HeadIsFirstMaximum(sorted, RankedScore, RankedRank);
    assert sorted[0] in sorted;
    TopOtherBound(part1, dominant, sorted);
  }

  lemma TopOtherBound(part1: ScoreMap, dominant: Category, sorted: seq<Ranked>)
    requires |sorted| > 0
    requires forall c | c != dominant :: Ranked(c, part1.Get(c)) in sorted
    requires forall y | y in sorted :: RankedScore(y) <= RankedScore(sorted[0])
    requires forall y | y in sorted && RankedScore(y) == RankedScore(sorted[0]) :: RankedRank(sorted[0]) <= RankedRank(y)
    ensures forall c | c != dominant :: part1.Get(c) <= sorted[0].score
    ensures forall c | c != dominant && part1.Get(c) == sorted[0].score :: Index(sorted[0].category) <= Index(c)
  {
    forall c | c != dominant
      ensures part1.Get(c) <= sorted[0].score
      ensures part1.Get(c) == sorted[0].score ==> Index(sorted[0].category) <= Index(c)
    {
      assert Ranked(c, part1.Get(c)) in sorted;
    }
  }

  /**
   * The mixed-profile rule: the top non-dominant category is reported when
   * its score is at least the moderate dominance threshold and trails the
   * dominant score by less than the moderate gap.
   */
  function MixedProfile(part1: ScoreMap, dominant: Category, dominantScore: int): (r: Option<Ranked>)
    ensures r.Some? <==>
      exists c | c != dominant ::
        && part1.Get(c) >= DominantModerate
        && dominantScore - part1.Get(c) < GapModerate
        && forall e | e != dominant :: part1.Get(e) <= part1.Get(c)
    ensures r.Some? ==>
      && r.value.category != dominant
      && r.value.score == part1.Get(r.value.category)
      && (forall c | c != dominant :: part1.Get(c) < r.value.score || Index(r.value.category) <= Index(c))
  {
    var top := TopOther(part1, dominant);
    if top.score >= DominantModerate && dominantScore - top.score < GapModerate then Some(top) else None
  }

  /**
   * The mixed-profile rule in terms of the scores alone: `c` is reported
   * exactly when it is the first non-dominant category holding the highest
   * non-dominant score, and that score is at least 25 and trails the
   * dominant score by less than 10.
   */
  lemma MixedProfileRuleOn(part1: ScoreMap, d: Category, dominantScore: int, c: Category)
    ensures (MixedProfile(part1, d, dominantScore).Some? && MixedProfile(part1, d, dominantScore).value.category == c) <==>
      && c != d
      && (forall e | e != d :: part1.Get(e) <= part1.Get(c))
      && (forall e | e != d && Index(e) < Index(c) :: part1.Get(e) < part1.Get(c))
      && part1.Get(c) >= DominantModerate
      && dominantScore - part1.Get(c) < GapModerate
  {
    TopOtherIsFirstOtherMax(part1, d, c);
  }

  /** `c` is the first category other than `d` that holds the highest score among those. */
  ghost predicate FirstOtherMax(part1: ScoreMap, d: Category, c: Category) {
    && c != d
    && (forall e | e != d :: part1.Get(e) <= part1.Get(c))
    && (forall e | e != d && Index(e) < Index(c) :: part1.Get(e) < part1.Get(c))
  }

  lemma TopOtherIsFirstOtherMax(part1: ScoreMap, d: Category, c: Category)
    ensures TopOther(part1, d).category == c <==> FirstOtherMax(part1, d, c)
  {
    var top := TopOther(part1, d);
    if FirstOtherMax(part1, d, c) {
      assert part1.Get(top.category) == part1.Get(c);
      assert Index(top.category) == Index(c);
    }
  }

  // ---------------------------------------------------------------------
  // Reference characterisations
  // ---------------------------------------------------------------------

  /** `c` holds the highest score of `m`, and no earlier category reaches it. */
  ghost predicate IsFirstArgMax(m: ScoreMap, c: Category) {
    && (forall d :: m.Get(d) <= m.Get(c))
    && (forall d | Index(d) < Index(c) :: m.Get(d) < m.Get(c))
  }

  /** The dominant category is the first argmax of the part-1 scores, when that maximum is positive. */
  lemma DominantIsFirstArgMax(part1: ScoreMap, c: Category)
    ensures GetDominant(part1).category == Some(c) <==> IsFirstArgMax(part1, c) && part1.Get(c) > 0
  {
    var r := GetDominant(part1);
    if IsFirstArgMax(part1, c) && part1.Get(c) > 0 {
      assert r.category.Some?;
    }
  }

  /**
   * The primary (first) deficiency is the first argmax of the part-2 scores,
   * and the list is non-empty exactly when that maximum reaches the mild
   * deficiency threshold.
   */
  lemma PrimaryDeficiencyIsFirstArgMax(part2: ScoreMap)
    ensures |GetDeficient(part2)| > 0 <==> exists c :: part2.Get(c) >= DeficiencyMild
    ensures |GetDeficient(part2)| > 0 ==> IsFirstArgMax(part2, GetDeficient(part2)[0].category)
  {
    var r := GetDeficient(part2);
    if exists c :: part2.Get(c) >= DeficiencyMild {
      var c :| part2.Get(c) >= DeficiencyMild;
      assert exists i | 0 <= i < |r| :: r[i].category == c;
    }
    if |r| > 0 {
      var p := r[0].category;
      assert r[0].score == part2.Get(p);
      forall d
        ensures part2.Get(d) <= part2.Get(p)
        ensures Index(d) < Index(p) ==> part2.Get(d) < part2.Get(p)
      {
        if part2.Get(d) >= DeficiencyMild {
          var i :| 0 <= i < |r| && r[i].category == d;
          if i > 0 {
            assert DeficiencyScore(r[0]) > DeficiencyScore(r[i]) || DeficiencyRank(r[0]) < DeficiencyRank(r[i]);
          }
        }
      }
    }
  }

  /**
   * The first gap record has the largest absolute gap over all categories,
   * and no earlier category in enumeration order reaches it.
   */
  lemma FirstGapIsFirstMaximum(scores: Scores)
    ensures var r := CalculateRelativeGaps(scores);
      && (forall c :: AbsGap(GapOf(scores, c)) <= AbsGap(r[0]))
      && (forall c | Index(c) < Index(r[0].category) :: AbsGap(GapOf(scores, c)) < AbsGap(r[0]))
  {
    var r := CalculateRelativeGaps(scores);
    forall c
      ensures AbsGap(GapOf(scores, c)) <= AbsGap(r[0])
      ensures Index(c) < Index(r[0].category) ==> AbsGap(GapOf(scores, c)) < AbsGap(r[0])
    {
      assert HasGapFor(r, c);
      var i :| 0 <= i < |r| && r[i].category == c;
      assert r[i] == GapOf(scores, c);
      if i > 0 {
        assert AbsGap(r[0]) > AbsGap(r[i]) || GapRank(r[0]) < GapRank(r[i]);
      }
    }
  }
}

=== FILE: domain.dfy ===
/** Failure-compatible wrappers shared by every module. */
module Wrappers {

  datatype Option<+T> = None | Some(value: T) {

    /** The wrapped value, or `default` when there is none. */
    function GetOr(default: T): T {
      match this
      case Some(v) => v
      case None => default
    }
  }

  /** A value or an error, for operations that report failures to their caller. */
  datatype Result<+R, +E> = Success(value: R) | Failure(error: E)
}

/**
 * The fixed vocabulary of the questionnaire: the four neurotransmitter
 * categories, the four subcategories every category is split into, the two
 * assessment parts, and the per-part score tables.
 */
module Domain {

  /** The four neurotransmitter systems, in the order every loop of the program visits them. */
  datatype Category = Dopamine | Acetylcholine | Gaba | Serotonin

  /** The subcategories of item lists inside every category. */
  datatype Subcategory = MemoryAttention | Physical | Personality | Character

  /** Part 1 measures the dominant nature, part 2 the deficiencies. */
  datatype Part = Part1 | Part2

  /** The enumeration order `dopamine, acetylcholine, gaba, serotonin`. */
  const AllCategories: seq<Category> := [Dopamine, Acetylcholine, Gaba, Serotonin]

  const AllSubcategories: seq<Subcategory> := [MemoryAttention, Physical, Personality, Character]

  /** Position of a category in the enumeration order. */
  function Index(c: Category): (i: nat)
    ensures i < |AllCategories| && AllCategories[i] == c
  {
    match c
    case Dopamine => 0
    case Acetylcholine => 1
    case Gaba => 2
    case Serotonin => 3
  }

  /** Every category appears in the enumeration. */
  lemma AllCategoriesListed()
    ensures forall c :: c in AllCategories
  {
    forall c
      ensures c in AllCategories
    {
      assert AllCategories[Index(c)] == c;
    }
  }

  /** The enumeration lists each category at its own index, so indices increase along it. */
  lemma AllCategoriesInOrder()
    ensures forall i | 0 <= i < |AllCategories| :: Index(AllCategories[i]) == i
    ensures forall i, j | 0 <= i < j < |AllCategories| :: Index(AllCategories[i]) < Index(AllCategories[j])
  {
  }

  /** The display name used by every narrative and chart label. */
  function DisplayName(c: Category): string {
    match c
    case Dopamine => "Dopamine"
    case Acetylcholine => "Acetylcholine"
    case Gaba => "GABA"
    case Serotonin => "Serotonin"
  }

  /** One part's scores: an integer per category. */
  datatype ScoreMap = ScoreMap(dopamine: int, acetylcholine: int, gaba: int, serotonin: int) {

    function Get(c: Category): int {
      match c
      case Dopamine => dopamine
      case Acetylcholine => acetylcholine
      case Gaba => gaba
      case Serotonin => serotonin
    }

    /** This map with the score of `c` replaced by `v`. */
    function Set(c: Category, v: int): (r: ScoreMap)
      ensures r.Get(c) == v
      ensures forall d :: d != c ==> r.Get(d) == Get(d)
    {
      match c
      case Dopamine => this.(dopamine := v)
      case Acetylcholine => this.(acetylcholine := v)
      case Gaba => this.(gaba := v)
      case Serotonin => this.(serotonin := v)
    }
  }

  const ZeroScores: ScoreMap := ScoreMap(0, 0, 0, 0)

  /** The scores of both parts. */
  datatype Scores = Scores(part1: ScoreMap, part2: ScoreMap) {

    function Of(p: Part): ScoreMap {
      match p
      case Part1 => part1
      case Part2 => part2
    }
  }

  const InitialScores: Scores := Scores(ZeroScores, ZeroScores)
}

=== FILE: export.dfy ===
/**
 * The export manager's logic: the user information an export is labelled
 * with, the file names it saves under, the splitting of the interpretation
 * text into document paragraphs, and the guards that decide whether an
 * export goes ahead or which error it reports. The documents themselves
 * (the PDF pages, the DOCX layout) are not modelled; an export that goes
 * ahead is described by its file name and, for DOCX, by its paragraphs.
 */
module Export {
  import opened Wrappers
  import opened Domain
  import Privacy
  import Interpretation

  // ---------------------------------------------------------------------
  // Whitespace, as the regular-expression class `\s` and `trim` see it
  // ---------------------------------------------------------------------

  /** White space and line terminators of ECMAScript. */
  predicate IsWhitespace(c: char) {
    c == ' ' || c == '\t' || c == '\n' || c == '\U{B}' || c == '\U{C}' || c == '\r'
    || c == '\U{A0}' || c == '\U{1680}' || ('\U{2000}' <= c <= '\U{200A}')
    || c == '\U{2028}' || c == '\U{2029}' || c == '\U{202F}' || c == '\U{205F}'
    || c == '\U{3000}' || c == '\U{FEFF}'
  }

  predicate NoWhitespace(s: string) {
    forall i | 0 <= i < |s| :: !IsWhitespace(s[i])
  }

  /** Some character of `s` is not white space. */
  predicate HasContent(s: string) {
    exists i | 0 <= i < |s| :: !IsWhitespace(s[i])
  }

  /** `s` without its leading white space. */
  function DropWhitespace(s: string): (r: string)
    ensures |r| <= |s| && r == s[|s| - |r|..]
    ensures forall i | 0 <= i < |s| - |r| :: IsWhitespace(s[i])
    ensures |r| > 0 ==> !IsWhitespace(r[0])
  {
    if |s| > 0 && IsWhitespace(s[0]) then DropWhitespace(s[1..]) else s
  }

  /** `s` without its trailing white space. */
  function DropTrailingWhitespace(s: string): (r: string)
    ensures |r| <= |s| && r == s[..|r|]
    ensures forall i | |r| <= i < |s| :: IsWhitespace(s[i])
    ensures |r| > 0 ==> !IsWhitespace(r[|r| - 1])
  {
    if |s| > 0 && IsWhitespace(s[|s| - 1]) then DropTrailingWhitespace(s[..|s| - 1]) else s
  }

  function Trim(s: string): string {
    DropTrailingWhitespace(DropWhitespace(s))
  }

  /** Trimming leaves nothing exactly when the text is all white space. */
  lemma TrimEmptyIffBlank(s: string)
    ensures Trim(s) == "" <==> !HasContent(s)
  {
    var t := DropWhitespace(s);
    var n := |s| - |t|;
    if |t| > 0 {
      assert s[n] == t[0];
      assert !IsWhitespace(s[n]);
      assert !IsWhitespace(t[0]);
    } else {
      assert forall i | 0 <= i < |s| :: IsWhitespace(s[i]);
    }
  }

  /**
   * Every run of white space replaced by one underscore, as
   * `replace(/\s+/g, '_')` does.
   */
  function CollapseWhitespace(s: string): (r: string)
    ensures NoWhitespace(r)
    decreases |s|
  {
    if |s| == 0 then ""
    else if IsWhitespace(s[0]) then "_" + CollapseWhitespace(DropWhitespace(s[1..]))
    else [s[0]] + CollapseWhitespace(s[1..])
  }

  /** A run of white space followed by a visible character, or by nothing, is dropped whole. */
  lemma {:induction false} DropRun(w: string, b: string)
    requires forall i | 0 <= i < |w| :: IsWhitespace(w[i])
    requires |b| == 0 || !IsWhitespace(b[0])
    ensures DropWhitespace(w + b) == b
    decreases |w|
  {
    if |w| == 0 {
      assert w + b == b;
    } else {
      assert (w + b)[0] == w[0];
      assert (w + b)[1..] == w[1..] + b;
      DropRun(w[1..], b);
    }
  }

  /**
   * Each maximal run of white space becomes exactly one underscore: after a
   * stretch without white space, the whole run `w` is replaced by "_" and
   * the text after it is collapsed on its own.
   */
  lemma {:induction false} CollapseRun(a: string, w: string, b: string)
    requires NoWhitespace(a)
    requires |w| > 0 && forall i | 0 <= i < |w| :: IsWhitespace(w[i])
    requires |b| == 0 || !IsWhitespace(b[0])
    ensures CollapseWhitespace(a + w + b) == a + "_" + CollapseWhitespace(b)
    decreases |a|
  {
    if |a| == 0 {
      assert a + w + b == w + b;
      CollapseLeadingRun(w, b);
      assert a + "_" + CollapseWhitespace(b) == "_" + CollapseWhitespace(b);
    } else {
      var s := a + w + b;
      assert s[0] == a[0];
      assert s[1..] == a[1..] + w + b;
      CollapseRun(a[1..], w, b);
      assert a + "_" + CollapseWhitespace(b) == [a[0]] + (a[1..] + "_" + CollapseWhitespace(b));
    }
  }

  /** A text that opens with a whole run of white space collapses to one underscore and the rest. */
  lemma CollapseLeadingRun(w: string, b: string)
    requires |w| > 0 && forall i | 0 <= i < |w| :: IsWhitespace(w[i])
    requires |b| == 0 || !IsWhitespace(b[0])
    ensures CollapseWhitespace(w + b) == "_" + CollapseWhitespace(b)
  {
    var s := w + b;
    assert s[0] == w[0];
    assert s[1..] == w[1..] + b;
    DropRun(w[1..], b);
  }

  /** A name without white space is used as it is. */
  lemma {:induction false} CollapseIdentity(s: string)
    requires NoWhitespace(s)
    ensures CollapseWhitespace(s) == s
    decreases |s|
  {
    if |s| > 0 {
      CollapseIdentity(s[1..]);
    }
  }

  /** Collapsing twice is collapsing once. */
  lemma CollapseIdempotent(s: string)
    ensures CollapseWhitespace(CollapseWhitespace(s)) == CollapseWhitespace(s)
  {
    CollapseIdentity(CollapseWhitespace(s));
  }

  /** The characters of `s` that are not white space, in order. */
  function Visible(s: string): string
    decreases |s|
  {
    if |s| == 0 then "" else (if IsWhitespace(s[0]) then "" else [s[0]]) + Visible(s[1..])
  }

  /** `s` with every underscore removed. */
  function WithoutUnderscores(s: string): string
    decreases |s|
  {
    if |s| == 0 then "" else (if s[0] == '_' then "" else [s[0]]) + WithoutUnderscores(s[1..])
  }

  lemma {:induction false} VisibleDropWhitespace(s: string)
    ensures Visible(DropWhitespace(s)) == Visible(s)
    decreases |s|
  {
    if |s| > 0 && IsWhitespace(s[0]) {
      VisibleDropWhitespace(s[1..]);
    }
  }

  predicate NoUnderscore(s: string) {
    forall i | 0 <= i < |s| :: s[i] != '_'
  }

  lemma WithoutUnderscoresCons(c: char, x: string)
    ensures WithoutUnderscores([c] + x) == (if c == '_' then "" else [c]) + WithoutUnderscores(x)
  {
    assert ([c] + x)[1..] == x;
  }

  /**
   * Collapsing loses no other character: in a name without underscores,
   * removing the underscores again leaves exactly the visible characters,
   * in their order.
   */
  lemma {:induction false} CollapseKeepsVisible(s: string)
    requires NoUnderscore(s)
    ensures WithoutUnderscores(CollapseWhitespace(s)) == Visible(s)
    decreases |s|
  {
    if |s| > 0 {
      var rest := s[1..];
      assert NoUnderscore(rest);
      if IsWhitespace(s[0]) {
        var t := DropWhitespace(rest);
        assert NoUnderscore(t) by {
          forall i | 0 <= i < |t| ensures t[i] != '_' {
            assert t[i] == rest[|rest| - |t| + i];
          }
        }
        CollapseKeepsVisible(t);
        VisibleDropWhitespace(rest);
        WithoutUnderscoresCons('_', CollapseWhitespace(t));
      } else {
        CollapseKeepsVisible(rest);
        WithoutUnderscoresCons(s[0], CollapseWhitespace(rest));
      }
    }
  }

  // ---------------------------------------------------------------------
  // Decimal numbers
  // ---------------------------------------------------------------------

  predicate IsDigit(c: char) {
    '0' <= c <= '9'
  }

  predicate AllDigits(s: string) {
    forall i | 0 <= i < |s| :: IsDigit(s[i])
  }

  function DigitChar(d: nat): (c: char)
    requires d < 10
    ensures IsDigit(c)
  {
    ('0' as int + d) as char
  }

  function DigitValue(c: char): (d: nat)
    requires IsDigit(c)
    ensures d < 10
  {
    c as int - '0' as int
  }

  /** The decimal text of a number, as `String(n)` writes it. */
  function NatToString(n: nat): (r: string)
    ensures |r| >= 1 && AllDigits(r)
    ensures r[0] == '0' <==> n == 0
    ensures |r| == 1 <==> n < 10
    decreases n
  {
    if n < 10 then [DigitChar(n)] else NatToString(n / 10) + [DigitChar(n % 10)]
  }

  /** The value of a string of decimal digits. */
  function ParseDigits(s: string): nat
    requires AllDigits(s)
    decreases |s|
  {
    if |s| == 0 then 0 else 10 * ParseDigits(s[..|s| - 1]) + DigitValue(s[|s| - 1])
  }

  /** Reading the decimal text of a number gives the number back. */
  lemma {:induction false} ParseNatToString(n: nat)
    ensures ParseDigits(NatToString(n)) == n
    decreases n
  {
    var s := NatToString(n);
    if n < 10 {
      assert s[..0] == "";
    } else {
      assert s[..|s| - 1] == NatToString(n / 10);
      ParseNatToString(n / 10);
    }
  }

  /** `padStart(2, '0')`: a text shorter than two characters gets zeros in front. */
  function PadStart2(s: string): (r: string)
    ensures |r| == if |s| >= 2 then |s| else 2
    ensures r[|r| - |s|..] == s
    ensures forall i | 0 <= i < |r| - |s| :: r[i] == '0'
  {
    if |s| >= 2 then s else seq(2 - |s|, _ => '0') + s
  }

  /** A number below 100 is written as exactly two digits that read back as the number. */
  lemma TwoDigits(n: nat)
    requires n < 100
    ensures |PadStart2(NatToString(n))| == 2 && AllDigits(PadStart2(NatToString(n)))
    ensures ParseDigits(PadStart2(NatToString(n))) == n
  {
    var s := NatToString(n);
    var p := PadStart2(s);
    ParseNatToString(n);
    if n < 10 {
      assert p == ['0', s[0]];
      assert p[..1] == "0" && p[..1][..0] == "";
    } else {
      assert |NatToString(n / 10)| == 1;
    }
  }

  // ---------------------------------------------------------------------
  // Dates in file names
  // ---------------------------------------------------------------------

  /** A calendar date as the browser reports it: the month counts from 0. */
  datatype Date = Date(year: nat, month: nat, day: nat)

  predicate ValidDate(d: Date) {
    d.month < 12 && 1 <= d.day <= 31
  }

  /** `YYYY-MM-DD`, with the month counted from 1 and month and day padded to two digits. */
  function FormatDateForFileName(d: Date): (r: string)
    requires ValidDate(d)
    ensures |r| >= 7 && r[|r| - 3] == '-' && r[|r| - 6] == '-'
    ensures forall i | 0 <= i < |r| :: IsDigit(r[i]) || r[i] == '-'
  {
    var y := NatToString(d.year);
    var m := PadStart2(NatToString(d.month + 1));
    var dd := PadStart2(NatToString(d.day));
    TwoDigits(d.month + 1);
    TwoDigits(d.day);
    DashedParts(y, m, dd);
    DashedChars(y, m, dd);
    y + "-" + m + "-" + dd
  }

  lemma DashedChars(y: string, m: string, dd: string)
    requires AllDigits(y) && AllDigits(m) && AllDigits(dd)
    ensures var s := y + "-" + m + "-" + dd;
      forall i | 0 <= i < |s| :: IsDigit(s[i]) || s[i] == '-'
  {
    var s := y + "-" + m + "-" + dd;
    forall i | 0 <= i < |s|
      ensures IsDigit(s[i]) || s[i] == '-'
    {
      if i < |y| {
        assert s[i] == y[i];
      } else if |y| < i < |y| + 1 + |m| {
        assert s[i] == m[i - |y| - 1];
      } else if i > |y| + 1 + |m| {
        assert s[i] == dd[i - |y| - 2 - |m|];
      }
    }
  }

  /** Reads a `YYYY-MM-DD` text back into a date; `None` when it is not one. */
  function ParseFileNameDate(s: string): (r: Option<Date>)
    ensures r.Some? ==> ValidDate(r.value)
  {
    if |s| < 7 || s[|s| - 3] != '-' || s[|s| - 6] != '-' then None
    else
      var y := s[..|s| - 6];
      var m := s[|s| - 5..|s| - 3];
      var dd := s[|s| - 2..];
      if !AllDigits(y) || !AllDigits(m) || !AllDigits(dd) then None
      else
        var month := ParseDigits(m);
        var day := ParseDigits(dd);
        if 1 <= month <= 12 && 1 <= day <= 31 then Some(Date(ParseDigits(y), month - 1, day))
        else None
  }

  /** The three fields of a dashed date text sit at fixed distances from its end. */
  lemma DashedParts(y: string, m: string, dd: string)
    requires |y| >= 1 && |m| == 2 && |dd| == 2
    ensures var s := y + "-" + m + "-" + dd;
      |s| >= 7 && s[|s| - 3] == '-' && s[|s| - 6] == '-'
      && s[..|s| - 6] == y && s[|s| - 5..|s| - 3] == m && s[|s| - 2..] == dd
  {
  }

  /** A dashed text of digit fields reads back as the date its fields spell. */
  lemma ParseDashed(y: string, m: string, dd: string)
    requires |y| >= 1 && |m| == 2 && |dd| == 2
    requires AllDigits(y) && AllDigits(m) && AllDigits(dd)
    requires 1 <= ParseDigits(m) <= 12 && 1 <= ParseDigits(dd) <= 31
    ensures ParseFileNameDate(y + "-" + m + "-" + dd) == Some(Date(ParseDigits(y), ParseDigits(m) - 1, ParseDigits(dd)))
  {
    DashedParts(y, m, dd);
    ParseFields(y + "-" + m + "-" + dd, y, m, dd);
  }

  /** A text whose dashes and digit fields are where a file-name date has them parses to those fields. */
  lemma ParseFields(s: string, y: string, m: string, dd: string)
    requires |s| >= 7 && s[|s| - 3] == '-' && s[|s| - 6] == '-'
    requires s[..|s| - 6] == y && s[|s| - 5..|s| - 3] == m && s[|s| - 2..] == dd
    requires AllDigits(y) && AllDigits(m) && AllDigits(dd)
    requires 1 <= ParseDigits(m) <= 12 && 1 <= ParseDigits(dd) <= 31
    ensures ParseFileNameDate(s) == Some(Date(ParseDigits(y), ParseDigits(m) - 1, ParseDigits(dd)))
  {
  }

  /** The three fields of a file-name date: the year, and the month and day as two digits each. */
  lemma DateFields(d: Date)
    requires ValidDate(d)
    ensures var y := NatToString(d.year);
      var m := PadStart2(NatToString(d.month + 1));
      var dd := PadStart2(NatToString(d.day));
      && FormatDateForFileName(d) == y + "-" + m + "-" + dd
      && |y| >= 1 && |m| == 2 && |dd| == 2 && AllDigits(y) && AllDigits(m) && AllDigits(dd)
      && ParseDigits(y) == d.year && ParseDigits(m) == d.month + 1 && ParseDigits(dd) == d.day
  {
    TwoDigits(d.month + 1);
    TwoDigits(d.day);
    ParseNatToString(d.year);
  }

  /** The date in a file name can be read back, so different dates give different names. */
  lemma FileNameDateRoundTrip(d: Date)
    requires ValidDate(d)
    ensures ParseFileNameDate(FormatDateForFileName(d)) == Some(d)
  {
    DateFields(d);
    ParseDashed(NatToString(d.year), PadStart2(NatToString(d.month + 1)), PadStart2(NatToString(d.day)));
  }

  lemma FileNameDateInjective(a: Date, b: Date)
    requires ValidDate(a) && ValidDate(b)
    ensures FormatDateForFileName(a) == FormatDateForFileName(b) <==> a == b
  {
    FileNameDateRoundTrip(a);
    FileNameDateRoundTrip(b);
  }

  // ---------------------------------------------------------------------
  // User information and file names
  // ---------------------------------------------------------------------

  const DefaultUserName: string := "Client"

  /** What an export is labelled with: the client's name, the date and the scores. */
  datatype ExportInfo = ExportInfo(userName: string, date: Date, scores: Option<Scores>)

  /**
   * Recording the user information before an export: a missing or empty
   * name becomes "Client", and the date is the current one, given here.
   */
  function UpdateUserInfo(userName: Option<string>, scores: Option<Scores>, today: Date): (r: ExportInfo)
    ensures r.userName != ""
    ensures userName.Some? && userName.value != "" ==> r.userName == userName.value
    ensures userName.None? || userName.value == "" ==> r.userName == DefaultUserName
    ensures r.date == today && r.scores == scores
  {
    var name := if userName.Some? && userName.value != "" then userName.value else DefaultUserName;
    ExportInfo(name, today, scores)
  }

  datatype Format = Pdf | Docx

  function Extension(f: Format): string {
    match f
    case Pdf => ".pdf"
    case Docx => ".docx"
  }

  const FileNameMiddle: string := "_Neuro_Transmitter_Results_"

  /** Letters, digits and the punctuation of file names, none of them white space. */
  predicate IsNameChar(c: char) {
    ('a' <= c <= 'z') || ('A' <= c <= 'Z') || IsDigit(c) || c == '_' || c == '-' || c == '.'
  }

  lemma NameCharsNoWhitespace(s: string)
    requires forall i | 0 <= i < |s| :: IsNameChar(s[i])
    ensures NoWhitespace(s)
  {
  }

  lemma ConcatNoWhitespace(a: string, b: string)
    requires NoWhitespace(a) && NoWhitespace(b)
    ensures NoWhitespace(a + b)
  {
    forall i | 0 <= i < |a + b|
      ensures !IsWhitespace((a + b)[i])
    {
      if i >= |a| {
        assert (a + b)[i] == b[i - |a|];
      }
    }
  }

  lemma DateTextNoWhitespace(d: Date)
    requires ValidDate(d)
    ensures NoWhitespace(FormatDateForFileName(d))
  {
    NameCharsNoWhitespace(FormatDateForFileName(d));
  }

  lemma ExtensionNoWhitespace(f: Format)
    ensures NoWhitespace(Extension(f))
  {
    match f
    case Pdf => NameCharsNoWhitespace(".pdf");
    case Docx => NameCharsNoWhitespace(".docx");
  }

  lemma MiddleNoWhitespace()
    ensures NoWhitespace(FileNameMiddle)
  {
    NameCharsNoWhitespace(FileNameMiddle);
  }

  /**
   * `r` is laid out as a file name: `name`, then `mid`, then a date text
   * that reads back as `d`, then `ext`.
   */
  predicate LaidOut(r: string, name: string, mid: string, d: Date, ext: string) {
    && |r| > |name| + |mid| + |ext|
    && r[..|name|] == name
    && r[|name|..|name| + |mid|] == mid
    && ParseFileNameDate(r[|name| + |mid|..|r| - |ext|]) == Some(d)
    && r[|r| - |ext|..] == ext
  }

  /** The four parts put together are laid out as a file name, free of white space when the parts are. */
  lemma FileNameLayout(name: string, mid: string, text: string, ext: string, d: Date)
    requires NoWhitespace(name) && NoWhitespace(mid) && NoWhitespace(text) && NoWhitespace(ext)
    requires ParseFileNameDate(text) == Some(d)
    ensures NoWhitespace(name + mid + text + ext)
    ensures LaidOut(name + mid + text + ext, name, mid, d, ext)
  {
    var r := name + mid + text + ext;
    ConcatNoWhitespace(name, mid);
    ConcatNoWhitespace(name + mid, text);
    ConcatNoWhitespace(name + mid + text, ext);
    assert r[|name| + |mid|..|r| - |ext|] == text;
  }

  /**
   * The saved file's name: the user name with its white-space runs made
   * underscores, the fixed middle, the date and the extension. The date
   * between the middle and the extension reads back as the export's date.
   */
  function FileName(info: ExportInfo, f: Format): (r: string)
    requires ValidDate(info.date)
    ensures NoWhitespace(r)
    ensures LaidOut(r, CollapseWhitespace(info.userName), FileNameMiddle, info.date, Extension(f))
  {
    var name := CollapseWhitespace(info.userName);
    var text := FormatDateForFileName(info.date);
    var ext := Extension(f);
    MiddleNoWhitespace();
    ExtensionNoWhitespace(f);
    DateTextNoWhitespace(info.date);
    FileNameDateRoundTrip(info.date);
    FileNameLayout(name, FileNameMiddle, text, ext, info.date);
    name + FileNameMiddle + text + ext
  }

  // ---------------------------------------------------------------------
  // Interpretation text to document paragraphs
  // ---------------------------------------------------------------------

  /** A paragraph break: two line feeds starting at `j`. */
  predicate BreakAt(s: string, j: int) {
    0 <= j && j + 1 < |s| && s[j] == '\n' && s[j + 1] == '\n'
  }

  predicate NoBreak(s: string) {
    forall j | 0 <= j < |s| :: !BreakAt(s, j)
  }

  /** The first paragraph break at or after `from`, searching left to right. */
  function FindBreak(s: string, from: nat): (r: Option<nat>)
    ensures r.Some? ==> from <= r.value && BreakAt(s, r.value)
    ensures r.Some? ==> forall j | from <= j < r.value :: !BreakAt(s, j)
    ensures r.None? ==> forall j | from <= j < |s| :: !BreakAt(s, j)
    decreases |s| - from
  {
    if from + 1 >= |s| then None
    else if s[from] == '\n' && s[from + 1] == '\n' then Some(from)
    else FindBreak(s, from + 1)
  }

  /** `split('\n\n')`: the pieces between the breaks, found left to right. */
  function SplitParagraphs(s: string): (r: seq<string>)
    ensures |r| >= 1
    ensures forall k | 0 <= k < |r| :: NoBreak(r[k])
    decreases |s|
  {
    match FindBreak(s, 0)
    case None => [s]
    case Some(i) =>
      var head := s[..i];
      assert NoBreak(head) by {
        forall j | 0 <= j < |head| ensures !BreakAt(head, j) {
          assert !BreakAt(s, j);
        }
      }
      [head] + SplitParagraphs(s[i + 2..])
  }

  /** The pieces joined again with a paragraph break between neighbours. */
  function Join(ps: seq<string>): string
    requires |ps| >= 1
    decreases |ps|
  {
    if |ps| == 1 then ps[0] else ps[0] + "\n\n" + Join(ps[1..])
  }

  /** Splitting loses nothing: joining the pieces gives the text back. */
  lemma {:induction false} JoinSplit(s: string)
    ensures Join(SplitParagraphs(s)) == s
    decreases |s|
  {
    match FindBreak(s, 0)
    case None =>
    case Some(i) =>
      JoinSplit(s[i + 2..]);
      assert s == s[..i] + "\n\n" + s[i + 2..];
  }

  /**
   * Blocks that contain no break and do not end in a line feed (except the
   * last) are split back into exactly themselves.
   */
  lemma {:induction false} SplitJoin(ps: seq<string>)
    requires |ps| >= 1
    requires forall k | 0 <= k < |ps| :: NoBreak(ps[k])
    requires forall k | 0 <= k < |ps| - 1 :: |ps[k]| == 0 || ps[k][|ps[k]| - 1] != '\n'
    ensures SplitParagraphs(Join(ps)) == ps
    decreases |ps|
  {
    var s := Join(ps);
    if |ps| == 1 {
      assert NoBreak(s);
    } else {
      var p := ps[0];
      var rest := Join(ps[1..]);
      assert s == p + "\n\n" + rest;
      assert BreakAt(s, |p|);
      forall j | 0 <= j < |p|
        ensures !BreakAt(s, j)
      {
        if j + 1 < |p| {
          assert !BreakAt(p, j);
        }
      }
      var f := FindBreak(s, 0);
      assert f == Some(|p|);
      assert s[..|p|] == p;
      assert s[|p| + 2..] == rest;
      SplitJoin(ps[1..]);
    }
  }

  /** A paragraph of the DOCX document: its text, and whether it is set as a heading. */
  datatype DocParagraph = DocParagraph(text: string, heading: bool)

  /** The beginnings that make a paragraph a heading. */
  const HeadingPrefixes: seq<string> := [
    "Clinical Summary", "Dominant Neurotransmitter", "Neurotransmitter Deficiency",
    "Pattern Analysis", "Clinical Considerations", "Prescribing Implications", "Clinical Disclaimer"]

  predicate StartsWithHeading(t: string) {
    || HeadingPrefixes[0] <= t || HeadingPrefixes[1] <= t || HeadingPrefixes[2] <= t || HeadingPrefixes[3] <= t
    || HeadingPrefixes[4] <= t || HeadingPrefixes[5] <= t || HeadingPrefixes[6] <= t
  }

  /** The pieces whose trimmed text is not empty, in order. */
  function KeepContent(ps: seq<string>): (r: seq<string>)
    ensures forall k | 0 <= k < |r| :: HasContent(r[k])
    decreases |ps|
  {
    if |ps| == 0 then []
    else
      TrimEmptyIffBlank(ps[0]);
      var rest := KeepContent(ps[1..]);
      if Trim(ps[0]) != "" then [ps[0]] + rest else rest
  }

  /** Pieces that all have content are all kept. */
  lemma {:induction false} KeepContentAll(ps: seq<string>)
    requires forall k | 0 <= k < |ps| :: HasContent(ps[k])
    ensures KeepContent(ps) == ps
    decreases |ps|
  {
    if |ps| > 0 {
      TrimEmptyIffBlank(ps[0]);
      KeepContentAll(ps[1..]);
    }
  }

  /** Exactly the pieces with content survive the filter. */
  lemma {:induction false} KeepContentMembers(ps: seq<string>)
    ensures forall x :: x in KeepContent(ps) <==> x in ps && HasContent(x)
    decreases |ps|
  {
    if |ps| > 0 {
      TrimEmptyIffBlank(ps[0]);
      KeepContentMembers(ps[1..]);
      assert forall x :: x in ps <==> x == ps[0] || x in ps[1..];
    }
  }

  /** A single piece is kept exactly when it has content. */
  lemma KeepContentSingle(x: string)
    ensures KeepContent([x]) == if HasContent(x) then [x] else []
  {
    TrimEmptyIffBlank(x);
    assert [x][1..] == [];
  }

  /**
   * The filter works piece by piece: filtering a concatenation is the
   * concatenation of the filtered parts. With `KeepContentSingle` this
   * pins the result down, so the kept pieces come in their original order
   * and a piece occurring twice is kept twice.
   */
  lemma {:induction false} KeepContentAppend(ps: seq<string>, qs: seq<string>)
    ensures KeepContent(ps + qs) == KeepContent(ps) + KeepContent(qs)
    decreases |ps|
  {
    if |ps| > 0 {
      assert (ps + qs)[0] == ps[0];
      assert (ps + qs)[1..] == ps[1..] + qs;
      KeepContentAppend(ps[1..], qs);
    } else {
      assert ps + qs == qs;
    }
  }

  /** Dropping a blank piece changes nothing; a piece with content stays where it was. */
  lemma KeepContentSplit(before: seq<string>, x: string, after: seq<string>)
    ensures KeepContent(before + [x] + after) == KeepContent(before) + (if HasContent(x) then [x] else []) + KeepContent(after)
  {
    KeepContentAppend(before + [x], after);
    KeepContentAppend(before, [x]);
    KeepContentSingle(x);
  }

  /**
   * The document paragraphs of the interpretation text: the pieces between
   * paragraph breaks that are not blank, untrimmed, each a heading exactly
   * when it starts with one of the heading beginnings.
   */
  function CreateInterpretationParagraphs(text: string): (r: seq<DocParagraph>)
    ensures forall k | 0 <= k < |r| :: HasContent(r[k].text) && (r[k].heading <==> StartsWithHeading(r[k].text))
  {
    ToParagraphs(KeepContent(SplitParagraphs(text)))
  }

  /** One paragraph per piece, in order, a heading exactly when the piece starts with a heading beginning. */
  function ToParagraphs(ps: seq<string>): (r: seq<DocParagraph>)
    ensures |r| == |ps|
    ensures forall k | 0 <= k < |r| :: r[k].text == ps[k] && (r[k].heading <==> StartsWithHeading(ps[k]))
    decreases |ps|
  {
    if |ps| == 0 then [] else [DocParagraph(ps[0], StartsWithHeading(ps[0]))] + ToParagraphs(ps[1..])
  }

  function Texts(r: seq<DocParagraph>): seq<string> {
    seq(|r|, k requires 0 <= k < |r| => r[k].text)
  }

  /**
   * A text written as blocks separated by paragraph breaks, each block with
   * content, no break inside and no line feed at its end, becomes exactly
   * one paragraph per block.
   */
  lemma ParagraphsOfBlocks(blocks: seq<string>)
    requires |blocks| >= 1
    requires forall k | 0 <= k < |blocks| :: HasContent(blocks[k]) && NoBreak(blocks[k])
    requires forall k | 0 <= k < |blocks| - 1 :: |blocks[k]| == 0 || blocks[k][|blocks[k]| - 1] != '\n'
    ensures Texts(CreateInterpretationParagraphs(Join(blocks))) == blocks
  {
    SplitJoin(blocks);
    KeepContentAll(blocks);
  }

  /**
   * A text written as chunks separated by paragraph breaks, blank or not,
   * each without a break inside and without a line feed at its end, gives
   * one paragraph per chunk with content, in the order of the chunks.
   */
  lemma ParagraphsOfChunks(chunks: seq<string>)
    requires |chunks| >= 1
    requires forall k | 0 <= k < |chunks| :: NoBreak(chunks[k])
    requires forall k | 0 <= k < |chunks| - 1 :: |chunks[k]| == 0 || chunks[k][|chunks[k]| - 1] != '\n'
    ensures Texts(CreateInterpretationParagraphs(Join(chunks))) == KeepContent(chunks)
  {
    SplitJoin(chunks);
  }

  /** A blank chunk between two paragraphs is dropped, and the two keep their order. */
  lemma BlankChunkDropped(first: string, blank: string, second: string)
    requires HasContent(first) && HasContent(second) && !HasContent(blank)
    requires NoBreak(first) && NoBreak(blank) && NoBreak(second)
    requires |first| == 0 || first[|first| - 1] != '\n'
    requires |blank| == 0 || blank[|blank| - 1] != '\n'
    ensures Texts(CreateInterpretationParagraphs(first + "\n\n" + blank + "\n\n" + second)) == [first, second]
  {
    JoinThree(first, blank, second);
    ParagraphsOfChunks([first, blank, second]);
    KeepContentDropsMiddle(first, blank, second);
  }

  lemma KeepContentDropsMiddle(a: string, x: string, b: string)
    requires HasContent(a) && HasContent(b) && !HasContent(x)
    ensures KeepContent([a, x, b]) == [a, b]
  {
    KeepContentOfThree(a, x, b);
    KeepContentSingle(a);
    KeepContentSingle(b);
    assert [a] + [] + [b] == [a, b];
  }

  lemma KeepContentOfThree(a: string, x: string, b: string)
    ensures KeepContent([a, x, b]) == KeepContent([a]) + (if HasContent(x) then [x] else []) + KeepContent([b])
  {
    assert [a, x, b] == [a] + [x] + [b];
    KeepContentSplit([a], x, [b]);
  }

  lemma JoinThree(a: string, b: string, c: string)
    ensures Join([a, b, c]) == a + "\n\n" + b + "\n\n" + c
  {
    var chunks := [a, b, c];
    assert chunks[1..] == [b, c] && chunks[1..][1..] == [c];
    assert Join(chunks[1..]) == b + "\n\n" + c;
  }

  /** A block beginning with any section heading of the interpretation becomes a heading paragraph. */
  lemma SectionHeadingsAreHeadings(i: nat, rest: string)
    requires i < |Interpretation.SectionHeadings|
    ensures StartsWithHeading(Interpretation.SectionHeadings[i] + rest)
  {
    var t := Interpretation.SectionHeadings[i] + rest;
    assert HeadingPrefixes[i] <= Interpretation.SectionHeadings[i];
    assert Interpretation.SectionHeadings[i] <= t;
  }

  // ---------------------------------------------------------------------
  // Export guards
  // ---------------------------------------------------------------------

  const NotEnabledMessage: string := "Export is not enabled in privacy settings."
  const PdfLibrariesMessage: string := "PDF export libraries not loaded. Please try again."
  const PdfErrorMessage: string := "Error generating PDF. Please try again."
  const DocxLibraryMessage: string := "DOCX export library not loaded. Please try again."
  const DocxErrorMessage: string := "Error generating DOCX. Please try again."

  /**
   * What the page offers an export: the PDF libraries (both must be there),
   * the DOCX library, the results container and the interpretation text
   * (none when its element is missing).
   */
  datatype Page = Page(pdfLibraries: bool, docxLibrary: bool, resultsContainer: bool, interpretation: Option<string>)

  /**
   * PDF export: refused when the privacy settings forbid export, then when
   * the libraries are missing; without a results container the generation
   * fails; otherwise the PDF is saved under the PDF file name.
   */
  function ExportToPdf(m: Privacy.Manager, page: Page, info: ExportInfo): (r: Result<string, string>)
    requires ValidDate(info.date)
    ensures r.Success? <==> Privacy.CanExportResults(m) && page.pdfLibraries && page.resultsContainer
    ensures r.Success? ==> r.value == FileName(info, Pdf)
    ensures r.Failure? ==> r.error in {NotEnabledMessage, PdfLibrariesMessage, PdfErrorMessage}
  {
    if !Privacy.CanExportResults(m) then Failure(NotEnabledMessage)
    else if !page.pdfLibraries then Failure(PdfLibrariesMessage)
    else if !page.resultsContainer then Failure(PdfErrorMessage)
    else Success(FileName(info, Pdf))
  }

  /** The DOCX document: its file name, the scores for its table and the interpretation paragraphs. */
  datatype DocxDocument = DocxDocument(fileName: string, scores: Option<Scores>, paragraphs: seq<DocParagraph>)

  /**
   * DOCX export with every document builder given the library's names:
   * refused when the privacy settings forbid export, then when the library
   * is missing; without the interpretation element the generation fails;
   * otherwise the document holds the scores and the interpretation's
   * paragraphs.
   */
  function ExportToDocx(m: Privacy.Manager, page: Page, info: ExportInfo): (r: Result<DocxDocument, string>)
    requires ValidDate(info.date)
    ensures r.Success? <==> Privacy.CanExportResults(m) && page.docxLibrary && page.interpretation.Some?
    ensures r.Success? ==>
      && r.value.fileName == FileName(info, Docx)
      && r.value.scores == info.scores
      && r.value.paragraphs == CreateInterpretationParagraphs(page.interpretation.value)
    ensures r.Failure? ==> r.error in {NotEnabledMessage, DocxLibraryMessage, DocxErrorMessage}
  {
    if !Privacy.CanExportResults(m) then Failure(NotEnabledMessage)
    else if !page.docxLibrary then Failure(DocxLibraryMessage)
    else if page.interpretation.None? then Failure(DocxErrorMessage)
    else Success(DocxDocument(FileName(info, Docx), info.scores, CreateInterpretationParagraphs(page.interpretation.value)))
  }

  /**
   * Whether the page defines the docx names `Paragraph` and `HeadingLevel`
   * globally; the library itself defines them only inside its own object.
   */
  datatype Globals = Globals(paragraph: bool, headingLevel: bool)

  /**
   * Whether the DOCX document can be built as the code is written: the
   * scores table always constructs a paragraph through the global name
   * `Paragraph`, and a heading paragraph needs the global `HeadingLevel`.
   */
  predicate BuildsAsWritten(g: Globals, paragraphs: seq<DocParagraph>) {
    g.paragraph && (g.headingLevel || forall k | 0 <= k < |paragraphs| :: !paragraphs[k].heading)
  }

  /** DOCX export as written: a failing name lookup is caught as a generation error. */
  function ExportToDocxAsWritten(m: Privacy.Manager, page: Page, info: ExportInfo, g: Globals): (r: Result<DocxDocument, string>)
    requires ValidDate(info.date)
    ensures r.Success? ==> ExportToDocx(m, page, info) == r
    ensures ExportToDocx(m, page, info).Failure? ==> r == ExportToDocx(m, page, info)
  {
    var intended := ExportToDocx(m, page, info);
    if intended.Success? && !BuildsAsWritten(g, intended.value.paragraphs) then Failure(DocxErrorMessage)
    else intended
  }

  /**
   * On a page that defines no global `Paragraph`, the DOCX export as
   * written never saves a document: every export that passes the guards
   * ends in the generation error.
   */
  lemma DocxAsWrittenNeverSaves(m: Privacy.Manager, page: Page, info: ExportInfo, g: Globals)
    requires ValidDate(info.date) && !g.paragraph
    ensures ExportToDocxAsWritten(m, page, info, g).Failure?
    ensures ExportToDocx(m, page, info).Success? ==> ExportToDocxAsWritten(m, page, info, g) == Failure(DocxErrorMessage)
  {
  }

  /** Printing: refused when the privacy settings forbid export; otherwise the print dialog opens. */
  function PrintResults(m: Privacy.Manager): (r: Result<(), string>)
    ensures r.Success? <==> Privacy.CanExportResults(m)
    ensures r.Failure? ==> r.error == NotEnabledMessage
  {
    if !Privacy.CanExportResults(m) then Failure(NotEnabledMessage) else Success(())
  }

  /**
   * The privacy gate comes first: with export switched off, every kind of
   * export reports the privacy message, whatever the page offers; with it
   * switched on, none does.
   */
  lemma PrivacyGateFirst(m: Privacy.Manager, page: Page, info: ExportInfo)
    requires ValidDate(info.date)
    ensures !m.settings.allowExport <==> ExportToPdf(m, page, info) == Failure(NotEnabledMessage)
    ensures !m.settings.allowExport <==> ExportToDocx(m, page, info) == Failure(NotEnabledMessage)
    ensures !m.settings.allowExport <==> PrintResults(m) == Failure(NotEnabledMessage)
  {
  }
}

=== FILE: gap_rounding.dfy ===
/**
 * Why the program's gap percentage differs from the exact rounding on the
 * pairs of `Classification.BinaryBelowHalf`: for each pair, the binary64
 * value of every intermediate of `Math.round((d / 28 - p / 40) * 100)`
 * (clinical_interpretation_updated.js:276-277), written out and checked
 * against the rounding rule.
 */
module GapRounding {
  import opened Wrappers
  import opened Binary64
  import opened Classification

  /** The doubles `d / 28`, `p / 40`, their difference, and the difference times 100. */
  datatype Evaluation = Evaluation(deficiencyShare: Dyadic, dominantShare: Dyadic, difference: Dyadic, scaled: Dyadic)

  /** Each intermediate is the binary64 rounding of the exact result of its operation. */
  predicate EvaluatesGap(dominant: int, deficiency: int, e: Evaluation) {
    && RoundsTo(deficiency, 28, e.deficiencyShare)
    && RoundsTo(dominant, 40, e.dominantShare)
    && var diff := Difference(e.deficiencyShare, e.dominantShare);
      && RoundsTo(diff.m, Pow2(diff.k), e.difference)
      && RoundsTo(e.difference.m * 100, Pow2(e.difference.k), e.scaled)
  }

  /**
   * At (dominant, deficiency) the exact gap is a tie, `e` is what the program
   * computes, and `Math.round` of it is one below the exact rounding.
   */
  predicate RoundsBelowTie(dominant: int, deficiency: int, e: Evaluation) {
    && (50 * deficiency - 35 * dominant) % 14 == 7
    && EvaluatesGap(dominant, deficiency, e)
    && MathRound(e.scaled) == ExactGap(dominant, deficiency) - 1
  }

  /** What the program computes on the pairs of `BinaryBelowHalf`; nothing on the other pairs. */
  function BelowHalfEvaluation(dominant: int, deficiency: int): Option<Evaluation> {
    match (dominant, deficiency)
    case (7, 21) => Some(Evaluation(Dyadic(6755399441055744, 53), Dyadic(6305039478318694, 55), Dyadic(5179139571476070, 53), Dyadic(8092405580431359, 47)))
    case (9, 7) => Some(Evaluation(Dyadic(4503599627370496, 54), Dyadic(8106479329266893, 55), Dyadic(7205759403792792, 58), Dyadic(5629499534213119, 51)))
    case (11, 0) => Some(Evaluation(Dyadic(0, 0), Dyadic(4953959590107546, 54), Dyadic(-4953959590107546, 54), Dyadic(-7740561859543041, 48)))
    case (11, 7) => Some(Evaluation(Dyadic(4503599627370496, 54), Dyadic(4953959590107546, 54), Dyadic(-7205759403792800, 58), Dyadic(-5629499534213125, 51)))
    case (11, 14) => Some(Evaluation(Dyadic(4503599627370496, 53), Dyadic(4953959590107546, 54), Dyadic(8106479329266892, 55), Dyadic(6333186975989759, 48)))
    case (13, 7) => Some(Evaluation(Dyadic(4503599627370496, 54), Dyadic(5854679515581645, 54), Dyadic(-5404319552844596, 56), Dyadic(-8444249301319681, 50)))
    case (17, 28) => Some(Evaluation(Dyadic(4503599627370496, 52), Dyadic(7656119366529843, 54), Dyadic(5179139571476070, 53), Dyadic(8092405580431359, 47)))
    case (21, 7) => Some(Evaluation(Dyadic(4503599627370496, 54), Dyadic(4728779608739021, 53), Dyadic(-4953959590107546, 54), Dyadic(-7740561859543041, 48)))
    case (21, 14) => Some(Evaluation(Dyadic(4503599627370496, 53), Dyadic(4728779608739021, 53), Dyadic(-7205759403792800, 58), Dyadic(-5629499534213125, 51)))
    case (21, 21) => Some(Evaluation(Dyadic(6755399441055744, 53), Dyadic(4728779608739021, 53), Dyadic(8106479329266892, 55), Dyadic(6333186975989759, 48)))
    case (27, 7) => Some(Evaluation(Dyadic(4503599627370496, 54), Dyadic(6079859496950170, 53), Dyadic(-7656119366529844, 54), Dyadic(-5981343255101441, 47)))
    case (27, 14) => Some(Evaluation(Dyadic(4503599627370496, 53), Dyadic(6079859496950170, 53), Dyadic(-6305039478318696, 55), Dyadic(-4925812092436481, 48)))
    case (27, 21) => Some(Evaluation(Dyadic(6755399441055744, 53), Dyadic(6079859496950170, 53), Dyadic(5404319552844592, 56), Dyadic(8444249301319675, 50)))
    case (27, 28) => Some(Evaluation(Dyadic(4503599627370496, 52), Dyadic(6079859496950170, 53), Dyadic(5854679515581644, 54), Dyadic(4573968371548159, 47)))
    case (31, 14) => Some(Evaluation(Dyadic(4503599627370496, 53), Dyadic(6980579422424269, 53), Dyadic(-4953959590107546, 54), Dyadic(-7740561859543041, 48)))
    case (31, 21) => Some(Evaluation(Dyadic(6755399441055744, 53), Dyadic(6980579422424269, 53), Dyadic(-7205759403792800, 58), Dyadic(-5629499534213125, 51)))
    case (31, 28) => Some(Evaluation(Dyadic(4503599627370496, 52), Dyadic(6980579422424269, 53), Dyadic(8106479329266892, 55), Dyadic(6333186975989759, 48)))
    case (37, 14) => Some(Evaluation(Dyadic(4503599627370496, 53), Dyadic(8331659310635418, 53), Dyadic(-7656119366529844, 54), Dyadic(-5981343255101441, 47)))
    case (37, 21) => Some(Evaluation(Dyadic(6755399441055744, 53), Dyadic(8331659310635418, 53), Dyadic(-6305039478318696, 55), Dyadic(-4925812092436481, 48)))
    case (37, 28) => Some(Evaluation(Dyadic(4503599627370496, 52), Dyadic(8331659310635418, 53), Dyadic(5404319552844592, 56), Dyadic(8444249301319675, 50)))
    case _ => None
  }

  /**
   * Every pair of the table is such a tie: the doubles the program computes
   * there are given, each is the correctly rounded result of its operation,
   * and `Math.round` of the last is `GapPercentage`, one below the exact
   * rounding.
   */
  lemma BelowHalfCertified(dominant: int, deficiency: int)
    requires (dominant, deficiency) in BinaryBelowHalf
    ensures BelowHalfEvaluation(dominant, deficiency).Some?
    ensures RoundsBelowTie(dominant, deficiency, BelowHalfEvaluation(dominant, deficiency).value)
    ensures GapPercentage(dominant, deficiency) == ExactGap(dominant, deficiency) - 1
  {
    BelowHalfGap(dominant, deficiency);
    if dominant < 15 {
      BelowHalfCertifiedLow(dominant, deficiency);
    } else if dominant < 28 {
      BelowHalfCertifiedMiddle(dominant, deficiency);
    } else {
      BelowHalfCertifiedHigh(dominant, deficiency);
    }
  }

  lemma BelowHalfCertifiedLow(dominant: int, deficiency: int)
    requires (dominant, deficiency) in BinaryBelowHalf && dominant < 15
    ensures BelowHalfEvaluation(dominant, deficiency).Some?
    ensures RoundsBelowTie(dominant, deficiency, BelowHalfEvaluation(dominant, deficiency).value)
  {
    if (dominant, deficiency) == (7, 21) {
      Dominant7Deficiency21();
    } else if (dominant, deficiency) == (9, 7) {
      Dominant9Deficiency7();
    } else if (dominant, deficiency) == (11, 0) {
      Dominant11Deficiency0();
    } else if (dominant, deficiency) == (11, 7) {
      Dominant11Deficiency7();
    } else if (dominant, deficiency) == (11, 14) {
      Dominant11Deficiency14();
    } else if (dominant, deficiency) == (13, 7) {
      Dominant13Deficiency7();
    }
  }

  lemma BelowHalfCertifiedMiddle(dominant: int, deficiency: int)
    requires (dominant, deficiency) in BinaryBelowHalf && 15 <= dominant < 28
    ensures BelowHalfEvaluation(dominant, deficiency).Some?
    ensures RoundsBelowTie(dominant, deficiency, BelowHalfEvaluation(dominant, deficiency).value)
  {
    if (dominant, deficiency) == (17, 28) {
      Dominant17Deficiency28();
    } else if (dominant, deficiency) == (21, 7) {
      Dominant21Deficiency7();
    } else if (dominant, deficiency) == (21, 14) {
      Dominant21Deficiency14();
    } else if (dominant, deficiency) == (21, 21) {
      Dominant21Deficiency21();
    } else if (dominant, deficiency) == (27, 7) {
      Dominant27Deficiency7();
    } else if (dominant, deficiency) == (27, 14) {
      Dominant27Deficiency14();
    } else if (dominant, deficiency) == (27, 21) {
      Dominant27Deficiency21();
    } else if (dominant, deficiency) == (27, 28) {
      Dominant27Deficiency28();
    }
  }

  lemma BelowHalfCertifiedHigh(dominant: int, deficiency: int)
    requires (dominant, deficiency) in BinaryBelowHalf && 28 <= dominant
    ensures BelowHalfEvaluation(dominant, deficiency).Some?
    ensures RoundsBelowTie(dominant, deficiency, BelowHalfEvaluation(dominant, deficiency).value)
  {
    if (dominant, deficiency) == (31, 14) {
      Dominant31Deficiency14();
    } else if (dominant, deficiency) == (31, 21) {
      Dominant31Deficiency21();
    } else if (dominant, deficiency) == (31, 28) {
      Dominant31Deficiency28();
    } else if (dominant, deficiency) == (37, 14) {
      Dominant37Deficiency14();
    } else if (dominant, deficiency) == (37, 21) {
      Dominant37Deficiency21();
    } else if (dominant, deficiency) == (37, 28) {
      Dominant37Deficiency28();
    }
  }

  lemma BelowHalfGap(dominant: int, deficiency: int)
    requires (dominant, deficiency) in BinaryBelowHalf
    ensures GapPercentage(dominant, deficiency) == ExactGap(dominant, deficiency) - 1
  {
  }

  lemma Dominant7Deficiency21()
    ensures BelowHalfEvaluation(7, 21) == Some(Evaluation(Dyadic(6755399441055744, 53), Dyadic(6305039478318694, 55), Dyadic(5179139571476070, 53), Dyadic(8092405580431359, 47)))
    ensures RoundsBelowTie(7, 21, BelowHalfEvaluation(7, 21).value)
  {
    Dominant7Deficiency21Rounds();
  }

  lemma Dominant7Deficiency21Rounds()
    ensures RoundsBelowTie(7, 21, Evaluation(Dyadic(6755399441055744, 53), Dyadic(6305039478318694, 55), Dyadic(5179139571476070, 53), Dyadic(8092405580431359, 47)))
  {
    Pow2Values();
    MathRoundUnique(Dyadic(8092405580431359, 47), 57);
  }

  lemma Dominant9Deficiency7()
    ensures BelowHalfEvaluation(9, 7) == Some(Evaluation(Dyadic(4503599627370496, 54), Dyadic(8106479329266893, 55), Dyadic(7205759403792792, 58), Dyadic(5629499534213119, 51)))
    ensures RoundsBelowTie(9, 7, BelowHalfEvaluation(9, 7).value)
  {
    Dominant9Deficiency7Rounds();
  }

  lemma Dominant9Deficiency7Rounds()
    ensures RoundsBelowTie(9, 7, Evaluation(Dyadic(4503599627370496, 54), Dyadic(8106479329266893, 55), Dyadic(7205759403792792, 58), Dyadic(5629499534213119, 51)))
  {
    Pow2Values();
    MathRoundUnique(Dyadic(5629499534213119, 51), 2);
  }

  lemma Dominant11Deficiency0()
    ensures BelowHalfEvaluation(11, 0) == Some(Evaluation(Dyadic(0, 0), Dyadic(4953959590107546, 54), Dyadic(-4953959590107546, 54), Dyadic(-7740561859543041, 48)))
    ensures RoundsBelowTie(11, 0, BelowHalfEvaluation(11, 0).value)
  {
    Dominant11Deficiency0Rounds();
  }

  lemma Dominant11Deficiency0Rounds()
    ensures RoundsBelowTie(11, 0, Evaluation(Dyadic(0, 0), Dyadic(4953959590107546, 54), Dyadic(-4953959590107546, 54), Dyadic(-7740561859543041, 48)))
  {
    Pow2Values();
    MathRoundUnique(Dyadic(-7740561859543041, 48), -28);
  }

  lemma Dominant11Deficiency7()
    ensures BelowHalfEvaluation(11, 7) == Some(Evaluation(Dyadic(4503599627370496, 54), Dyadic(4953959590107546, 54), Dyadic(-7205759403792800, 58), Dyadic(-5629499534213125, 51)))
    ensures RoundsBelowTie(11, 7, BelowHalfEvaluation(11, 7).value)
  {
    Dominant11Deficiency7Rounds();
  }

  lemma Dominant11Deficiency7Rounds()
    ensures RoundsBelowTie(11, 7, Evaluation(Dyadic(4503599627370496, 54), Dyadic(4953959590107546, 54), Dyadic(-7205759403792800, 58), Dyadic(-5629499534213125, 51)))
  {
    Pow2Values();
    MathRoundUnique(Dyadic(-5629499534213125, 51), -3);
  }

  lemma Dominant11Deficiency14()
    ensures BelowHalfEvaluation(11, 14) == Some(Evaluation(Dyadic(4503599627370496, 53), Dyadic(4953959590107546, 54), Dyadic(8106479329266892, 55), Dyadic(6333186975989759, 48)))
    ensures RoundsBelowTie(11, 14, BelowHalfEvaluation(11, 14).value)
  {
    Dominant11Deficiency14Rounds();
  }

  lemma Dominant11Deficiency14Rounds()
    ensures RoundsBelowTie(11, 14, Evaluation(Dyadic(4503599627370496, 53), Dyadic(4953959590107546, 54), Dyadic(8106479329266892, 55), Dyadic(6333186975989759, 48)))
  {
    Pow2Values();
    MathRoundUnique(Dyadic(6333186975989759, 48), 22);
  }

  lemma Dominant13Deficiency7()
    ensures BelowHalfEvaluation(13, 7) == Some(Evaluation(Dyadic(4503599627370496, 54), Dyadic(5854679515581645, 54), Dyadic(-5404319552844596, 56), Dyadic(-8444249301319681, 50)))
    ensures RoundsBelowTie(13, 7, BelowHalfEvaluation(13, 7).value)
  {
    Dominant13Deficiency7Rounds();
  }

  lemma Dominant13Deficiency7Rounds()
    ensures RoundsBelowTie(13, 7, Evaluation(Dyadic(4503599627370496, 54), Dyadic(5854679515581645, 54), Dyadic(-5404319552844596, 56), Dyadic(-8444249301319681, 50)))
  {
    Pow2Values();
    MathRoundUnique(Dyadic(-8444249301319681, 50), -8);
  }

  lemma Dominant17Deficiency28()
    ensures BelowHalfEvaluation(17, 28) == Some(Evaluation(Dyadic(4503599627370496, 52), Dyadic(7656119366529843, 54), Dyadic(5179139571476070, 53), Dyadic(8092405580431359, 47)))
    ensures RoundsBelowTie(17, 28, BelowHalfEvaluation(17, 28).value)
  {
    Dominant17Deficiency28Rounds();
  }

  lemma Dominant17Deficiency28Rounds()
    ensures RoundsBelowTie(17, 28, Evaluation(Dyadic(4503599627370496, 52), Dyadic(7656119366529843, 54), Dyadic(5179139571476070, 53), Dyadic(8092405580431359, 47)))
  {
    Pow2Values();
    MathRoundUnique(Dyadic(8092405580431359, 47), 57);
  }

  lemma Dominant21Deficiency7()
    ensures BelowHalfEvaluation(21, 7) == Some(Evaluation(Dyadic(4503599627370496, 54), Dyadic(4728779608739021, 53), Dyadic(-4953959590107546, 54), Dyadic(-7740561859543041, 48)))
    ensures RoundsBelowTie(21, 7, BelowHalfEvaluation(21, 7).value)
  {
    Dominant21Deficiency7Rounds();
  }

  lemma Dominant21Deficiency7Rounds()
    ensures RoundsBelowTie(21, 7, Evaluation(Dyadic(4503599627370496, 54), Dyadic(4728779608739021, 53), Dyadic(-4953959590107546, 54), Dyadic(-7740561859543041, 48)))
  {
    Pow2Values();
    MathRoundUnique(Dyadic(-7740561859543041, 48), -28);
  }

  lemma Dominant21Deficiency14()
    ensures BelowHalfEvaluation(21, 14) == Some(Evaluation(Dyadic(4503599627370496, 53), Dyadic(4728779608739021, 53), Dyadic(-7205759403792800, 58), Dyadic(-5629499534213125, 51)))
    ensures RoundsBelowTie(21, 14, BelowHalfEvaluation(21, 14).value)
  {
    Dominant21Deficiency14Rounds();
  }

  lemma Dominant21Deficiency14Rounds()
    ensures RoundsBelowTie(21, 14, Evaluation(Dyadic(4503599627370496, 53), Dyadic(4728779608739021, 53), Dyadic(-7205759403792800, 58), Dyadic(-5629499534213125, 51)))
  {
    Pow2Values();
    MathRoundUnique(Dyadic(-5629499534213125, 51), -3);
  }

  lemma Dominant21Deficiency21()
    ensures BelowHalfEvaluation(21, 21) == Some(Evaluation(Dyadic(6755399441055744, 53), Dyadic(4728779608739021, 53), Dyadic(8106479329266892, 55), Dyadic(6333186975989759, 48)))
    ensures RoundsBelowTie(21, 21, BelowHalfEvaluation(21, 21).value)
  {
    Dominant21Deficiency21Rounds();
  }

  lemma Dominant21Deficiency21Rounds()
    ensures RoundsBelowTie(21, 21, Evaluation(Dyadic(6755399441055744, 53), Dyadic(4728779608739021, 53), Dyadic(8106479329266892, 55), Dyadic(6333186975989759, 48)))
  {
    Pow2Values();
    MathRoundUnique(Dyadic(6333186975989759, 48), 22);
  }

  lemma Dominant27Deficiency7()
    ensures BelowHalfEvaluation(27, 7) == Some(Evaluation(Dyadic(4503599627370496, 54), Dyadic(6079859496950170, 53), Dyadic(-7656119366529844, 54), Dyadic(-5981343255101441, 47)))
    ensures RoundsBelowTie(27, 7, BelowHalfEvaluation(27, 7).value)
  {
    Dominant27Deficiency7Rounds();
  }

  lemma Dominant27Deficiency7Rounds()
    ensures RoundsBelowTie(27, 7, Evaluation(Dyadic(4503599627370496, 54), Dyadic(6079859496950170, 53), Dyadic(-7656119366529844, 54), Dyadic(-5981343255101441, 47)))
  {
    Pow2Values();
    MathRoundUnique(Dyadic(-5981343255101441, 47), -43);
  }

  lemma Dominant27Deficiency14()
    ensures BelowHalfEvaluation(27, 14) == Some(Evaluation(Dyadic(4503599627370496, 53), Dyadic(6079859496950170, 53), Dyadic(-6305039478318696, 55), Dyadic(-4925812092436481, 48)))
    ensures RoundsBelowTie(27, 14, BelowHalfEvaluation(27, 14).value)
  {
    Dominant27Deficiency14Rounds();
  }

  lemma Dominant27Deficiency14Rounds()
    ensures RoundsBelowTie(27, 14, Evaluation(Dyadic(4503599627370496, 53), Dyadic(6079859496950170, 53), Dyadic(-6305039478318696, 55), Dyadic(-4925812092436481, 48)))
  {
    Pow2Values();
    MathRoundUnique(Dyadic(-4925812092436481, 48), -18);
  }

  lemma Dominant27Deficiency21()
    ensures BelowHalfEvaluation(27, 21) == Some(Evaluation(Dyadic(6755399441055744, 53), Dyadic(6079859496950170, 53), Dyadic(5404319552844592, 56), Dyadic(8444249301319675, 50)))
    ensures RoundsBelowTie(27, 21, BelowHalfEvaluation(27, 21).value)
  {
    Dominant27Deficiency21Rounds();
  }

  lemma Dominant27Deficiency21Rounds()
    ensures RoundsBelowTie(27, 21, Evaluation(Dyadic(6755399441055744, 53), Dyadic(6079859496950170, 53), Dyadic(5404319552844592, 56), Dyadic(8444249301319675, 50)))
  {
    Pow2Values();
    MathRoundUnique(Dyadic(8444249301319675, 50), 7);
  }

  lemma Dominant27Deficiency28()
    ensures BelowHalfEvaluation(27, 28) == Some(Evaluation(Dyadic(4503599627370496, 52), Dyadic(6079859496950170, 53), Dyadic(5854679515581644, 54), Dyadic(4573968371548159, 47)))
    ensures RoundsBelowTie(27, 28, BelowHalfEvaluation(27, 28).value)
  {
    Dominant27Deficiency28Rounds();
  }

  lemma Dominant27Deficiency28Rounds()
    ensures RoundsBelowTie(27, 28, Evaluation(Dyadic(4503599627370496, 52), Dyadic(6079859496950170, 53), Dyadic(5854679515581644, 54), Dyadic(4573968371548159, 47)))
  {
    Pow2Values();
    MathRoundUnique(Dyadic(4573968371548159, 47), 32);
  }

  lemma Dominant31Deficiency14()
    ensures BelowHalfEvaluation(31, 14) == Some(Evaluation(Dyadic(4503599627370496, 53), Dyadic(6980579422424269, 53), Dyadic(-4953959590107546, 54), Dyadic(-7740561859543041, 48)))
    ensures RoundsBelowTie(31, 14, BelowHalfEvaluation(31, 14).value)
  {
    Dominant31Deficiency14Rounds();
  }

  lemma Dominant31Deficiency14Rounds()
    ensures RoundsBelowTie(31, 14, Evaluation(Dyadic(4503599627370496, 53), Dyadic(6980579422424269, 53), Dyadic(-4953959590107546, 54), Dyadic(-7740561859543041, 48)))
  {
    Pow2Values();
    MathRoundUnique(Dyadic(-7740561859543041, 48), -28);
  }

  lemma Dominant31Deficiency21()
    ensures BelowHalfEvaluation(31, 21) == Some(Evaluation(Dyadic(6755399441055744, 53), Dyadic(6980579422424269, 53), Dyadic(-7205759403792800, 58), Dyadic(-5629499534213125, 51)))
    ensures RoundsBelowTie(31, 21, BelowHalfEvaluation(31, 21).value)
  {
    Dominant31Deficiency21Rounds();
  }

  lemma Dominant31Deficiency21Rounds()
    ensures RoundsBelowTie(31, 21, Evaluation(Dyadic(6755399441055744, 53), Dyadic(6980579422424269, 53), Dyadic(-7205759403792800, 58), Dyadic(-5629499534213125, 51)))
  {
    Pow2Values();
    MathRoundUnique(Dyadic(-5629499534213125, 51), -3);
  }

  lemma Dominant31Deficiency28()
    ensures BelowHalfEvaluation(31, 28) == Some(Evaluation(Dyadic(4503599627370496, 52), Dyadic(6980579422424269, 53), Dyadic(8106479329266892, 55), Dyadic(6333186975989759, 48)))
    ensures RoundsBelowTie(31, 28, BelowHalfEvaluation(31, 28).value)
  {
    Dominant31Deficiency28Rounds();
  }

  lemma Dominant31Deficiency28Rounds()
    ensures RoundsBelowTie(31, 28, Evaluation(Dyadic(4503599627370496, 52), Dyadic(6980579422424269, 53), Dyadic(8106479329266892, 55), Dyadic(6333186975989759, 48)))
  {
    Pow2Values();
    MathRoundUnique(Dyadic(6333186975989759, 48), 22);
  }

  lemma Dominant37Deficiency14()
    ensures BelowHalfEvaluation(37, 14) == Some(Evaluation(Dyadic(4503599627370496, 53), Dyadic(8331659310635418, 53), Dyadic(-7656119366529844, 54), Dyadic(-5981343255101441, 47)))
    ensures RoundsBelowTie(37, 14, BelowHalfEvaluation(37, 14).value)
  {
    Dominant37Deficiency14Rounds();
  }

  lemma Dominant37Deficiency14Rounds()
    ensures RoundsBelowTie(37, 14, Evaluation(Dyadic(4503599627370496, 53), Dyadic(8331659310635418, 53), Dyadic(-7656119366529844, 54), Dyadic(-5981343255101441, 47)))
  {
    Pow2Values();
    MathRoundUnique(Dyadic(-5981343255101441, 47), -43);
  }

  lemma Dominant37Deficiency21()
    ensures BelowHalfEvaluation(37, 21) == Some(Evaluation(Dyadic(6755399441055744, 53), Dyadic(8331659310635418, 53), Dyadic(-6305039478318696, 55), Dyadic(-4925812092436481, 48)))
    ensures RoundsBelowTie(37, 21, BelowHalfEvaluation(37, 21).value)
  {
    Dominant37Deficiency21Rounds();
  }

  lemma Dominant37Deficiency21Rounds()
    ensures RoundsBelowTie(37, 21, Evaluation(Dyadic(6755399441055744, 53), Dyadic(8331659310635418, 53), Dyadic(-6305039478318696, 55), Dyadic(-4925812092436481, 48)))
  {
    Pow2Values();
    MathRoundUnique(Dyadic(-4925812092436481, 48), -18);
  }

  lemma Dominant37Deficiency28()
    ensures BelowHalfEvaluation(37, 28) == Some(Evaluation(Dyadic(4503599627370496, 52), Dyadic(8331659310635418, 53), Dyadic(5404319552844592, 56), Dyadic(8444249301319675, 50)))
    ensures RoundsBelowTie(37, 28, BelowHalfEvaluation(37, 28).value)
  {
    Dominant37Deficiency28Rounds();
  }

  lemma Dominant37Deficiency28Rounds()
    ensures RoundsBelowTie(37, 28, Evaluation(Dyadic(4503599627370496, 52), Dyadic(8331659310635418, 53), Dyadic(5404319552844592, 56), Dyadic(8444249301319675, 50)))
  {
    Pow2Values();
    MathRoundUnique(Dyadic(8444249301319675, 50), 7);
  }

  /**
   * Not every tie goes down: at (1, 0) the computed double is exactly -2.5,
   * `Math.round` gives -2, and that is the exact rounding and `GapPercentage`.
   */
  lemma Dominant1Deficiency0()
    ensures (50 * 0 - 35 * 1) % 14 == 7
    ensures EvaluatesGap(1, 0, Evaluation(Dyadic(0, 0), Dyadic(7205759403792794, 58), Dyadic(-7205759403792794, 58), Dyadic(-5629499534213120, 51)))
    ensures MathRound(Dyadic(-5629499534213120, 51)) == GapPercentage(1, 0) == ExactGap(1, 0) == -2
  {
    OneZeroUnlisted();
    Pow2Values();
    MathRoundUnique(Dyadic(-5629499534213120, 51), -2);
  }

  lemma OneZeroUnlisted()
    ensures GapPercentage(1, 0) == ExactGap(1, 0) == -2
  {
    assert (1, 0) !in BinaryBelowHalf;
  }
}

=== FILE: interpretation.dfy ===
/**
 * The interpretation composer: which blocks the clinical narrative contains
 * and in which order. Each section is a structured value instead of markup;
 * profile texts (function, traits, clinical considerations, prescribing
 * implications) are referenced by category and looked up by the renderer.
 */
module Interpretation {
  import opened Wrappers
  import opened Domain
  import opened Classification

  /** The dominant-nature block: the fallback narrative, or the category with an optional mixed profile. */
  datatype DominantBody =
    | NoClearDominant
    | DominantNature(category: Category, level: Level, score: int, mixedWith: Option<Ranked>)

  /** The deficiency block: the fallback narrative, or the primary deficiency and the additional ones. */
  datatype DeficiencyBody =
    | NoSignificantDeficiency
    | DeficiencyPatterns(primary: Deficiency, additional: seq<Deficiency>)

  /** The pattern-analysis verdict on the most significant gap. */
  datatype GapFinding =
    | NoExtremeImbalance
    | Imbalance(gap: Gap)   // deficiency proportionally much higher than dominance
    | Strength(gap: Gap)    // dominance proportionally much higher than deficiency

  /** One line of the per-system score listing. */
  datatype SystemRow = SystemRow(category: Category, dominantScore: int, deficiencyScore: int)

  /** The four general prescribing considerations, always listed. */
  datatype GeneralItem = StartLowAndTitrate | MonitorEffects | ReassessPeriodically | NonPharmacological

  const GeneralItems: seq<GeneralItem> := [StartLowAndTitrate, MonitorEffects, ReassessPeriodically, NonPharmacological]

  /** The system-interaction block, naming the dominant and the primary deficient system. */
  datatype Interaction = Interaction(dominant: Category, deficient: Category)

  datatype Section =
    | ClinicalSummary
    | DominantNatureSection(body: DominantBody)
    | DeficiencySection(deficiency: DeficiencyBody)
    | PatternAnalysis(finding: GapFinding, systems: seq<SystemRow>)
    | ClinicalConsiderations(dominant: Option<Category>, deficient: Option<Category>, interaction: Option<Interaction>)
    | PrescribingImplications(dominantFor: Option<Category>, deficientFor: Option<Category>, general: seq<GeneralItem>)
    | ClinicalDisclaimer

  /** The heading each section is rendered under. */
  function Heading(s: Section): string {
    match s
    case ClinicalSummary => "Clinical Summary"
    case DominantNatureSection(_) => "Dominant Neurotransmitter Nature"
    case DeficiencySection(_) => "Neurotransmitter Deficiency Patterns"
    case PatternAnalysis(_, _) => "Pattern Analysis"
    case ClinicalConsiderations(_, _, _) => "Clinical Considerations"
    case PrescribingImplications(_, _, _) => "Prescribing Implications"
    case ClinicalDisclaimer => "Clinical Disclaimer"
  }

  /** The dominant-nature block: the fallback when no category is dominant, otherwise the mixed-profile rule applies. */
  function DominantSection(dominant: Dominant, part1: ScoreMap): (r: DominantBody)
    ensures r.NoClearDominant? <==> dominant.category.None?
    ensures r.DominantNature? ==>
      r.category == dominant.category.value && r.level == dominant.level && r.score == dominant.score
  {
    match dominant.category
    case None => NoClearDominant
    case Some(c) => DominantNature(c, dominant.level, dominant.score, MixedProfile(part1, c, dominant.score))
  }

  /** The deficiency block: the fallback for an empty list, otherwise the head as primary and the rest in order. */
  function DeficiencySectionOf(deficiencies: seq<Deficiency>): (r: DeficiencyBody)
    ensures r.NoSignificantDeficiency? <==> |deficiencies| == 0
    ensures r.DeficiencyPatterns? ==> [r.primary] + r.additional == deficiencies
  {
    if |deficiencies| == 0 then NoSignificantDeficiency
    else DeficiencyPatterns(deficiencies[0], deficiencies[1..])
  }

  function SystemRows(scores: Scores, cats: seq<Category>): (r: seq<SystemRow>)
    ensures |r| == |cats|
    ensures forall i | 0 <= i < |r| ::
      r[i] == SystemRow(cats[i], scores.part1.Get(cats[i]), scores.part2.Get(cats[i]))
  {
    if |cats| == 0 then [] else [SystemRow(cats[0], scores.part1.Get(cats[0]), scores.part2.Get(cats[0]))] + SystemRows(scores, cats[1..])
  }

  /**
   * The pattern-analysis verdict on the first gap record: an imbalance or a
   * strength when its absolute gap reaches the significant threshold,
   * depending on whether the gap is positive.
   */
  function PatternFinding(gaps: seq<Gap>): (r: GapFinding)
    requires |gaps| > 0
    ensures r.NoExtremeImbalance? <==> AbsGap(gaps[0]) < GapSignificant
    ensures r.Imbalance? ==> r.gap == gaps[0] && gaps[0].gapPercentage >= GapSignificant
    ensures r.Strength? ==> r.gap == gaps[0] && gaps[0].gapPercentage <= -GapSignificant
  {
    var g := gaps[0];
    if AbsGap(g) >= GapSignificant then
      (if g.gapPercentage > 0 then Imbalance(g) else Strength(g))
    else NoExtremeImbalance
  }

  /** The interaction block appears when a dominant and a primary deficient system exist and differ. */
  function InteractionOf(dominant: Dominant, deficiencies: seq<Deficiency>): (r: Option<Interaction>)
    ensures r.Some? <==>
      dominant.category.Some? && |deficiencies| > 0 && dominant.category.value != deficiencies[0].category
    ensures r.Some? ==> r.value == Interaction(dominant.category.value, deficiencies[0].category)
  {
    if dominant.category.Some? && |deficiencies| > 0 && dominant.category.value != deficiencies[0].category then
      Some(Interaction(dominant.category.value, deficiencies[0].category))
    else None
  }

  function PrimaryCategory(deficiencies: seq<Deficiency>): Option<Category> {
    if |deficiencies| > 0 then Some(deficiencies[0].category) else None
  }

  /** The seven sections in their fixed order, from the classification results. */
  function Compose(scores: Scores, dominant: Dominant, deficiencies: seq<Deficiency>, gaps: seq<Gap>): (r: seq<Section>)
    requires |gaps| > 0
    ensures InOrder(r)
  {
    [ ClinicalSummary,
      DominantNatureSection(DominantSection(dominant, scores.part1)),
      DeficiencySection(DeficiencySectionOf(deficiencies)),
      PatternAnalysis(PatternFinding(gaps), SystemRows(scores, AllCategories)),
      ClinicalConsiderations(dominant.category, PrimaryCategory(deficiencies), InteractionOf(dominant, deficiencies)),
      PrescribingImplications(dominant.category, PrimaryCategory(deficiencies), GeneralItems),
      ClinicalDisclaimer ]
  }

  /** The fixed section order, with the four general considerations always listed. */
  ghost predicate InOrder(r: seq<Section>) {
    && |r| == 7
    && r[0] == ClinicalSummary && r[1].DominantNatureSection? && r[2].DeficiencySection?
    && r[3].PatternAnalysis? && r[4].ClinicalConsiderations? && r[5].PrescribingImplications?
    && r[6] == ClinicalDisclaimer
    && r[5].general == GeneralItems
  }

  lemma HeadingsInOrder(r: seq<Section>)
    requires InOrder(r)
    ensures forall i | 0 <= i < 7 :: Heading(r[i]) == SectionHeadings[i]
  {
    forall i | 0 <= i < 7
      ensures Heading(r[i]) == SectionHeadings[i]
    {
      if i == 0 { assert Heading(r[0]) == SectionHeadings[0]; }
      else if i == 1 { assert Heading(r[1]) == SectionHeadings[1]; }
      else if i == 2 { assert Heading(r[2]) == SectionHeadings[2]; }
      else if i == 3 { assert Heading(r[3]) == SectionHeadings[3]; }
      else if i == 4 { assert Heading(r[4]) == SectionHeadings[4]; }
      else if i == 5 { assert Heading(r[5]) == SectionHeadings[5]; }
      else { assert Heading(r[6]) == SectionHeadings[6]; }
    }
  }

  function Sections(scores: Scores): (r: seq<Section>)
    ensures InOrder(r)
    ensures forall i | 0 <= i < 7 :: Heading(r[i]) == SectionHeadings[i]
  {
    var r := Compose(scores, GetDominant(scores.part1), GetDeficient(scores.part2), CalculateRelativeGaps(scores));
    HeadingsInOrder(r);
    r
  }

  /**
   * The whole narrative, written into the container when there is one; with
   * no container nothing is produced.
   */
  function GenerateClinicalInterpretation(scores: Scores, hasContainer: bool): (r: Option<seq<Section>>)
    ensures r.Some? <==> hasContainer
    ensures r.Some? ==> |r.value| == 7 && forall i | 0 <= i < 7 :: Heading(r.value[i]) == SectionHeadings[i]
  {
    if hasContainer then Some(Sections(scores)) else None
  }

  /** The headings in output order. */
  const SectionHeadings: seq<string> := [
    "Clinical Summary", "Dominant Neurotransmitter Nature", "Neurotransmitter Deficiency Patterns",
    "Pattern Analysis", "Clinical Considerations", "Prescribing Implications", "Clinical Disclaimer"]

  // ---------------------------------------------------------------------
  // The composition rules stated on the scores
  // ---------------------------------------------------------------------

  /** The "no clearly dominant" narrative is used exactly when no part-1 score is positive. */
  lemma NoDominantFallback(scores: Scores)
    ensures Sections(scores)[1].body == NoClearDominant <==> forall c :: scores.part1.Get(c) <= 0
  {
  }

  /** The "no significant deficiency" narrative is used exactly when every part-2 score is below 10. */
  lemma NoDeficiencyFallback(scores: Scores)
    ensures Sections(scores)[2].deficiency == NoSignificantDeficiency <==> forall c :: scores.part2.Get(c) < DeficiencyMild
  {
    PrimaryDeficiencyIsFirstArgMax(scores.part2);
  }

  /**
   * The mixed-profile rule on the scores: when `d` is the first category
   * holding the highest part-1 score and that score is positive, the
   * dominant-nature block names `d`, and a mixed profile is reported with
   * `c` exactly when `c` is the first non-dominant
   * category with the highest non-dominant score, that score is at least 25,
   * and it trails the dominant score by less than 10.
   */
  lemma MixedProfileRule(scores: Scores, d: Category, c: Category)
    requires IsFirstArgMax(scores.part1, d) && scores.part1.Get(d) > 0
    ensures Sections(scores)[1].body.DominantNature? && Sections(scores)[1].body.category == d
    ensures (Sections(scores)[1].body.mixedWith.Some? && Sections(scores)[1].body.mixedWith.value.category == c) <==>
      && c != d
      && (forall e | e != d :: scores.part1.Get(e) <= scores.part1.Get(c))
      && (forall e | e != d && Index(e) < Index(c) :: scores.part1.Get(e) < scores.part1.Get(c))
      && scores.part1.Get(c) >= 25
      && scores.part1.Get(d) - scores.part1.Get(c) < 10
  {
    var dom := GetDominant(scores.part1);
    DominantIsFirstArgMax(scores.part1, d);
    assert Sections(scores)[1].body == DominantSection(dom, scores.part1);
    MixedProfileRuleOn(scores.part1, d, dom.score, c);
  }

  /**
   * Pattern analysis reports an imbalance or strength exactly when some
   * category's absolute gap reaches 15; the category reported is the first,
   * in enumeration order, with the largest absolute gap, and the verdict is
   * an imbalance when its gap is positive and a strength otherwise.
   */
  lemma PatternAnalysisRule(scores: Scores)
    ensures Sections(scores)[3].finding.NoExtremeImbalance? <==>
      forall c :: AbsGap(GapOf(scores, c)) < GapSignificant
    ensures Sections(scores)[3].finding.Imbalance? || Sections(scores)[3].finding.Strength? ==>
      var g := Sections(scores)[3].finding.gap;
      && g == GapOf(scores, g.category)
      && (forall c :: AbsGap(GapOf(scores, c)) <= AbsGap(g))
      && (forall c | Index(c) < Index(g.category) :: AbsGap(GapOf(scores, c)) < AbsGap(g))
      && (Sections(scores)[3].finding.Imbalance? <==> g.gapPercentage > 0)
  {
    var gaps := CalculateRelativeGaps(scores);
    FirstGapIsFirstMaximum(scores);
    assert gaps[0] == GapOf(scores, gaps[0].category);
  }

  /**
   * The interaction block names (a, b) exactly when `a` is the first argmax
   * of the positive part-1 scores, `b` the first argmax of the part-2
   * scores, that maximum reaches 10, and the two differ.
   */
  lemma InteractionRule(scores: Scores, a: Category, b: Category)
    ensures Sections(scores)[4].interaction == Some(Interaction(a, b)) <==>
      && IsFirstArgMax(scores.part1, a) && scores.part1.Get(a) > 0
      && IsFirstArgMax(scores.part2, b) && scores.part2.Get(b) >= DeficiencyMild
      && a != b
  {
    var dom := GetDominant(scores.part1);
    var defs := GetDeficient(scores.part2);
    assert Sections(scores)[4].interaction == InteractionOf(dom, defs);
    InteractionOfRule(scores.part1, scores.part2, a, b);
  }

  lemma InteractionOfRule(part1: ScoreMap, part2: ScoreMap, a: Category, b: Category)
    ensures InteractionOf(GetDominant(part1), GetDeficient(part2)) == Some(Interaction(a, b)) <==>
      && IsFirstArgMax(part1, a) && part1.Get(a) > 0
      && IsFirstArgMax(part2, b) && part2.Get(b) >= DeficiencyMild
      && a != b
  {
    DominantIsFirstArgMax(part1, a);
    PrimaryDeficiencyIsFirstArgMax(part2);
    var defs := GetDeficient(part2);
    if IsFirstArgMax(part2, b) && part2.Get(b) >= DeficiencyMild {
      assert |defs| > 0;
      FirstArgMaxUnique(part2, b, defs[0].category);
    }
  }

  /** A score map has one first argmax. */
  lemma FirstArgMaxUnique(m: ScoreMap, a: Category, b: Category)
    requires IsFirstArgMax(m, a) && IsFirstArgMax(m, b)
    ensures a == b
  {
    assert m.Get(a) == m.Get(b);
    assert Index(a) == Index(b);
  }

  /**
   * The clinical-considerations and prescribing-implications blocks discuss
   * `a` as the dominant system exactly when `a` is the first argmax of the
   * part-1 scores and that score is positive, and `b` as the deficient
   * system exactly when `b` is the first argmax of the part-2 scores and
   * that score reaches 10; both blocks name the same pair.
   */
  lemma ConsiderationsRule(scores: Scores, a: Category, b: Category)
    ensures Sections(scores)[4].dominant == Some(a) <==> IsFirstArgMax(scores.part1, a) && scores.part1.Get(a) > 0
    ensures Sections(scores)[4].deficient == Some(b) <==> IsFirstArgMax(scores.part2, b) && scores.part2.Get(b) >= DeficiencyMild
    ensures Sections(scores)[5].dominantFor == Sections(scores)[4].dominant
    ensures Sections(scores)[5].deficientFor == Sections(scores)[4].deficient
  {
    var dom := GetDominant(scores.part1);
    var defs := GetDeficient(scores.part2);
    assert Sections(scores)[4].dominant == dom.category;
    assert Sections(scores)[4].deficient == PrimaryCategory(defs);
    DominantIsFirstArgMax(scores.part1, a);
    PrimaryDeficiencyIsFirstArgMax(scores.part2);
    if IsFirstArgMax(scores.part2, b) && scores.part2.Get(b) >= DeficiencyMild {
      assert |defs| > 0;
      FirstArgMaxUnique(scores.part2, b, defs[0].category);
    }
  }
}

=== FILE: navigation.dfy ===
/**
 * The progressive interface: the fixed order of the thirteen sections, a
 * current position in it that the previous/next buttons move, the nav-link
 * highlighting rule, and the rule deciding when a section's questions are
 * all answered.
 */
module Navigation {
  import opened Wrappers
  import opened Sets

  /** The sections in the order the questionnaire walks through them. */
  const SectionSequence: seq<string> := [
    "welcome",
    "part1-intro", "part1-dopamine", "part1-acetylcholine", "part1-gaba", "part1-serotonin", "part1-break",
    "part2-intro", "part2-dopamine", "part2-acetylcholine", "part2-gaba", "part2-serotonin",
    "results"]

  const LastIndex: nat := 12

  /** A position in the section sequence. */
  type SectionIndex = i: nat | i <= LastIndex

  ghost predicate Distinct(s: seq<string>) {
    forall i, j | 0 <= i < j < |s| :: s[i] != s[j]
  }

  /** The sequence runs from the welcome page to the results, and names every section once. */
  lemma SequenceShape()
    ensures |SectionSequence| == LastIndex + 1
    ensures SectionSequence[0] == "welcome" && SectionSequence[LastIndex] == "results"
    ensures Distinct(SectionSequence)
  {
    forall i, j | 0 <= i < j < |SectionSequence|
      ensures SectionSequence[i] != SectionSequence[j]
    {
      DistinctAt(i, j);
    }
  }

  lemma DistinctAt(i: nat, j: nat)
    requires i < j < |SectionSequence|
    ensures SectionSequence[i] != SectionSequence[j]
  {
    // Every name has at least seven characters, and the characters at
    // positions 4 and 6 together tell all thirteen apart.
    assert SectionSequence[i][4] != SectionSequence[j][4] || SectionSequence[i][6] != SectionSequence[j][6];
  }

  /**
   * The position of the first occurrence of `id` in `s`, or -1 when it does
   * not occur, like the array search the program uses.
   */
  function IndexOf(s: seq<string>, id: string): (i: int)
    ensures -1 <= i < |s|
    ensures i == -1 <==> id !in s
    ensures i >= 0 ==> s[i] == id && forall j | 0 <= j < i :: s[j] != id
  {
    if |s| == 0 then -1
    else if s[0] == id then 0
    else
      var k := IndexOf(s[1..], id);
      if k == -1 then -1 else k + 1
  }

  /** In a sequence without repetitions, every position is found at itself. */
  lemma IndexOfDistinct(s: seq<string>, j: nat)
    requires Distinct(s) && j < |s|
    ensures IndexOf(s, s[j]) == j
  {
  }

  /** The position of a section id, -1 when the id is not in the sequence. */
  function SectionIndexOf(id: string): (i: int)
    ensures -1 <= i <= LastIndex
    ensures i == -1 <==> id !in SectionSequence
    ensures i >= 0 ==> SectionSequence[i] == id
  {
    SequenceShape();
    IndexOf(SectionSequence, id)
  }

  /**
   * Showing a section: the position moves to the section's index when the
   * id is in the sequence and stays where it was otherwise.
   */
  function NavigateToSection(current: SectionIndex, id: string): (r: SectionIndex)
    ensures id in SectionSequence ==> SectionSequence[r] == id
    ensures id !in SectionSequence ==> r == current
  {
    var k := SectionIndexOf(id);
    if k != -1 then k else current
  }

  /** Moving forward: one step, except at the results section, where nothing happens. */
  function NavigateToNext(current: SectionIndex): (r: SectionIndex)
    ensures current < LastIndex ==> r == current + 1
    ensures current == LastIndex ==> r == current
  {
    if current < LastIndex then
      SequenceShape();
      IndexOfDistinct(SectionSequence, current + 1);
      NavigateToSection(current + 1, SectionSequence[current + 1])
    else current
  }

  /** Moving back: one step, except at the welcome section, where nothing happens. */
  function NavigateToPrevious(current: SectionIndex): (r: SectionIndex)
    ensures current > 0 ==> r == current - 1
    ensures current == 0 ==> r == current
  {
    if current > 0 then
      SequenceShape();
      IndexOfDistinct(SectionSequence, current - 1);
      NavigateToSection(current - 1, SectionSequence[current - 1])
    else current
  }

  /** Next and previous undo each other away from the ends of the sequence. */
  lemma NextPreviousInverse(current: SectionIndex)
    ensures current < LastIndex ==> NavigateToPrevious(NavigateToNext(current)) == current
    ensures current > 0 ==> NavigateToNext(NavigateToPrevious(current)) == current
  {
  }

  /** Walking forward from any position reaches the results section and stays there. */
  lemma {:induction false} NextReachesResults(current: SectionIndex, steps: nat)
    requires steps >= LastIndex - current
    ensures Iterate(current, steps) == LastIndex
    decreases steps
  {
    if steps > 0 {
      NextReachesResults(NavigateToNext(current), steps - 1);
    }
  }

  function Iterate(current: SectionIndex, steps: nat): SectionIndex
    decreases steps
  {
    if steps == 0 then current else Iterate(NavigateToNext(current), steps - 1)
  }

  // ---------------------------------------------------------------------
  // Nav links
  // ---------------------------------------------------------------------

  /** A nav link: the section it names (none when the attribute is missing) and its two marks. */
  datatype NavLink = NavLink(section: Option<string>, active: bool, completed: bool)

  /** The index the link's section has; a missing or unknown section has index -1. */
  function LinkIndex(link: NavLink): int {
    match link.section
    case None => -1
    case Some(id) => SectionIndexOf(id)
  }

  /**
   * Refreshing one link: it is active exactly when it names the current
   * section; it is marked completed when its section comes before the
   * current one, and a completed mark is never removed.
   */
  function UpdateLink(link: NavLink, current: SectionIndex): (r: NavLink)
    ensures r.section == link.section
    ensures r.active <==> link.section.Some? && link.section.value in SectionSequence && SectionSequence[current] == link.section.value
    ensures r.completed <==> link.completed || LinkIndex(link) < current as int
  {
    SequenceShape();
    IndexOfDistinct(SectionSequence, current);
    NavLink(link.section, LinkIndex(link) == current as int, link.completed || LinkIndex(link) < current as int)
  }

  function UpdateNavigationLinks(links: seq<NavLink>, current: SectionIndex): (r: seq<NavLink>)
    ensures |r| == |links|
    ensures forall i | 0 <= i < |r| :: r[i] == UpdateLink(links[i], current)
  {
    if |links| == 0 then [] else [UpdateLink(links[0], current)] + UpdateNavigationLinks(links[1..], current)
  }

  /** At most one link naming a known section is active, whatever the links. */
  lemma AtMostOneActiveSection(links: seq<NavLink>, current: SectionIndex, i: nat, j: nat)
    requires i < |links| && j < |links|
    ensures UpdateNavigationLinks(links, current)[i].active && UpdateNavigationLinks(links, current)[j].active ==>
      links[i].section == links[j].section
  {
  }

  /** A link whose section is missing or unknown is marked completed by any refresh. */
  lemma UnknownLinkCompleted(link: NavLink, current: SectionIndex)
    requires link.section.None? || link.section.value !in SectionSequence
    ensures UpdateLink(link, current).completed && !UpdateLink(link, current).active
  {
  }

  // ---------------------------------------------------------------------
  // Section completion
  // ---------------------------------------------------------------------

  /** A radio input of a section: the name that groups it and whether it is checked. */
  datatype RadioInput = RadioInput(name: string, checked: bool)

  function Groups(inputs: seq<RadioInput>): set<string> {
    set x | x in inputs :: x.name
  }

  function CompletedGroups(inputs: seq<RadioInput>): set<string> {
    set x | x in inputs && x.checked :: x.name
  }

  /**
   * Whether a section is complete: false when the section is not on the
   * page, true when it has no radio groups, and otherwise whether the
   * number of groups with a checked input equals the number of groups.
   */
  function CheckSectionCompletion(section: Option<seq<RadioInput>>): (r: bool)
    ensures section.None? ==> !r
  {
    match section
    case None => false
    case Some(inputs) =>
      var total := |Groups(inputs)|;
      if total == 0 then true
      else |CompletedGroups(inputs)| == total
  }

  /**
   * The counting rule is the intended one: a section on the page is complete
   * exactly when every radio group in it has a checked input; in particular
   * a section without radio inputs is complete.
   */
  lemma CompletionMeansEveryGroupAnswered(inputs: seq<RadioInput>)
    ensures CheckSectionCompletion(Some(inputs)) <==>
      forall x | x in inputs :: exists y | y in inputs :: y.name == x.name && y.checked
  {
    var g := Groups(inputs);
    var cg := CompletedGroups(inputs);
    assert cg <= g;
    if forall x | x in inputs :: exists y | y in inputs :: y.name == x.name && y.checked {
      assert g <= cg by {
        forall n | n in g ensures n in cg {
          var x :| x in inputs && x.name == n;
          var y :| y in inputs && y.name == x.name && y.checked;
        }
      }
      assert cg == g;
    } else {
      var x :| x in inputs && !(exists y | y in inputs :: y.name == x.name && y.checked);
      assert x.name in g && x.name !in cg;
      ProperSubsetSmaller(cg, g, x.name);
    }
  }
}

=== FILE: privacy.dfy ===
/**
 * The privacy manager: the user's consent and storage/export settings, the
 * gates every storage and export operation asks, and the gated storage
 * operations themselves. Whether the browser offers storage at all is
 * fixed when the manager is created and is a parameter here.
 */
module Privacy {
  import opened Wrappers
  import opened Storage

  datatype Settings = Settings(allowLocalStorage: bool, allowExport: bool, autoSave: bool)

  datatype Manager = Manager(consentGiven: bool, storageAvailable: bool, settings: Settings)

  /** Storage off, export on, auto-save off. */
  const DefaultSettings: Settings := Settings(false, true, false)

  /** A new manager: no consent yet and the default settings. */
  function NewManager(storageAvailable: bool): (m: Manager)
    ensures !m.consentGiven && m.storageAvailable == storageAvailable
    ensures !m.settings.allowLocalStorage && m.settings.allowExport && !m.settings.autoSave
  {
    Manager(false, storageAvailable, DefaultSettings)
  }

  // ---------------------------------------------------------------------
  // Gates
  // ---------------------------------------------------------------------

  /** Storage may be used when the browser offers it and the user allowed it. */
  predicate CanUseStorage(m: Manager) {
    m.storageAvailable && m.settings.allowLocalStorage
  }

  /** Auto-save runs when storage may be used and auto-save is on. */
  predicate IsAutoSaveEnabled(m: Manager) {
    CanUseStorage(m) && m.settings.autoSave
  }

  /** Export is allowed by its own setting alone. */
  predicate CanExportResults(m: Manager) {
    m.settings.allowExport
  }

  /** The gates in plain terms: auto-save needs all three of availability, permission and the switch. */
  lemma GatesFacts(m: Manager)
    ensures IsAutoSaveEnabled(m) <==> m.storageAvailable && m.settings.allowLocalStorage && m.settings.autoSave
    ensures IsAutoSaveEnabled(m) ==> CanUseStorage(m)
    ensures CanExportResults(m) <==> m.settings.allowExport
    ensures CanExportResults(NewManager(m.storageAvailable)) && !CanUseStorage(NewManager(m.storageAvailable))
  {
  }

  // ---------------------------------------------------------------------
  // Consent
  // ---------------------------------------------------------------------

  /** Saved settings override the current ones key by key; a missing key keeps the current value. */
  function MergeSettings(s: Settings, patch: SettingsPatch): (r: Settings)
    ensures r.allowLocalStorage == patch.allowLocalStorage.GetOr(s.allowLocalStorage)
    ensures r.allowExport == patch.allowExport.GetOr(s.allowExport)
    ensures r.autoSave == patch.autoSave.GetOr(s.autoSave)
  {
    Settings(
      patch.allowLocalStorage.GetOr(s.allowLocalStorage),
      patch.allowExport.GetOr(s.allowExport),
      patch.autoSave.GetOr(s.autoSave))
  }

  /** The record `SaveConsent` writes for these settings: consent given, every setting present. */
  function ConsentRecordOf(s: Settings): Stored {
    ConsentRecord(Some(true), Some(SettingsPatch(Some(s.allowLocalStorage), Some(s.allowExport), Some(s.autoSave))))
  }

  /**
   * Reading the saved consent at start-up. Without storage or without a
   * saved record nothing changes. A record that does not parse withdraws
   * consent and keeps the settings. Otherwise consent is whatever the
   * record says (false when it says nothing) and its settings are merged
   * in.
   */
  function CheckExistingConsent(m: Manager, storage: LocalStorage): (r: Manager)
    ensures r.storageAvailable == m.storageAvailable
    ensures !m.storageAvailable || ConsentKey !in storage ==> r == m
    ensures m.storageAvailable && ConsentKey in storage ==>
      (r.consentGiven <==> storage[ConsentKey].ConsentRecord? && storage[ConsentKey].consentGiven == Some(true))
    ensures if m.storageAvailable && ConsentKey in storage && storage[ConsentKey].ConsentRecord? && storage[ConsentKey].settings.Some?
      then r.settings == MergeSettings(m.settings, storage[ConsentKey].settings.value)
      else r.settings == m.settings
  {
    if !m.storageAvailable || ConsentKey !in storage then m
    else
      match storage[ConsentKey]
      case Unparseable => m.(consentGiven := false)
      case DataRecord(_, _, _, _) => m.(consentGiven := false)
      case ConsentRecord(given, patch) =>
        var settings := if patch.Some? then MergeSettings(m.settings, patch.value) else m.settings;
        m.(consentGiven := given == Some(true), settings := settings)
  }

  /** The allow-storage checkbox: unchecking it also switches auto-save off. */
  function AllowStorageChanged(m: Manager, checked: bool): (r: Manager)
    ensures r.settings.allowLocalStorage == checked
    ensures !checked ==> !r.settings.autoSave
    ensures checked ==> r.settings.autoSave == m.settings.autoSave
    ensures r.settings.allowExport == m.settings.allowExport
    ensures r.consentGiven == m.consentGiven && r.storageAvailable == m.storageAvailable
  {
    var s := m.settings.(allowLocalStorage := checked);
    m.(settings := if checked then s else s.(autoSave := false))
  }

  /** Withdrawing storage permission always turns auto-save off. */
  lemma UncheckDisablesAutoSave(m: Manager)
    ensures !IsAutoSaveEnabled(AllowStorageChanged(m, false))
    ensures !CanUseStorage(AllowStorageChanged(m, false))
  {
  }

  function AutoSaveChanged(m: Manager, checked: bool): (r: Manager)
    ensures r.settings.autoSave == checked
    ensures r.settings.allowLocalStorage == m.settings.allowLocalStorage && r.settings.allowExport == m.settings.allowExport
  {
    m.(settings := m.settings.(autoSave := checked))
  }

  function AllowExportChanged(m: Manager, checked: bool): (r: Manager)
    ensures r.settings.allowExport == checked
    ensures r.settings.allowLocalStorage == m.settings.allowLocalStorage && r.settings.autoSave == m.settings.autoSave
  {
    m.(settings := m.settings.(allowExport := checked))
  }

  /**
   * Saving the privacy settings: consent is always recorded in memory, and
   * written to storage only when storage is available and allowed.
   */
  function SaveConsent(m: Manager, storage: LocalStorage): (r: (Manager, LocalStorage))
    ensures r.0 == m.(consentGiven := true)
    ensures CanUseStorage(m) ==> ConsentKey in r.1 && r.1[ConsentKey] == ConsentRecordOf(m.settings)
    ensures !CanUseStorage(m) ==> r.1 == storage
    ensures forall k | k != ConsentKey :: (k in r.1 <==> k in storage) && (k in storage ==> r.1[k] == storage[k])
  {
    var m1 := m.(consentGiven := true);
    if m.storageAvailable && m.settings.allowLocalStorage then (m1, storage[ConsentKey := ConsentRecordOf(m.settings)])
    else (m1, storage)
  }

  /** Saved consent is read back as given, with the settings it was saved with. */
  lemma ConsentRoundTrip(m: Manager, storage: LocalStorage, later: Manager)
    requires CanUseStorage(m) && later.storageAvailable
    ensures var (_, written) := SaveConsent(m, storage);
      var r := CheckExistingConsent(later, written);
      r.consentGiven && r.settings == m.settings
  {
  }

  // ---------------------------------------------------------------------
  // Gated storage operations
  // ---------------------------------------------------------------------

  /** Writes a value under a key when storage may be used; reports whether it wrote. */
  function SaveData(m: Manager, storage: LocalStorage, key: string, value: Stored): (r: (bool, LocalStorage))
    ensures r.0 <==> CanUseStorage(m)
    ensures !r.0 ==> r.1 == storage
    ensures r.0 ==> key in r.1 && r.1[key] == value
    ensures forall k | k != key :: (k in r.1 <==> k in storage) && (k in storage ==> r.1[k] == storage[k])
  {
    if !CanUseStorage(m) then (false, storage) else (true, storage[key := value])
  }

  /**
   * Reads the value under a key when storage may be used. Nothing comes
   * back when storage may not be used, the key is missing, or its text does
   * not parse.
   */
  function LoadData(m: Manager, storage: LocalStorage, key: string): (r: Option<Stored>)
    ensures r.Some? <==> CanUseStorage(m) && key in storage && !storage[key].Unparseable?
    ensures r.Some? ==> r.value == storage[key]
  {
    if !CanUseStorage(m) || key !in storage then None
    else if storage[key].Unparseable? then None
    else Some(storage[key])
  }

  /** A value saved under a key is loaded back unchanged. */
  lemma SaveLoadData(m: Manager, storage: LocalStorage, key: string, value: Stored)
    requires CanUseStorage(m) && !value.Unparseable?
    ensures LoadData(m, SaveData(m, storage, key, value).1, key) == Some(value)
  {
  }

  /** Removes a key when storage may be used; reports whether it did. */
  function ClearData(m: Manager, storage: LocalStorage, key: string): (r: (bool, LocalStorage))
    ensures r.0 <==> CanUseStorage(m)
    ensures !r.0 ==> r.1 == storage
    ensures r.0 ==> key !in r.1
    ensures forall k | k != key :: (k in r.1 <==> k in storage) && (k in storage ==> r.1[k] == storage[k])
  {
    if !CanUseStorage(m) then (false, storage) else (true, storage - {key})
  }

  /**
   * Clears the assessment data but keeps the consent: the data key is
   * removed and the consent key keeps the value it had (it is read before
   * and written back after).
   */
  function ClearAllData(m: Manager, storage: LocalStorage): (r: (bool, LocalStorage))
    ensures r.0 <==> CanUseStorage(m)
    ensures !r.0 ==> r.1 == storage
    ensures r.0 ==> DataKey !in r.1
    ensures ConsentKey in r.1 <==> ConsentKey in storage
    ensures ConsentKey in storage ==> r.1[ConsentKey] == storage[ConsentKey]
    ensures forall k | k != DataKey :: (k in r.1 <==> k in storage) && (k in storage ==> r.1[k] == storage[k])
  {
    if !CanUseStorage(m) then (false, storage)
    else
      var saved := if ConsentKey in storage then Some(storage[ConsentKey]) else None;
      var cleared := storage - {DataKey};
      var restored := if saved.Some? then cleared[ConsentKey := saved.value] else cleared;
      (true, restored)
  }

  /** Clearing everything and then reading the consent at start-up finds the same consent as before. */
  lemma ClearAllKeepsConsent(m: Manager, storage: LocalStorage, later: Manager)
    ensures CheckExistingConsent(later, ClearAllData(m, storage).1) == CheckExistingConsent(later, storage)
  {
  }
}

=== FILE: question_table.dfy ===
/**
 * The shape of the question database: for every part, category and
 * subcategory, the length of its list of true/false statements. The
 * statement texts themselves are content and are not modelled; only their
 * counts matter, because they fix the highest score a category can reach.
 */
module QuestionTable {
  import opened Domain

  /** Number of statements listed for one (part, category, subcategory). */
  function ItemCount(p: Part, c: Category, s: Subcategory): nat {
    match p
    case Part1 =>
      (match c
       case Dopamine => 10
       case Acetylcholine => 10
       case Gaba => 10
       case Serotonin => 10)
    case Part2 =>
      (match c
       case Dopamine => 7
       case Acetylcholine => 7
       case Gaba => 7
       case Serotonin => 7)
  }

  /** Sum of the list lengths of `subs` for one part and category. */
  function SubTotal(p: Part, c: Category, subs: seq<Subcategory>): nat {
    if |subs| == 0 then 0 else ItemCount(p, c, subs[0]) + SubTotal(p, c, subs[1..])
  }

  /**
   * The highest score a category can reach in a part: one point per listed
   * statement over its four subcategories. These are the denominators of the
   * gap normalisation.
   */
  function CategoryMax(p: Part, c: Category): (n: nat)
    ensures p == Part1 ==> n == 40
    ensures p == Part2 ==> n == 28
  {
    var subs := AllSubcategories;
    assert SubTotal(p, c, subs[3..]) == ItemCount(p, c, Character) by {
      assert subs[3..][1..] == [];
    }
    assert SubTotal(p, c, subs[2..]) == ItemCount(p, c, Personality) + SubTotal(p, c, subs[3..]) by {
      assert subs[2..][1..] == subs[3..];
    }
    assert SubTotal(p, c, subs[1..]) == ItemCount(p, c, Physical) + SubTotal(p, c, subs[2..]) by {
      assert subs[1..][1..] == subs[2..];
    }
    SubTotal(p, c, subs)
  }

  /** Sum of the category maxima of `cats` for one part. */
  function CategoriesTotal(p: Part, cats: seq<Category>): nat {
    if |cats| == 0 then 0 else CategoryMax(p, cats[0]) + CategoriesTotal(p, cats[1..])
  }

  /** Number of statements in a whole part. */
  function PartTotal(p: Part): (n: nat)
    ensures p == Part1 ==> n == 160
    ensures p == Part2 ==> n == 112
  {
    var cats := AllCategories;
    assert CategoriesTotal(p, cats[3..]) == CategoryMax(p, Serotonin) by {
      assert cats[3..][1..] == [];
    }
    assert CategoriesTotal(p, cats[2..]) == CategoryMax(p, Gaba) + CategoriesTotal(p, cats[3..]) by {
      assert cats[2..][1..] == cats[3..];
    }
    assert CategoriesTotal(p, cats[1..]) == CategoryMax(p, Acetylcholine) + CategoriesTotal(p, cats[2..]) by {
      assert cats[1..][1..] == cats[2..];
    }
    CategoriesTotal(p, cats)
  }

  /** The per-category maxima are the constants the gap formula divides by. */
  const DominanceDenominator: nat := 40
  const DeficiencyDenominator: nat := 28

  lemma MaximaMatchGapDenominators(c: Category)
    ensures CategoryMax(Part1, c) == DominanceDenominator
    ensures CategoryMax(Part2, c) == DeficiencyDenominator
    ensures forall s :: ItemCount(Part1, c, s) == 10 && ItemCount(Part2, c, s) == 7
  {
  }
}

=== FILE: questionnaire.dfy ===
/**
 * The questionnaire controller: its state (current section, name, answers,
 * scores, visited-section flags), the operations that change it, the
 * snapshot it saves to and loads from storage, and its listener registry.
 * Page rendering is not modelled: which sections exist on the page is a
 * parameter of navigation.
 */
module Questionnaire {
  import opened Wrappers
  import opened Domain
  import opened QuestionTable
  import opened ResponseStore
  import opened Storage
  import Navigation

  datatype State = State(
    currentSection: string,
    userName: string,
    responses: Store,
    scores: Scores,
    progress: map<string, bool>)

  /** The visited flags of a fresh questionnaire: every section listed, only the welcome page visited. */
  function InitialProgress(): (m: map<string, bool>)
    ensures m.Keys == set id | id in Navigation.SectionSequence
    ensures forall id | id in m :: m[id] <==> id == "welcome"
  {
    map id | id in Navigation.SectionSequence :: id == "welcome"
  }

  /** The state of a fresh questionnaire. */
  function InitialState(): State {
    State("welcome", "", EmptyStore, InitialScores, InitialProgress())
  }

  // ---------------------------------------------------------------------
  // Saving and loading
  // ---------------------------------------------------------------------

  /** The record the controller writes: every field present. */
  function Snapshot(st: State): Stored {
    DataRecord(Some(st.userName), Some(st.responses), Some(st.scores), Some(st.progress))
  }

  /** Writes the snapshot under the data key; every other key keeps its value. */
  function SaveResponses(st: State, storage: LocalStorage): (r: LocalStorage)
    ensures DataKey in r && r[DataKey] == Snapshot(st)
    ensures forall k | k != DataKey :: (k in r <==> k in storage) && (k in storage ==> r[k] == storage[k])
  {
    storage[DataKey := Snapshot(st)]
  }

  /**
   * Loading the saved snapshot. Nothing is loaded when the key is missing or
   * its text does not parse. Otherwise each field the record has replaces
   * the corresponding part of the state, without any check of its shape;
   * the name is replaced only when the saved one is non-empty.
   */
  function LoadResponses(st: State, storage: LocalStorage): (r: (bool, State))
    ensures r.0 <==> DataKey in storage && !storage[DataKey].Unparseable?
    ensures !r.0 ==> r.1 == st
    ensures r.1.currentSection == st.currentSection
    ensures r.0 && storage[DataKey].DataRecord? ==>
      var rec := storage[DataKey];
      && r.1.userName == (if rec.userName.Some? && rec.userName.value != "" then rec.userName.value else st.userName)
      && r.1.responses == rec.responses.GetOr(st.responses)
      && r.1.scores == rec.scores.GetOr(st.scores)
      && r.1.progress == rec.progress.GetOr(st.progress)
    ensures r.0 && storage[DataKey].ConsentRecord? ==> r.1 == st
  {
    if DataKey !in storage then (false, st)
    else
      match storage[DataKey]
      case Unparseable => (false, st)
      case ConsentRecord(_, _) => (true, st)
      case DataRecord(name, responses, scores, progress) =>
        var st1 := if name.Some? && name.value != "" then st.(userName := name.value) else st;
        var st2 := if responses.Some? then st1.(responses := responses.value) else st1;
        var st3 := if scores.Some? then st2.(scores := scores.value) else st2;
        var st4 := if progress.Some? then st3.(progress := progress.value) else st3;
        (true, st4)
  }

  /**
   * Round trip: loading what was saved restores the answers, scores and
   * flags, and the name too unless it was empty; the current section is
   * the loading state's own.
   */
  lemma SaveLoadRoundTrip(saved: State, current: State, storage: LocalStorage)
    ensures var (ok, st) := LoadResponses(current, SaveResponses(saved, storage));
      && ok
      && st.responses == saved.responses
      && st.scores == saved.scores
      && st.progress == saved.progress
      && st.userName == (if saved.userName != "" then saved.userName else current.userName)
      && st.currentSection == current.currentSection
  {
  }

  // ---------------------------------------------------------------------
  // Answering and navigating
  // ---------------------------------------------------------------------

  /** An answer handler: records the answer and saves the snapshot. */
  function Answer(st: State, storage: LocalStorage, k: Cell, value: bool): (r: (State, LocalStorage))
    ensures r.0 == st.(responses := Record(st.responses, k, value))
    ensures DataKey in r.1 && r.1[DataKey] == Snapshot(r.0)
  {
    var st1 := st.(responses := Record(st.responses, k, value));
    (st1, SaveResponses(st1, storage))
  }

  /**
   * Showing a section. When the section is on the page it becomes current,
   * its visited flag is set, the scores are recomputed if it is the results
   * page, and the snapshot is saved. A section missing from the page
   * changes nothing.
   */
  function NavigateTo(st: State, storage: LocalStorage, present: set<string>, id: string): (r: (State, LocalStorage))
    ensures id !in present ==> r == (st, storage)
    ensures id in present ==>
      && r.0.currentSection == id
      && id in r.0.progress && r.0.progress[id]
      && DataKey in r.1 && r.1[DataKey] == Snapshot(r.0)
      && (forall k | k != DataKey :: (k in r.1 <==> k in storage) && (k in storage ==> r.1[k] == storage[k]))
    ensures forall s | s != id :: (s in r.0.progress <==> s in st.progress)
    ensures forall s | s != id && s in st.progress :: r.0.progress[s] == st.progress[s]
    ensures r.0.responses == st.responses && r.0.userName == st.userName
    ensures r.0.scores == (if id in present && id == "results" then ScoresOf(st.responses) else st.scores)
  {
    if id !in present then (st, storage)
    else
      var st1 := st.(currentSection := id, progress := st.progress[id := true]);
      var st2 := if id == "results" then st1.(scores := ScoresOf(st1.responses)) else st1;
      (st2, SaveResponses(st2, storage))
  }

  /** Navigation never clears a visited flag. */
  lemma NavigationKeepsVisited(st: State, storage: LocalStorage, present: set<string>, id: string, s: string)
    requires s in st.progress && st.progress[s]
    ensures s in NavigateTo(st, storage, present, id).0.progress
    ensures NavigateTo(st, storage, present, id).0.progress[s]
  {
  }

  /**
   * When every answer addresses a listed statement, the scores the results
   * page computes are at most 40 in part 1 and 28 in part 2.
   */
  lemma ResultsScoresBounded(st: State, storage: LocalStorage, present: set<string>, c: Category)
    requires WellFormed(st.responses)
    requires "results" in present
    ensures 0 <= NavigateTo(st, storage, present, "results").0.scores.part1.Get(c) <= 40
    ensures 0 <= NavigateTo(st, storage, present, "results").0.scores.part2.Get(c) <= 28
  {
    ScoreBound(st.responses, Part1, c);
    ScoreBound(st.responses, Part2, c);
  }

  /** Answers to listed statements, recorded on a store that holds only listed statements, keep it so. */
  lemma {:induction false} HandlerAnswersWellFormed(st: State, storage: LocalStorage, answers: seq<(Cell, bool)>)
    requires WellFormed(st.responses)
    requires forall i | 0 <= i < |answers| :: answers[i].0.index < QuestionTableCount(answers[i].0)
    ensures WellFormed(AnswerAll(st, storage, answers).0.responses)
    decreases |answers|
  {
    if |answers| > 0 {
      var (k, v) := answers[0];
      RecordWellFormed(st.responses, k, v);
      var (st1, storage1) := Answer(st, storage, k, v);
      HandlerAnswersWellFormed(st1, storage1, answers[1..]);
    }
  }

  function QuestionTableCount(k: Cell): nat {
    ItemCount(k.part, k.category, k.subcategory)
  }

  /** A sequence of answer-handler calls. */
  function AnswerAll(st: State, storage: LocalStorage, answers: seq<(Cell, bool)>): (State, LocalStorage)
    decreases |answers|
  {
    if |answers| == 0 then (st, storage)
    else
      var (st1, storage1) := Answer(st, storage, answers[0].0, answers[0].1);
      AnswerAll(st1, storage1, answers[1..])
  }

  // ---------------------------------------------------------------------
  // Reset
  // ---------------------------------------------------------------------

  /**
   * Starting over: the state returns to a fresh questionnaire, the saved
   * snapshot is removed, and showing the welcome page saves the fresh
   * snapshot again when that page exists. The consent key is untouched.
   */
  function ResetQuestionnaire(st: State, storage: LocalStorage, present: set<string>): (r: (bool, State, LocalStorage))
    ensures r.0
    ensures r.1.responses == EmptyStore && r.1.scores == InitialScores && r.1.userName == ""
    ensures r.1.currentSection == "welcome"
    ensures forall id | id in r.1.progress :: r.1.progress[id] <==> id == "welcome"
    ensures r.1.progress.Keys == set id | id in Navigation.SectionSequence
    ensures forall k | k != DataKey :: (k in r.2 <==> k in storage) && (k in storage ==> r.2[k] == storage[k])
    ensures DataKey in r.2 <==> "welcome" in present
    ensures DataKey in r.2 ==> r.2[DataKey] == Snapshot(InitialState())
  {
    var initial := InitialState();
    var cleared := storage - {DataKey};
    var (st1, storage1) := NavigateTo(initial, cleared, present, "welcome");
    assert InitialProgress()["welcome" := true] == InitialProgress();
    (true, st1, storage1)
  }

  /** After a reset every score is 0. */
  lemma ResetScoresZero(st: State, storage: LocalStorage, present: set<string>, p: Part, c: Category)
    ensures ResetQuestionnaire(st, storage, present).1.scores.Of(p).Get(c) == 0
  {
  }

  // ---------------------------------------------------------------------
  // Listener registry
  // ---------------------------------------------------------------------

  /** A listener is known only by its identity. */
  datatype Callback = Callback(id: nat)

  type Listeners = map<string, seq<Callback>>

  /** Registers `cb` for `event`, after every listener already registered for it. */
  function AddEventListener(l: Listeners, event: string, cb: Callback): (r: Listeners)
    ensures event in r
    ensures r[event] == (if event in l then l[event] else []) + [cb]
    ensures forall e | e != event :: (e in r <==> e in l) && (e in l ==> r[e] == l[e])
  {
    l[event := (if event in l then l[event] else []) + [cb]]
  }

  /** The listeners of `xs` other than `cb`, in their order. */
  function Without(xs: seq<Callback>, cb: Callback): (r: seq<Callback>)
    ensures cb !in r
    ensures forall x | x != cb :: multiset(r)[x] == multiset(xs)[x]
    ensures |r| <= |xs|
  {
    if |xs| == 0 then []
    else
      assert xs == [xs[0]] + xs[1..];
      if xs[0] == cb then Without(xs[1..], cb)
      else [xs[0]] + Without(xs[1..], cb)
  }

  /** Removal works element by element, so the remaining listeners keep their order. */
  lemma {:induction false} WithoutAppend(a: seq<Callback>, b: seq<Callback>, cb: Callback)
    ensures Without(a + b, cb) == Without(a, cb) + Without(b, cb)
    decreases |a|
  {
    if |a| == 0 {
      assert a + b == b;
    } else {
      assert (a + b)[1..] == a[1..] + b;
      WithoutAppend(a[1..], b, cb);
    }
  }

  /** Removing a listener that is not registered changes nothing. */
  lemma {:induction false} WithoutAbsent(xs: seq<Callback>, cb: Callback)
    requires cb !in xs
    ensures Without(xs, cb) == xs
    decreases |xs|
  {
    if |xs| > 0 {
      assert cb !in xs[1..];
      WithoutAbsent(xs[1..], cb);
    }
  }

  /** Unregisters every registration of `cb` for `event`; an unknown event is left alone. */
  function RemoveEventListener(l: Listeners, event: string, cb: Callback): (r: Listeners)
    ensures event !in l ==> r == l
    ensures event in l ==> event in r && cb !in r[event]
    ensures event in l ==> r[event] == Without(l[event], cb)
    ensures forall e | e != event :: (e in r <==> e in l) && (e in l ==> r[e] == l[e])
  {
    if event !in l then l else l[event := Without(l[event], cb)]
  }

  /**
   * The listeners of `event` other than `cb` stay in their order: each one
   * ends up after the survivors of the listeners registered before it and
   * before the survivors of those registered after it.
   */
  lemma {:induction false} RemoveKeepsOrder(l: Listeners, event: string, cb: Callback, i: nat)
    requires event in l && i < |l[event]| && l[event][i] != cb
    ensures var xs := l[event];
      RemoveEventListener(l, event, cb)[event] == Without(xs[..i], cb) + [xs[i]] + Without(xs[i + 1..], cb)
  {
    var xs := l[event];
    assert xs == xs[..i] + ([xs[i]] + xs[i + 1..]);
    WithoutAppend(xs[..i], [xs[i]] + xs[i + 1..], cb);
    WithoutAppend([xs[i]], xs[i + 1..], cb);
    assert Without([xs[i]], cb) == [xs[i]];
  }

  /** The listeners a dispatch of `event` calls, in the order it calls them; none for an unknown event. */
  function DispatchEvent(l: Listeners, event: string): (calls: seq<Callback>)
    ensures event !in l ==> calls == []
    ensures forall x | x in calls :: event in l && x in l[event]
  {
    if event !in l then [] else l[event]
  }

  /** A listener added last is called last. */
  lemma AddThenDispatch(l: Listeners, event: string, cb: Callback)
    ensures DispatchEvent(AddEventListener(l, event, cb), event) == DispatchEvent(l, event) + [cb]
  {
  }

  /** Adding a new listener and removing it again leaves the calls of that event as they were. */
  lemma AddRemoveInverse(l: Listeners, event: string, cb: Callback)
    requires cb !in DispatchEvent(l, event)
    ensures DispatchEvent(RemoveEventListener(AddEventListener(l, event, cb), event, cb), event) == DispatchEvent(l, event)
  {
    var before := DispatchEvent(l, event);
    WithoutAppend(before, [cb], cb);
    WithoutAbsent(before, cb);
    assert Without([cb], cb) == [];
  }
}

=== FILE: response_store.dfy ===
/**
 * The answers given so far, one true/false value per statement, and the
 * score calculation over them. In the program the answers live in nested
 * objects `responses[part][category][subcategory][index]`; here they form
 * one map from the full address of a statement to the recorded answer.
 */
module ResponseStore {
  import opened Domain
  import opened QuestionTable
  import opened Sets

  /** The address of one statement: part, category, subcategory and position in its list. */
  datatype Cell = Cell(part: Part, category: Category, subcategory: Subcategory, index: nat)

  /** The recorded answers; a statement absent from the map has not been answered. */
  datatype Store = Store(cells: map<Cell, bool>)

  const EmptyStore: Store := Store(map[])

  /** Records `value` for one statement, replacing any earlier answer to it. */
  function Record(s: Store, k: Cell, value: bool): (r: Store)
    ensures k in r.cells && r.cells[k] == value
    ensures forall j | j != k :: (j in r.cells <==> j in s.cells)
    ensures forall j | j != k && j in s.cells :: r.cells[j] == s.cells[j]
  {
    Store(s.cells[k := value])
  }

  /** Answering the same statement the same way twice is the same as answering it once. */
  lemma RecordIdempotent(s: Store, k: Cell, value: bool)
    ensures Record(Record(s, k, value), k, value) == Record(s, k, value)
  {
  }

  /** A later answer to a statement replaces the earlier one. */
  lemma RecordOverwrites(s: Store, k: Cell, first: bool, second: bool)
    ensures Record(Record(s, k, first), k, second) == Record(s, k, second)
  {
  }

  /** The statements of one part and category answered `true`. */
  function TrueCells(s: Store, p: Part, c: Category): set<Cell> {
    set k | k in s.cells && k.part == p && k.category == c && s.cells[k]
  }

  /** The reference score: how many statements of the part and category were answered `true`. */
  function ScoreOf(s: Store, p: Part, c: Category): nat {
    |TrueCells(s, p, c)|
  }

  function ScoreMapOf(s: Store, p: Part): ScoreMap {
    ScoreMap(ScoreOf(s, p, Dopamine), ScoreOf(s, p, Acetylcholine), ScoreOf(s, p, Gaba), ScoreOf(s, p, Serotonin))
  }

  /** The scores of both parts, as the reference definition gives them. */
  function ScoresOf(s: Store): Scores {
    Scores(ScoreMapOf(s, Part1), ScoreMapOf(s, Part2))
  }

  /** Adds one to the score of `c` in part `p`. */
  function Bump(scores: Scores, p: Part, c: Category): (r: Scores)
    ensures forall q, d :: r.Of(q).Get(d) == scores.Of(q).Get(d) + (if q == p && d == c then 1 else 0)
  {
    match p
    case Part1 => Scores(scores.part1.Set(c, scores.part1.Get(c) + 1), scores.part2)
    case Part2 => Scores(scores.part1, scores.part2.Set(c, scores.part2.Get(c) + 1))
  }

  /**
   * The score calculation: start every score at 0 and add one for every
   * recorded answer that is `true`; `false` answers and unanswered
   * statements add nothing. The loop visits the answers in an arbitrary
   * order, so the result does not depend on the order the program's nested
   * loops visit them in.
   */
  method CalculateScores(store: Store) returns (scores: Scores)
    ensures forall p, c :: scores.Of(p).Get(c) == ScoreOf(store, p, c)
    ensures scores == ScoresOf(store)
  {
    scores := InitialScores;
    var remaining := store.cells.Keys;
    while remaining != {}
      invariant remaining <= store.cells.Keys
      invariant Counted(store, scores, remaining)
      decreases |remaining|
    {
      var k :| k in remaining;
      CountStep(store, scores, remaining, k);
      if store.cells[k] {
        scores := Bump(scores, k.part, k.category);
      }
      remaining := remaining - {k};
    }
    CountedAll(store, scores);
  }

  /** Every score counts the `true` answers among the statements already visited. */
  ghost predicate Counted(store: Store, scores: Scores, remaining: set<Cell>) {
    forall p, c :: scores.Of(p).Get(c) == |TrueCells(store, p, c) - remaining|
  }

  lemma CountStep(store: Store, scores: Scores, remaining: set<Cell>, k: Cell)
    requires k in remaining && remaining <= store.cells.Keys
    requires Counted(store, scores, remaining)
    ensures Counted(store, if store.cells[k] then Bump(scores, k.part, k.category) else scores, remaining - {k})
  {
    var next := if store.cells[k] then Bump(scores, k.part, k.category) else scores;
    forall p, c
      ensures next.Of(p).Get(c) == |TrueCells(store, p, c) - (remaining - {k})|
    {
      RemoveOneCard(TrueCells(store, p, c), remaining, k);
      assert k in TrueCells(store, p, c) <==> store.cells[k] && k.part == p && k.category == c;
    }
  }

  lemma CountedAll(store: Store, scores: Scores)
    requires Counted(store, scores, {})
    ensures forall p, c :: scores.Of(p).Get(c) == ScoreOf(store, p, c)
    ensures scores == ScoresOf(store)
  {
    forall p, c
      ensures scores.Of(p).Get(c) == ScoreOf(store, p, c)
    {
      assert TrueCells(store, p, c) - {} == TrueCells(store, p, c);
    }
    assert scores.Of(Part1).Get(Dopamine) == ScoreOf(store, Part1, Dopamine);
    assert scores.Of(Part1).Get(Acetylcholine) == ScoreOf(store, Part1, Acetylcholine);
    assert scores.Of(Part1).Get(Gaba) == ScoreOf(store, Part1, Gaba);
    assert scores.Of(Part1).Get(Serotonin) == ScoreOf(store, Part1, Serotonin);
    assert scores.Of(Part2).Get(Dopamine) == ScoreOf(store, Part2, Dopamine);
    assert scores.Of(Part2).Get(Acetylcholine) == ScoreOf(store, Part2, Acetylcholine);
    assert scores.Of(Part2).Get(Gaba) == ScoreOf(store, Part2, Gaba);
    assert scores.Of(Part2).Get(Serotonin) == ScoreOf(store, Part2, Serotonin);
  }

  /**
   * The effect of one answer on the scores: only the score of the answered
   * part and category can change, by +1 when a `true` replaces a non-`true`
   * answer and by -1 when a non-`true` replaces a `true` one. In particular
   * answers in one part never change the scores of the other part.
   */
  lemma RecordScoreEffect(s: Store, k: Cell, value: bool, p: Part, c: Category)
    ensures ScoreOf(Record(s, k, value), p, c) ==
      ScoreOf(s, p, c) +
      (if k.part == p && k.category == c then
         (if value then 1 else 0) - (if k in s.cells && s.cells[k] then 1 else 0)
       else 0)
  {
    if k.part == p && k.category == c {
      RecordScoreSameRow(s, k, value);
    } else {
      RecordScoreOtherRow(s, k, value, p, c);
    }
  }

  lemma RecordScoreSameRow(s: Store, k: Cell, value: bool)
    ensures ScoreOf(Record(s, k, value), k.part, k.category) + (if k in s.cells && s.cells[k] then 1 else 0) ==
      ScoreOf(s, k.part, k.category) + (if value then 1 else 0)
  {
    var before := TrueCells(s, k.part, k.category);
    var after := TrueCells(Record(s, k, value), k.part, k.category);
    assert after - {k} == before - {k};
    CardSwap(after, before, k);
    assert k in after <==> value;
    assert k in before <==> k in s.cells && s.cells[k];
  }

  /** Two sets that differ at most in `k` differ in size by whether each holds `k`. */
  lemma RecordScoreOtherRow(s: Store, k: Cell, value: bool, p: Part, c: Category)
    requires k.part != p || k.category != c
    ensures ScoreOf(Record(s, k, value), p, c) == ScoreOf(s, p, c)
  {
    assert TrueCells(Record(s, k, value), p, c) == TrueCells(s, p, c);
  }

  /**
   * Scores depend only on the answers of their own part: two stores that
   * agree on every statement of part `p` give part `p` the same scores.
   */
  lemma PartIndependence(s1: Store, s2: Store, p: Part)
    requires forall k: Cell | k.part == p :: (k in s1.cells <==> k in s2.cells)
    requires forall k: Cell | k.part == p && k in s1.cells && k in s2.cells :: s1.cells[k] == s2.cells[k]
    ensures ScoresOf(s1).Of(p) == ScoresOf(s2).Of(p)
  {
    forall c
      ensures TrueCells(s1, p, c) == TrueCells(s2, p, c)
    {
      assert forall k | k in TrueCells(s1, p, c) :: k in TrueCells(s2, p, c);
      assert forall k | k in TrueCells(s2, p, c) :: k in TrueCells(s1, p, c);
    }
  }

  // ---------------------------------------------------------------------
  // Bounds
  // ---------------------------------------------------------------------

  /**
   * Every recorded answer addresses a statement of the question table: the
   * answer handlers write the position the statement has in its list.
   */
  ghost predicate WellFormed(s: Store) {
    forall k | k in s.cells :: k.index < ItemCount(k.part, k.category, k.subcategory)
  }

  /** Recording an answer to a listed statement keeps the store well formed. */
  lemma RecordWellFormed(s: Store, k: Cell, value: bool)
    requires WellFormed(s)
    requires k.index < ItemCount(k.part, k.category, k.subcategory)
    ensures WellFormed(Record(s, k, value))
  {
  }

  function SubIndex(s: Subcategory): nat {
    match s
    case MemoryAttention => 0
    case Physical => 1
    case Personality => 2
    case Character => 3
  }

  /** A numbering of the statements of one part and category, 0 up to the category maximum. */
  function Code(k: Cell): nat {
    SubIndex(k.subcategory) * ItemCount(k.part, k.category, k.subcategory) + k.index
  }

  ghost function Codes(a: set<Cell>): set<nat> {
    set k | k in a :: Code(k)
  }

  /** Within one part and category, distinct listed statements get distinct codes below the maximum. */
  lemma CodeInjective(a: Cell, b: Cell)
    requires a.part == b.part && a.category == b.category
    requires a.index < ItemCount(a.part, a.category, a.subcategory)
    requires b.index < ItemCount(b.part, b.category, b.subcategory)
    ensures Code(a) < CategoryMax(a.part, a.category)
    ensures Code(a) == Code(b) ==> a == b
  {
    var m := CategoryMax(a.part, a.category);
    if SubIndex(a.subcategory) < SubIndex(b.subcategory) {
      assert Code(a) < Code(b);
    } else if SubIndex(b.subcategory) < SubIndex(a.subcategory) {
      assert Code(b) < Code(a);
    } else {
      assert a.subcategory == b.subcategory;
    }
  }

  lemma {:induction false} CodesCard(a: set<Cell>)
    requires forall x, y | x in a && y in a && Code(x) == Code(y) :: x == y
    ensures |Codes(a)| == |a|
  {
    if a != {} {
      var x :| x in a;
      var rest := a - {x};
      CodesCard(rest);
      assert Codes(a) == Codes(rest) + {Code(x)};
      assert Code(x) !in Codes(rest);
    }
  }

  lemma {:induction false} BoundedCard(xs: set<nat>, n: nat)
    requires forall x | x in xs :: x < n
    ensures |xs| <= n
  {
    if n == 0 {
      assert xs == {};
    } else {
      BoundedCard(xs - {n - 1}, n - 1);
    }
  }

  /**
   * With answers only to listed statements, a category scores at most its
   * number of statements: 40 in part 1 and 28 in part 2.
   */
  lemma ScoreBound(s: Store, p: Part, c: Category)
    requires WellFormed(s)
    ensures ScoreOf(s, p, c) <= CategoryMax(p, c)
    ensures p == Part1 ==> ScoreOf(s, p, c) <= 40
    ensures p == Part2 ==> ScoreOf(s, p, c) <= 28
  {
    var a := TrueCells(s, p, c);
    forall x, y | x in a && y in a
      ensures Code(x) < CategoryMax(p, c)
      ensures Code(x) == Code(y) ==> x == y
    {
      CodeInjective(x, y);
    }
    CodesCard(a);
    BoundedCard(Codes(a), CategoryMax(p, c));
  }
}

=== FILE: sets.dfy ===
/** Cardinality facts about finite sets, used by the counting proofs. */
module Sets {

  /** Taking one more element out of the removed set adds it back when it belongs to `a`. */
  lemma RemoveOneCard<T>(a: set<T>, removed: set<T>, k: T)
    requires k in removed
    ensures |a - (removed - {k})| == |a - removed| + (if k in a then 1 else 0)
  {
    if k in a {
      assert a - (removed - {k}) == (a - removed) + {k};
    } else {
      assert a - (removed - {k}) == a - removed;
    }
  }

  /** Sets that differ at most in `k` differ in size by what `k` contributes. */
  lemma CardSwap<T>(a: set<T>, b: set<T>, k: T)
    requires a - {k} == b - {k}
    ensures |a| + (if k in b then 1 else 0) == |b| + (if k in a then 1 else 0)
  {
    SplitCard(a, k);
    SplitCard(b, k);
  }

  /** A set is its other elements plus, when present, `k`. */
  lemma SplitCard<T>(a: set<T>, k: T)
    ensures |a| == |a - {k}| + (if k in a then 1 else 0)
  {
    if k in a {
      assert a == (a - {k}) + {k};
    } else {
      assert a == a - {k};
    }
  }

  /** A subset missing an element of its superset is strictly smaller. */
  lemma ProperSubsetSmaller<T>(a: set<T>, b: set<T>, w: T)
    requires a <= b && w in b && w !in a
    ensures |a| < |b|
  {
    assert a <= b - {w};
    assert |b - {w}| == |b| - 1;
    SubsetCard(a, b - {w});
  }

  lemma {:induction false} SubsetCard<T>(a: set<T>, b: set<T>)
    requires a <= b
    ensures |a| <= |b|
    decreases |b|
  {
    if b != {} {
      var x :| x in b;
      SubsetCard(a - {x}, b - {x});
    }
  }
}

=== FILE: stable_sort.dfy ===
/**
 * The descending stable sort the program applies three times (deficiencies
 * by score, gaps by absolute percentage, the non-dominant categories by
 * score), each time with the comparator `(a, b) => key(b) - key(a)`.
 *
 * A stable sort is determined by its key: every stable sort puts the same
 * input in the same output order. The model therefore uses insertion sort,
 * inserting each element after every earlier element whose key is at least
 * as large.
 */
module StableSort {

  /** Keys never increase from left to right. */
  ghost predicate SortedDesc<T>(s: seq<T>, key: T -> int) {
    forall i, j | 0 <= i < j < |s| :: key(s[i]) >= key(s[j])
  }

  /** Ranks strictly increase from left to right (the input enumeration order). */
  ghost predicate RankIncreasing<T>(s: seq<T>, rank: T -> int) {
    forall i, j | 0 <= i < j < |s| :: rank(s[i]) < rank(s[j])
  }

  /**
   * Ordered by key, descending, and among equal keys by rank, ascending:
   * the order a stable descending sort leaves an input that was listed in
   * increasing rank.
   */
  ghost predicate LexOrdered<T>(s: seq<T>, key: T -> int, rank: T -> int) {
    forall i, j | 0 <= i < j < |s| ::
      key(s[i]) > key(s[j]) || (key(s[i]) == key(s[j]) && rank(s[i]) < rank(s[j]))
  }

  /** Inserts `x` after the longest prefix of `s` whose keys are at least `key(x)`. */
  function Insert<T>(x: T, s: seq<T>, key: T -> int): (r: seq<T>)
    ensures multiset(r) == multiset(s) + multiset{x}
    ensures |r| == |s| + 1
  {
    if |s| == 0 then [x]
    else if key(s[0]) >= key(x) then
      assert s == [s[0]] + s[1..];
      [s[0]] + Insert(x, s[1..], key)
    else [x] + s
  }

  /** Every element of an insertion result is the inserted one or came from `s`. */
  lemma InsertMembers<T>(x: T, s: seq<T>, key: T -> int)
    ensures forall y | y in Insert(x, s, key) :: y == x || y in s
  {
    forall y | y in Insert(x, s, key)
      ensures y == x || y in s
    {
      assert y in multiset(Insert(x, s, key));
    }
  }

  lemma {:induction false} InsertSorted<T>(x: T, s: seq<T>, key: T -> int)
    requires SortedDesc(s, key)
    ensures SortedDesc(Insert(x, s, key), key)
  {
    if |s| > 0 && key(s[0]) >= key(x) {
      InsertSorted(x, s[1..], key);
      var tail := Insert(x, s[1..], key);
      InsertMembers(x, s[1..], key);
      assert forall y | y in s[1..] :: key(y) <= key(s[0]);
      assert forall k | 0 <= k < |tail| :: key(tail[k]) <= key(s[0]) by {
        forall k | 0 <= k < |tail| ensures key(tail[k]) <= key(s[0]) {
          assert tail[k] in tail;
        }
      }
    }
  }

  /** Stable insertion sort, descending by `key`. */
  function SortDesc<T>(xs: seq<T>, key: T -> int): (r: seq<T>)
    ensures multiset(r) == multiset(xs)
    ensures |r| == |xs|
    ensures SortedDesc(r, key)
  {
    if |xs| == 0 then []
    else
      var n := |xs| - 1;
      assert xs == xs[..n] + [xs[n]];
      var sorted := SortDesc(xs[..n], key);
      InsertSorted(xs[n], sorted, key);
      Insert(xs[n], sorted, key)
  }

  lemma {:induction false} InsertLex<T>(x: T, s: seq<T>, key: T -> int, rank: T -> int)
    requires LexOrdered(s, key, rank)
    requires forall y | y in s :: rank(y) < rank(x)
    ensures LexOrdered(Insert(x, s, key), key, rank)
  {
    if |s| == 0 {
    } else if key(s[0]) >= key(x) {
      InsertLex(x, s[1..], key, rank);
      var tail := Insert(x, s[1..], key);
      InsertMembers(x, s[1..], key);
      forall k | 0 <= k < |tail|
        ensures key(s[0]) > key(tail[k]) || (key(s[0]) == key(tail[k]) && rank(s[0]) < rank(tail[k]))
      {
        assert tail[k] in tail;
        if tail[k] != x {
          var m :| 0 <= m < |s[1..]| && s[1..][m] == tail[k];
          assert s[1 + m] == tail[k];
        }
      }
      LexCons(s[0], tail, key, rank);
    } else {
      forall k | 0 <= k < |s|
        ensures key(x) > key(s[k])
      {
        assert key(s[k]) <= key(s[0]) || k == 0;
      }
      LexCons(x, s, key, rank);
    }
  }

  /** Prepending an element that precedes every element of `s` keeps the order. */
  lemma LexCons<T>(h: T, s: seq<T>, key: T -> int, rank: T -> int)
    requires LexOrdered(s, key, rank)
    requires forall k | 0 <= k < |s| :: key(h) > key(s[k]) || (key(h) == key(s[k]) && rank(h) < rank(s[k]))
    ensures LexOrdered([h] + s, key, rank)
  {
    var r := [h] + s;
    forall i, j | 0 <= i < j < |r|
      ensures key(r[i]) > key(r[j]) || (key(r[i]) == key(r[j]) && rank(r[i]) < rank(r[j]))
    {
      if i == 0 {
        assert r[j] == s[j - 1];
      } else {
        assert r[i] == s[i - 1] && r[j] == s[j - 1];
      }
    }
  }

  /**
   * Stability: an input listed in strictly increasing rank comes out ordered
   * by key, descending, with ties in input order.
   */
  lemma {:induction false} SortDescStable<T>(xs: seq<T>, key: T -> int, rank: T -> int)
    requires RankIncreasing(xs, rank)
    ensures LexOrdered(SortDesc(xs, key), key, rank)
  {
    if |xs| > 0 {
      var n := |xs| - 1;
      assert RankIncreasing(xs[..n], rank);
      SortDescStable(xs[..n], key, rank);
      var sorted := SortDesc(xs[..n], key);
      forall y | y in sorted
        ensures rank(y) < rank(xs[n])
      {
        assert y in multiset(xs[..n]);
        var m :| 0 <= m < n && xs[..n][m] == y;
        assert xs[m] == y;
      }
      InsertLex(xs[n], sorted, key, rank);
    }
  }

  /** Sorting keeps exactly the elements of the input. */
  lemma SortMembers<T>(xs: seq<T>, key: T -> int)
    ensures forall y :: y in SortDesc(xs, key) <==> y in xs
  {
    var r := SortDesc(xs, key);
    forall y
      ensures y in r <==> y in xs
    {
      assert y in r <==> y in multiset(r);
      assert y in xs <==> y in multiset(xs);
    }
  }

  /**
   * The head of a lexicographically ordered sequence holds the largest key,
   * and the smallest rank among the elements with that key.
   */
  lemma HeadIsFirstMaximum<T>(s: seq<T>, key: T -> int, rank: T -> int)
    requires LexOrdered(s, key, rank) && |s| > 0
    ensures forall y | y in s :: key(y) <= key(s[0])
    ensures forall y | y in s && key(y) == key(s[0]) :: rank(s[0]) <= rank(y)
  {
  }
}

=== FILE: storage.dfy ===
/**
 * The browser's key-value storage, as the program uses it: two keys, each
 * holding the JSON text of one record. The text itself is not modelled;
 * a stored value is either text that does not parse, or the record it
 * parses to, with every field that may be missing as an `Option`.
 */
module Storage {
  import opened Wrappers
  import opened Domain
  import opened ResponseStore

  /** The key of the questionnaire snapshot. */
  const DataKey: string := "neuroTransmitterData"

  /** The key of the saved privacy consent. */
  const ConsentKey: string := "neuroTransmitterConsent"

  /** Saved privacy settings; a missing key leaves the current setting in place when merged. */
  datatype SettingsPatch = SettingsPatch(allowLocalStorage: Option<bool>, allowExport: Option<bool>, autoSave: Option<bool>)

  datatype Stored =
    | Unparseable
      /** The questionnaire snapshot: name, answers, scores and progress flags. */
    | DataRecord(userName: Option<string>, responses: Option<Store>, scores: Option<Scores>, progress: Option<map<string, bool>>)
      /** The consent record: whether consent was given and the settings chosen. */
    | ConsentRecord(consentGiven: Option<bool>, settings: Option<SettingsPatch>)

  type LocalStorage = map<string, Stored>
}

=== FILE: validation.dfy ===
/**
 * The validation manager: eight areas of the application, each with a
 * completion flag and the issues its check found, and the report that
 * summarises them. What each check inspects on the page is not modelled;
 * the issues it finds are a parameter.
 */
module Validation {
  import opened Sets

  datatype Area =
    | QuestionnaireArea | NavigationArea | VisualizationArea | InterpretationArea
    | PrivacyArea | ExportArea | DesignArea | ResponsiveArea

  /** The areas in the order they are declared and checked. */
  const Areas: seq<Area> := [
    QuestionnaireArea, NavigationArea, VisualizationArea, InterpretationArea,
    PrivacyArea, ExportArea, DesignArea, ResponsiveArea]

  lemma AreasListed()
    ensures |Areas| == 8
    ensures forall a: Area :: a in Areas
    ensures forall i, j | 0 <= i < j < |Areas| :: Areas[i] != Areas[j]
  {
    forall a: Area
      ensures a in Areas
    {
      match a
      case QuestionnaireArea => assert Areas[0] == a;
      case NavigationArea => assert Areas[1] == a;
      case VisualizationArea => assert Areas[2] == a;
      case InterpretationArea => assert Areas[3] == a;
      case PrivacyArea => assert Areas[4] == a;
      case ExportArea => assert Areas[5] == a;
      case DesignArea => assert Areas[6] == a;
      case ResponsiveArea => assert Areas[7] == a;
    }
  }

  /** One area's outcome: whether it is complete, and the issues found. */
  datatype AreaResult = AreaResult(complete: bool, issues: seq<string>)

  type Results = map<Area, AreaResult>

  /** Before any check has run: every area incomplete, with no issues. */
  function InitialResults(): (r: Results)
    ensures forall a: Area :: a in r && !r[a].complete && r[a].issues == []
  {
    AreasListed();
    map a: Area | a in Areas :: AreaResult(false, [])
  }

  /** A check's outcome recorded for its area: complete exactly when it found no issue. */
  function RecordIssues(results: Results, area: Area, issues: seq<string>): (r: Results)
    ensures area in r && r[area].issues == issues
    ensures r[area].complete <==> |issues| == 0
    ensures forall a | a != area :: (a in r <==> a in results) && (a in results ==> r[a] == results[a])
  {
    results[area := AreaResult(|issues| == 0, issues)]
  }

  /**
   * Running the checks of `areas` in order, each recording what `found`
   * says it finds; the other areas keep their entries.
   */
  function RunChecks(results: Results, areas: seq<Area>, found: Area -> seq<string>): (r: Results)
    ensures forall a | a in areas :: a in r && r[a] == AreaResult(|found(a)| == 0, found(a))
    ensures forall a | a !in areas :: (a in r <==> a in results) && (a in results ==> r[a] == results[a])
    decreases |areas|
  {
    if |areas| == 0 then results
    else RunChecks(RecordIssues(results, areas[0], found(areas[0])), areas[1..], found)
  }

  /** Every check, run from the initial results. */
  function ValidateAll(found: Area -> seq<string>): (r: Results)
    ensures forall a: Area :: a in r && r[a].issues == found(a) && (r[a].complete <==> found(a) == [])
  {
    AreasListed();
    RunChecks(InitialResults(), Areas, found)
  }

  // ---------------------------------------------------------------------
  // The report
  // ---------------------------------------------------------------------

  const PassedStatus: string := "PASSED"
  const FailedStatus: string := "FAILED"

  lemma StatusesDiffer()
    ensures PassedStatus != FailedStatus
  {
    assert PassedStatus[0] != FailedStatus[0];
  }

  datatype Report = Report(timestamp: string, passed: nat, failed: nat, total: nat, details: Results, status: string)

  ghost function PassedAreas(results: Results): set<Area> {
    set a | a in results && results[a].complete
  }

  ghost function FailedAreas(results: Results): set<Area> {
    set a | a in results && !results[a].complete
  }

  /** The areas counted so far: those of `results` no longer in `remaining`. */
  ghost predicate Tallied(results: Results, remaining: set<Area>, passed: nat, failed: nat) {
    && remaining <= results.Keys
    && passed == |PassedAreas(results) - remaining|
    && failed == |FailedAreas(results) - remaining|
  }

  lemma TallyStep(results: Results, remaining: set<Area>, passed: nat, failed: nat, a: Area)
    requires Tallied(results, remaining, passed, failed) && a in remaining
    ensures results[a].complete ==> Tallied(results, remaining - {a}, passed + 1, failed)
    ensures !results[a].complete ==> Tallied(results, remaining - {a}, passed, failed + 1)
  {
    RemoveOneCard(PassedAreas(results), remaining, a);
    RemoveOneCard(FailedAreas(results), remaining, a);
  }

  /** Every area is either passed or failed, never both; none failed exactly when all are complete. */
  lemma PartitionCard(results: Results)
    ensures |PassedAreas(results)| + |FailedAreas(results)| == |results.Keys|
    ensures |FailedAreas(results)| == 0 <==> forall a | a in results :: results[a].complete
  {
    assert PassedAreas(results) + FailedAreas(results) == results.Keys;
    assert PassedAreas(results) * FailedAreas(results) == {};
  }

  /** Walks the areas once, counting the complete ones and the others. */
  method CountAreas(results: Results) returns (passed: nat, failed: nat, total: nat)
    ensures passed == |PassedAreas(results)| && failed == |FailedAreas(results)|
    ensures total == passed + failed
  {
    passed, failed, total := 0, 0, 0;
    var remaining := results.Keys;
    while remaining != {}
      invariant Tallied(results, remaining, passed, failed)
      invariant total == passed + failed
      decreases |remaining|
    {
      var a :| a in remaining;
      TallyStep(results, remaining, passed, failed, a);
      total := total + 1;
      if results[a].complete {
        passed := passed + 1;
      } else {
        failed := failed + 1;
      }
      remaining := remaining - {a};
    }
    TalliedAll(results, passed, failed);
  }

  lemma TalliedAll(results: Results, passed: nat, failed: nat)
    requires Tallied(results, {}, passed, failed)
    ensures passed == |PassedAreas(results)| && failed == |FailedAreas(results)|
  {
    assert PassedAreas(results) - {} == PassedAreas(results);
    assert FailedAreas(results) - {} == FailedAreas(results);
  }

  /**
   * The report: every area counts towards the total, as passed when it is
   * complete and as failed otherwise; the status is PASSED exactly when
   * nothing failed. The timestamp is the current time, given here.
   */
  method GenerateReport(results: Results, timestamp: string) returns (report: Report)
    ensures report.total == |results.Keys|
    ensures report.passed == |PassedAreas(results)| && report.failed == |FailedAreas(results)|
    ensures report.passed + report.failed == report.total
    ensures report.status == PassedStatus <==> forall a | a in results :: results[a].complete
    ensures report.status == PassedStatus || report.status == FailedStatus
    ensures report.details == results && report.timestamp == timestamp
  {
    var passed, failed, total := CountAreas(results);
    PartitionCard(results);
    StatusesDiffer();
    var status := if failed == 0 then PassedStatus else FailedStatus;
    report := Report(timestamp, passed, failed, total, results, status);
  }

  /** Results that hold every area hold exactly eight. */
  lemma EightAreas(r: Results)
    requires forall a: Area :: a in r
    ensures |r.Keys| == 8
  {
    AreasListed();
    assert r.Keys == set a | a in Areas;
    CardOfDistinct(Areas);
  }

  /** Before any check, the report counts eight areas, all failed. */
  lemma InitialAllFailed()
    ensures |PassedAreas(InitialResults())| == 0
    ensures |FailedAreas(InitialResults())| == 8 == |InitialResults().Keys|
  {
    var r := InitialResults();
    EightAreas(r);
    assert PassedAreas(r) == {};
    assert FailedAreas(r) == r.Keys;
  }

  /** After all checks, the report counts eight areas and passes exactly when no check found an issue. */
  lemma ValidateAllReport(found: Area -> seq<string>)
    ensures |ValidateAll(found).Keys| == 8
    ensures (forall a | a in ValidateAll(found) :: ValidateAll(found)[a].complete) <==> forall a: Area :: found(a) == []
  {
    EightAreas(ValidateAll(found));
  }

  /** A sequence without repetitions has as many distinct elements as positions. */
  lemma {:induction false} CardOfDistinct(s: seq<Area>)
    requires forall i, j | 0 <= i < j < |s| :: s[i] != s[j]
    ensures |set a | a in s| == |s|
    decreases |s|
  {
    if |s| > 0 {
      CardOfDistinct(s[1..]);
      assert (set a | a in s) == (set a | a in s[1..]) + {s[0]};
      assert s[0] !in s[1..];
    }
  }
}
